=== FILE: README.md ===
# CEJ transformer: a Dafny model of the section scanner, the row expander and the reconciliation

The CEJ transformer reads a media-plan workbook. Each worksheet holds one block per advertising
platform:

- a platform title in column B;
- two rows below it, a main header row holding "Funnel Stage", "Format", "Duration", an
  aspect-ratio group, an optional "Languages" group and "TOTAL";
- below that, a sub-header row naming the columns of each group;
- then the data rows.

Every data row becomes one output record per ticked aspect-ratio unit, funnel stage and
selected language.

This project models, on an already-loaded grid of cells:

- **The section locator** of the package (`cej_transformer/parser.py`), module `Parser`. It is a
  forward scan with a cursor. For each block it searches a 30-row window for a "Funnel Stage" row
  and reads the title two rows above it, matching it through `_normalize_platform`. It then
  resolves the mandatory columns, the aspect-ratio group and the language group, collects their
  sub-columns, and yields a `PlatformSection`, or raises.
- **The row expander** (`cej_transformer/transformer.py`), module `Transformer`. It reads each
  block's data rows until the next header row or a blank funnel-stage cell. Its policy is
  tolerant: a TOTAL that disagrees with the ticks is only reported. Each row is expanded by four
  nested loops.
- **The reconciliation** (`cej_transformer/validator.py`), module `Validator`:
  - the TOTAL sums per block;
  - the per-platform dict of expected totals;
  - the platform frequencies of the output;
  - the comparisons and the pass/fail summary.
- **The legacy single-file transformer** (`excel_transformer.py`: `safe_to_numeric` and
  `find_platform_tables_and_transform`), module `Legacy`. It is a second locator and expander.
  It has:
  - an exact title match against the root platform table, which has no LinkedIn;
  - a skip, not an error, for missing headers;
  - its own aspect-ratio group choice and sub-column stop rule;
  - the strict policy: a row whose TOTAL differs from (tick sum x language factor) emits nothing.

Supporting modules:

- `Config`: the constants of both configuration files.
- `Sheet`: cells are `Blank | Num(int) | Text(string)`, and a grid is a sequence of rows. The
  module also defines `str(cell).strip()` (a missing cell reads "nan"), `safe_to_numeric` and the
  "row holds a Funnel Stage cell" test.
- `PyText`: Python's `strip`, `lower`, `upper`, `str(int)`, `int(str)` and `split(sep)[0]`.
- `Platforms`: both title matchers.
- `Nested`: generic nested and early-exit loops used as reference definitions.
- `Wrappers`: `Option` and `Result`.

Each loop of the source is a method whose `ensures` ties its result to a specification function.
The properties the source promises are proved as lemmas about those functions.

Three points where the code's behaviour is easy to misread:

- The first aspect-ratio column is the group's own header column. It is not a column strictly
  after it (`cej_transformer/parser.py:190`).
- The package scan stops when `cursor + 10 >= rows - 5`, after the cursor has already been moved.
- An unknown title does not end the window search. The search goes on with the next row.

## Model

| member | source | states |
|---|---|---|
| Sheet.CellStr | cej_transformer/parser.py:191-192 | `str(cell).strip()` has no white space at either end, and a missing cell reads "nan" |
| Sheet.CellText | cej_transformer/transformer.py:78-83 | the guarded read is trimmed, and is empty exactly when the cell is missing or its stripped text is empty |
| Sheet.SafeToNumeric | cej_transformer/parser.py:36-48 | never fails on the modelled cells: 0 for a missing cell and for text that does not parse, the number itself for a numeric cell, the parsed integer for numeric text |
| Sheet.SafeToNumericReadsDecimal | cej_transformer/parser.py:36-48 | round trip: the text of any integer, padded with white space on both sides, coerces back to that integer |
| Sheet.HeaderCellFromExists | cej_transformer/transformer.py:131-135 | the recursive header-row test holds exactly when some cell of the row, from the given column on, is present and reads "funnel stage" once stripped and lower-cased |
| Sheet.RowStartsNextPlatform | cej_transformer/transformer.py:131-135 | the loop over the row's cells returns true exactly when some cell is a "Funnel Stage" header cell |
| PyText.StripUpperCommute | excel_transformer.py:125 | `strip()` and `upper()` commute, so the legacy `.strip().upper()` is the upper-cased stripped title |
| PyText.ParseDecimal | cej_transformer/parser.py:40 | parsing inverts rendering: `int(str(n)) == n` for every integer |
| PyText.PrefixBefore | cej_transformer/parser.py:153 | `s.split(sep)[0]` is a prefix of `s` without an occurrence of `sep`, and `sep` occurs right after it unless it is all of `s` |
| Platforms.MatchFromFirst | cej_transformer/parser.py:154-158 | the table scan answers exactly when some entry matches, and answers with the display name of the first matching entry |
| Platforms.NormalizePlatform | cej_transformer/parser.py:150-160 | a recognised title always gives a display name of the package's platform table |
| Platforms.NormalizePlatformMatches | cej_transformer/parser.py:150-160 | a title is recognised exactly when its upper-cased stripped form, or that form cut at the first " (", equals an upper-cased key or display name; otherwise the result is None |
| Platforms.NormalizeIgnoresCase | cej_transformer/parser.py:151 | titles that differ only in letter case give the same platform |
| Platforms.LegacyMatch | excel_transformer.py:128-132 | a legacy match is always a display name of the root platform table |
| Platforms.LegacyRecognise | excel_transformer.py:123-132 | reading a stripped title the legacy way gives only display names of the root table |
| Platforms.LegacyNeverLinkedIn | config.py:23-31 | the legacy matcher never answers LinkedIn, whatever the title |
| Parser.IndexFromFirst | cej_transformer/parser.py:174-177 | the search from an index finds the first exact match at or after it, and finds nothing exactly when there is none |
| Parser.IndexOf | cej_transformer/parser.py:163-167 | `headers.index(name)`: a found index holds the name |
| Parser.IndexOfFirst | cej_transformer/parser.py:163-167 | the lookup fails exactly when the name is absent, and otherwise returns its first occurrence |
| Parser.ResolveArGroup | cej_transformer/parser.py:170-178 | a resolved group starts at a column whose header is the group's label |
| Parser.ResolveArGroupChoice | cej_transformer/parser.py:170-178 | the group is the first "Aspect Ratio" column if one exists; otherwise the first "Format" column strictly after the primary Format column; there is none exactly when no such column exists |
| Parser.ColumnsFromWithin | cej_transformer/parser.py:181-198 | the collected columns lie in `[start, end)` and are strictly increasing; each is named by its stripped sub-header, which is non-empty and not "nan" |
| Parser.ColumnsFromMembers | cej_transformer/parser.py:190-197 | a column is collected exactly when it is in range, has a filled sub-header and no column up to it stops collection; a blank sub-header never stops it |
| Parser.FirstColumnCollected | cej_transformer/parser.py:195 | the first column of the range never stops collection: with a filled sub-header it is collected first |
| Parser.CollectSubHeaders | cej_transformer/parser.py:181-198 | the append-and-break loop returns exactly the specified collection |
| Parser.TitleProbe | cej_transformer/parser.py:65-73 | a found block has a title two rows above its header row, in column B, that the matcher reads as the platform. A short row reads its missing cells as blank, as the padded frame does. The read raises exactly when the whole sheet has fewer than two columns |
| Parser.FirstProbe | cej_transformer/parser.py:58-75 | a row the search stops at lies in the window and is that row's own probe |
| Parser.FirstProbeSkips | cej_transformer/parser.py:58-75 | every row the search passes over finds nothing, and a search that finds nothing found nothing in any row of the window |
| Parser.FirstProbeFrom | cej_transformer/parser.py:58-75 | starting later in the window, but not past the found block, finds the same block |
| Parser.WindowSearch | cej_transformer/parser.py:58-75 | the two nested search loops (rows of the window, cells of a row) compute the window search |
| Parser.Mandatory | cej_transformer/parser.py:84-87 | on success, each of the four columns holds its header exactly |
| Parser.MandatoryFirstMissing | cej_transformer/parser.py:84-87 | the resolution succeeds exactly when all four headers are present; otherwise it raises for the first missing one, in the order funnel stage, format, duration, total |
| Parser.ResolveGroups | cej_transformer/parser.py:89-145 | a yielded section carries the four resolved mandatory columns |
| Parser.ResolveSection | cej_transformer/parser.py:83-145 | a yielded section has its data two rows below the header row, the title's platform and the sheet's mode; its funnel column holds "Funnel Stage" exactly |
| Parser.ResolveSectionRaises | cej_transformer/parser.py:84 | a block whose header row has no exact "Funnel Stage" raises for it, although it was found case-insensitively |
| Parser.ResolvedShape | cej_transformer/parser.py:83-145 | a resolved block has the sheet's mode, data starting at header row + 2 and each mandatory header exactly in its column. Its aspect-ratio columns are non-empty, filled and increasing, and lie from the group's own column up to the "Languages" column (when that column is found and non-zero) or else before TOTAL. It has language columns only on a dual-language sheet whose header row holds "Languages", and they lie from that column up to TOTAL |
| Parser.ResolveBlock | cej_transformer/parser.py:83-133 | the straight-line block resolution, with both collection loops, computes the specified resolution |
| Parser.ResolveAt | cej_transformer/parser.py:133-145 | a resolved block's data starts two rows below the row asked for, under the platform asked for |
| Parser.AfterResolution | cej_transformer/parser.py:118-147 | after a block that does not raise, the cursor is at least four rows past the header row |
| Parser.FoundBlockPass | cej_transformer/parser.py:89-147 | for any matcher and resolver, a pass that finds a block raises the resolution's error, or skips it by moving the cursor to header row + 5 without yielding, or yields it and moves the cursor to header row + 4 |
| Parser.ResolveSkips | cej_transformer/parser.py:89-122 | the package skips a block exactly when its mandatory headers resolve and then the aspect-ratio group is unresolved, the sub-header row is past the end, or the group collects no column |
| Parser.AfterProbe | cej_transformer/parser.py:77-81 | every pass that continues moves the cursor strictly forward |
| Parser.ScanStep | cej_transformer/parser.py:54-147 | one pass of the scan loop, for any title matcher and resolver, either stops or moves the cursor strictly forward |
| Parser.ScanPass | cej_transformer/parser.py:58-147 | the loop body (window search, then the block's resolution) computes the specified pass |
| Parser.IterPlatformSections | cej_transformer/parser.py:51-147 | the cursor loop returns every section in discovery order, or the first error raised |
| Parser.FoundTitle | cej_transformer/parser.py:65-72 | a block found from the cursor lies at or below it and is titled by a cell the matcher reads as its platform |
| Parser.PassYield | cej_transformer/parser.py:133-147 | a pass yields at most one section; it is resolved and titled, starts at least two rows below the cursor, and the next cursor is two rows past its data start |
| Parser.ScanSectionsOrdered | cej_transformer/parser.py:51-147 | for any anchored resolver, the yielded sections are resolved, titled blocks; they start below the first cursor, in sheet order, at least four rows apart |
| Parser.ResolverAnchored | cej_transformer/parser.py:133-138 | the package's resolver yields under the title's platform, with the data two rows below the header row |
| Parser.YieldedPlatform | cej_transformer/parser.py:150-160 | a yielded section names a configured platform by its display name |
| Parser.SectionsOrdered | cej_transformer/parser.py:51-147 | `iter_platform_sections` yields resolved, titled blocks in sheet order, each at least four rows below the one before |
| Parser.YieldedDual | cej_transformer/parser.py:135-137 | a yielded section belongs to the kind of sheet that was scanned |
| Parser.YieldedFunnelHeader | cej_transformer/parser.py:83-84 | the header row of a yielded section holds "Funnel Stage", stripped, in the funnel column |
| Parser.YieldedUsable | cej_transformer/parser.py:135-145 | a yielded section lies inside the sheet, has the scanned mode, names a configured platform and has the funnel header in its column |
| Parser.SectionsUsable | cej_transformer/parser.py:51-147 | every section of a successful scan is usable, and the sections are at least four rows apart in order |
| Transformer.TickCountsAppend | cej_transformer/transformer.py:138-144 | reading a column list in two parts reads each part in turn: the reader is a filter in column order |
| Transformer.TickCountsSingle | cej_transformer/transformer.py:141-143 | a column is kept, with its coerced count, exactly when that count is positive |
| Transformer.TickCountsFrom | cej_transformer/transformer.py:138-144 | every kept pair has a positive count and names a listed column whose coerced value is that count |
| Transformer.TickCountsEmpty | cej_transformer/transformer.py:138-144 | no pair is kept exactly when no listed column has a positive count |
| Transformer.ReadTickCounts | cej_transformer/transformer.py:138-144 | the append loop computes the specified filter |
| Transformer.LanguageSelectionAppend | cej_transformer/transformer.py:147-153 | reading a column list in two parts reads each part in turn: the reader is a filter in column order |
| Transformer.LanguageSelectionSingle | cej_transformer/transformer.py:150-152 | a language column is kept, under its name, exactly when its stripped text is non-empty and not "nan" in any case |
| Transformer.LanguageSelectionEmpty | cej_transformer/transformer.py:147-153 | no language is selected exactly when no listed column is selected |
| Transformer.SelectionMarks | cej_transformer/transformer.py:150-151 | "x", "0" and the number 0 select a language; a missing cell and " NaN " do not |
| Transformer.ReadLanguageSelection | cej_transformer/transformer.py:147-153 | the append loop computes the specified selection |
| Transformer.Slots | cej_transformer/transformer.py:93 | `languages or [None]`: one slot per selected language, or one slot when none is selected |
| Transformer.SlotsHold | cej_transformer/transformer.py:93 | a slot holds a language exactly when some language was selected, and then it holds a selected one |
| Transformer.ExpandAll | cej_transformer/transformer.py:156-159 | "ALL" in any letter case and with any surrounding white space expands to Awareness, Consideration, Purchase |
| Transformer.ExpandOther | cej_transformer/transformer.py:156-159 | any other stage is kept unchanged as the only stage |
| Transformer.ExpandShape | cej_transformer/transformer.py:156-159 | the expansion is the stage itself or the three configured stages, never anything else |
| Transformer.EmitUnit | cej_transformer/transformer.py:113-124 | the stage and language loops append one record per stage and slot, stage by stage |
| Transformer.EmitRecords | cej_transformer/transformer.py:111-124 | the four nested emission loops append the specified records of the row |
| Transformer.TickRecordsFlat | cej_transformer/transformer.py:111-124 | the nested loops equal the reference definition: one record per (aspect-ratio unit, stage and slot combination), unit by unit |
| Transformer.TickCount | cej_transformer/transformer.py:111-124 | a row emits (tick sum) x (stages) x (slots) records |
| Transformer.FlatOrder | cej_transformer/transformer.py:111-124 | in the reference definition, unit u, stage s and slot l sit at position u x (stages x slots) + s x slots + l |
| Transformer.RecordOrder | cej_transformer/transformer.py:111-124 | emission order: the record for the rep-th tick of the a-th ticked column, stage s and slot l is at (ticks of earlier columns + rep) x (stages x slots) + s x slots + l |
| Transformer.TickMembers | cej_transformer/transformer.py:115-124 | every emitted record carries the row's key, an expanded stage, a slot and the name of a ticked column |
| Transformer.RowWithoutTicks | cej_transformer/transformer.py:86-89 | a row with no positive tick emits nothing |
| Transformer.RowCount | cej_transformer/transformer.py:86-124 | a row emits (sum of positive ticks) x (expanded stages) x max(1, selected languages) records |
| Transformer.RowFields | cej_transformer/transformer.py:78-124 | every record of a row carries: the block's platform; the row's trimmed format and duration; an expanded stage; a ticked column's name; a language exactly when one was selected, and then a selected one |
| Transformer.TickCountsSameCells | cej_transformer/transformer.py:138-144 | the tick reader looks only at the listed columns |
| Transformer.LanguageSelectionSameCells | cej_transformer/transformer.py:147-153 | the language reader looks only at the listed columns |
| Transformer.TotalIgnored | cej_transformer/transformer.py:96-107 | tolerant policy: whatever the TOTAL cell holds, the row emits the same records |
| Transformer.ReadRow | cej_transformer/transformer.py:73-126 | the loop body decides whether the row ends the block, and otherwise emits the row's records |
| Transformer.TransformSection | cej_transformer/transformer.py:68-128 | the row loop returns the records of the data rows, in row order, up to the first row holding a "Funnel Stage" cell or with a blank funnel-stage cell |
| Transformer.SectionBefore | cej_transformer/transformer.py:75-76 | rows from the next header row on play no part in a block's records |
| Transformer.SectionFrom | cej_transformer/transformer.py:72-126 | every record of a block comes from a data row at or after the data start, with no ending row between |
| Transformer.SectionPlatform | cej_transformer/transformer.py:116 | every record of a block carries the block's platform |
| Transformer.TransformSheet | cej_transformer/transformer.py:59-65 | the sheet loop returns the sections' records concatenated in discovery order, or the scan's error |
| Transformer.AllRecordsFrom | cej_transformer/transformer.py:59-65 | every record of a sheet comes from one of its sections |
| Transformer.SectionsPlatforms | cej_transformer/transformer.py:59-65 | the records of usable sections name configured platforms only |
| Transformer.SheetPlatforms | cej_transformer/transformer.py:59-65 | every record a sheet yields names a configured platform by its display name |
| Transformer.SingleLanguageSections | cej_transformer/transformer.py:91-93 | usable sections of a single-language sheet emit records without a language |
| Transformer.SingleLanguageRecords | cej_transformer/transformer.py:91-93 | a single-language sheet never yields a record with a language |
| Transformer.HeaderRowStops | cej_transformer/transformer.py:131-135 | a row whose stripped cell is "Funnel Stage" stops the row loop |
| Transformer.BlocksDisjoint | cej_transformer/transformer.py:75-76 | a block's records come only from rows above the header row of a later usable block |
| Validator.LookupNone | cej_transformer/validator.py:55 | `d.get(k)` finds nothing exactly when no entry has key k |
| Validator.PutLookup | cej_transformer/validator.py:109 | after `d[k] = v`, k reads v and every other key reads what it read before |
| Validator.PutShape | cej_transformer/validator.py:109 | assigning an existing key keeps the key order; a new key is appended |
| Validator.PutDistinct | cej_transformer/validator.py:109 | assignment keeps keys unique |
| Validator.SumTotals | cej_transformer/validator.py:132-152 | the row loop sums the coerced TOTALs of the rows the expander reads, by the same two stop rules, rows without ticks included |
| Validator.TotalsCount | cej_transformer/validator.py:132-152 | when every data row's TOTAL is its record count, the block's summed TOTAL is the block's record count |
| Validator.PlainRowAgrees | cej_transformer/validator.py:149 | a row whose TOTAL is its tick sum, whose stage is not "ALL" and which selects at most one language emits TOTAL records |
| Validator.AllRowTriples | cej_transformer/validator.py:149 | an "ALL" row whose TOTAL is its tick sum and which selects at most one language emits three times TOTAL records |
| Validator.CollectSheetTotals | cej_transformer/validator.py:107-110 | the per-section loop builds the sheet's totals dict, or fails with the scan's error |
| Validator.TotalsDistinct | cej_transformer/validator.py:107-110 | each platform appears once among a sheet's expected totals |
| Validator.TotalsLast | cej_transformer/validator.py:108-109 | with several blocks for one platform, the expected total is the last block's sum (dict overwrite) |
| Validator.TotalsAbsent | cej_transformer/validator.py:108-109 | a platform no block names has no expected total |
| Validator.TotalsPresent | cej_transformer/validator.py:108-109 | a platform with an expected total is named by some block |
| Validator.CollectExpectedTotals | cej_transformer/validator.py:98-112 | the loop over the configured sheets computes the specified expected totals |
| Validator.ExpectedFails | cej_transformer/validator.py:98-112 | the collection fails exactly when some configured sheet the workbook has fails its scan |
| Validator.ExpectedKeys | cej_transformer/validator.py:100-110 | only sheets the workbook has get an entry |
| Validator.ExpectedEntry | cej_transformer/validator.py:100-110 | a configured sheet has an entry exactly when the workbook has it, and the entry is that sheet's totals |
| Validator.CountAbsent | cej_transformer/validator.py:126 | a value absent from the column is counted zero times |
| Validator.CountUniform | cej_transformer/validator.py:126 | a column holding one value throughout counts it once per entry and nothing else |
| Validator.CountsLookup | cej_transformer/validator.py:55 | `value_counts` read with default 0 gives the frequency, for values absent from the output too |
| Validator.ActualCounts | cej_transformer/validator.py:115-129 | an unreadable output gives no counts; otherwise every sheet gets its "Platform" frequencies, and a sheet without that column gets none |
| Validator.StatusDifference | cej_transformer/validator.py:20-31 | a comparison passes exactly when the difference is 0, and fails exactly when actual differs from expected |
| Validator.PassFail | cej_transformer/validator.py:59-63 | every comparison is counted as passed or as failed |
| Validator.CompareSheetEntries | cej_transformer/validator.py:54-57 | exactly the expected platforms are compared, in order, each against the output's count, or 0 when the output lacks it |
| Validator.NoFailures | cej_transformer/validator.py:76 | no comparison fails exactly when every expected count equals the actual one |
| Validator.TallyAddsUp | cej_transformer/validator.py:54-63 | passed + failed == checked |
| Validator.TallyStep | cej_transformer/validator.py:49-74 | one more sheet adds its comparisons to the results and their counts to the three tallies |
| Validator.CompareSheetCounts | cej_transformer/validator.py:54-72 | the inner loop compares each expected platform and adds it to checked and to passed or failed |
| Validator.CompareSheetAssigns | cej_transformer/validator.py:54-57 | when the expected platforms are distinct, as the collected totals are, appending each comparison gives the same dict as the assignment `sheet_results[platform_name] = ...`: every platform is a new key |
| Validator.CompareCounts | cej_transformer/validator.py:49-76 | the summary loop gives: the specified results; passed + failed == checked; overall PASS exactly when nothing failed, including when nothing was checked |
| Validator.ValidateOutput | cej_transformer/validator.py:34-95 | validation raises exactly when collecting the expected totals does; otherwise it reports the specified comparisons and a consistent summary |
| Validator.CountNamed | cej_transformer/validator.py:126 | records that all name one platform count for that platform only |
| Validator.CountNoBlock | cej_transformer/validator.py:126 | a platform no block names does not occur among the blocks' records |
| Validator.CountBlock | cej_transformer/validator.py:126 | when no two blocks share a platform, a block's platform occurs exactly as often as the block emits records |
| Validator.SheetAgrees | cej_transformer/validator.py:54-63 | with distinct platforms and every TOTAL equal to its row's record count, no comparison of the sheet fails |
| Validator.SheetValidates | cej_transformer/validator.py:34-95 | a sheet whose blocks name distinct platforms and whose rows state their record counts in TOTAL passes validation against the expander's output |
| Legacy.LegacySafeToNumeric | excel_transformer.py:77-85 | 0 for a missing cell and for text that is blank or does not parse; the parsed integer for numeric text |
| Legacy.LegacyNumericAgrees | excel_transformer.py:77-85 | the legacy coercion agrees with the package's on every cell, and reads a number as itself |
| Legacy.LegacyHeader | excel_transformer.py:154 | a text header is stripped; every other cell reads "nan" |
| Legacy.CompleteIsCore | excel_transformer.py:157-162 | the group-label half of the header check adds nothing: a row passes exactly when every core header is present |
| Legacy.CompleteMandatory | excel_transformer.py:169-173 | a row that passes the header check has all four mandatory headers, so the index lookups succeed |
| Legacy.OccurrencesFirst | excel_transformer.py:185 | the list of "Format" positions is the first match, then the positions after it |
| Legacy.LegacyArGroup | excel_transformer.py:179-190 | the chosen group starts at a column holding the group's label |
| Legacy.LegacyArGroupChoice | excel_transformer.py:179-190 | the group is the first "Aspect Ratio" column if one exists; otherwise the next "Format" after the primary Format column, or the primary Format column itself when there is no second one |
| Legacy.LegacyColumnsWithin | excel_transformer.py:205-213 | the collected columns lie in range, strictly increasing, each named by a stripped sub-header that is not "" or "nan" |
| Legacy.LegacyColumnsMembers | excel_transformer.py:205-213 | a column is collected exactly when it is in range and accepted, and no earlier column from the start halts collection |
| Legacy.BlankSubHeaderHalts | excel_transformer.py:208-213 | past the first column, a blank sub-header under a non-blank main header ends the legacy collection, while the package passes over it |
| Legacy.CollectLegacyColumns | excel_transformer.py:205-213 | the `for`/`break` loop computes the specified collection |
| Legacy.LegacyBoundary | excel_transformer.py:198-203 | the aspect-ratio span never ends past the header row |
| Legacy.LanguageFactor | excel_transformer.py:296-311 | the language factor is at least 1 and equals the number of emission slots |
| Legacy.ScaledIsProduct | excel_transformer.py:318 | the repeated-addition product used for the strict check is `tick sum x language factor` |
| Legacy.LegacyRowCount | excel_transformer.py:313-351 | strict policy: a row that is not kept emits nothing; a kept row emits TOTAL x (stages) records, which is tick sum x stages x language factor |
| Legacy.LegacyRowFields | excel_transformer.py:278-351 | every record of a row carries: the block's platform; the row's `str(...).strip()` format and duration; an expanded stage; a ticked column's name; a language exactly when one was selected |
| Legacy.KeptRecords | excel_transformer.py:328-351 | a kept row emits the package's nested expansion (column, repetition, stage, language) of its ticks, stages and slots |
| Legacy.LegacyAgreesWithPackage | excel_transformer.py:278-351 | on a kept row whose funnel, format and duration cells are present, both expanders emit the same records |
| Legacy.LegacyReadRow | excel_transformer.py:254-353 | the loop body decides whether the row ends the block, and otherwise emits the row's strict-policy records |
| Legacy.TransformBlock | excel_transformer.py:254-356 | the data-row loop returns the block's records and the row it stopped at |
| Legacy.BlockPlatform | excel_transformer.py:338 | every record of a block carries the block's platform |
| Legacy.NextBlockFound | excel_transformer.py:356 | when the row that ended a block is a titled header row, the next pass finds that block first |
| Legacy.MissingHeaderCursor | excel_transformer.py:164 | as written, the cursor after a missing-header block is the header row - 1; corrected, it is the header row + 1 |
| Legacy.LegacyGroups | excel_transformer.py:175-252 | a raise names the sub-header row; a skip goes to header row + 5; a read block has the title's platform, the sheet's mode, data two rows down and non-empty aspect-ratio columns |
| Legacy.LegacyGroupsShape | excel_transformer.py:175-238 | the scan raises exactly when the sub-header row is past the end of the sheet. It skips exactly when the aspect-ratio collection from the group's column up to the Languages/TOTAL boundary is empty. A read block carries that collection, within the boundary, together with the four mandatory columns and the Languages group's columns |
| Legacy.LegacyResolvedShape | excel_transformer.py:151-252 | a block the legacy scan reads has data two rows down under the title's platform and the sheet's mode, and each mandatory header exactly in its column. Its aspect-ratio columns are non-empty, increasing and named by non-blank sub-headers, and lie from the group's chosen column up to the Languages column, else up to TOTAL. Language columns exist only on a dual-language sheet with Languages and TOTAL, and lie between the two |
| Legacy.LegacyResolve | excel_transformer.py:151-252 | a skip goes to header row + 5 or to the missing-header cursor; a read block has the title's platform and data two rows down |
| Legacy.ResolveNeedsHeaders | excel_transformer.py:157-165 | a block is skipped to the missing-header cursor exactly when a core header is missing ("Languages" included on a dual sheet); a read block has every core header |
| Legacy.AfterOutcome | excel_transformer.py:244-252 | the pass raises exactly when the block's resolution raised |
| Legacy.PassesForward | excel_transformer.py:142-149 | with a forward resolution and data loop, every pass that goes on moves the cursor strictly forward |
| Legacy.CorrectedForward | excel_transformer.py:164 | with the corrected skip, every skip and every read block moves the cursor below the header row |
| Legacy.BlockReaderForward | excel_transformer.py:251-356 | the data loop never stops before the block's first data row |
| Legacy.LegacyProgressive | excel_transformer.py:101-356 | with the corrected skip, every pass of the scan loop that goes on moves the cursor strictly forward, so the loop terminates |
| Legacy.ReadBlock | excel_transformer.py:151-252 | the straight-line resolution, with its collection loops, computes the specified (corrected) resolution |
| Legacy.ScanOnce | excel_transformer.py:101-252 | one pass up to the data rows (window search, then the block's resolution) computes the specified pass |
| Legacy.FindPlatformTablesAndTransform | excel_transformer.py:87-367 | the scan loop returns every emitted record in order, or the error raised |
| Legacy.DriveKeeps | excel_transformer.py:101-356 | a property of every record each block read emits holds for every record the scan emits |
| Legacy.PassPlatforms | excel_transformer.py:123-132 | a pass reads a block only under a platform name the title matcher returned |
| Legacy.LegacyPlatforms | excel_transformer.py:128-130 | every legacy record names a platform of the root table, and none names LinkedIn |
| Legacy.MissingHeadersSkip | excel_transformer.py:162-165 | a block with missing headers is skipped: as written to header row - 1, corrected to header row + 1 |
| Legacy.SkippedPass | excel_transformer.py:162-165 | a pass whose found block is skipped moves the cursor where the resolution says |
| Legacy.BackwardSkipRepeats | excel_transformer.py:101-165 | a skip to the row above the header row, when that row finds nothing, sends the next pass to the same block and the same cursor: the pass repeats forever |
| Legacy.AsWrittenStalls | excel_transformer.py:164 | as written, a missing-header block whose row above finds nothing traps the scan loop in one pass, whatever the title matcher |
| Legacy.CorrectedSkips | excel_transformer.py:164 | the corrected skip moves the cursor past the header row |
| Legacy.StallingSheetSearch | excel_transformer.py:107-140 | on the example sheet the first search finds the YouTube block on row 6, row 5 finds nothing, and the header row lacks "Format" |
| Legacy.StallingSheetLoops | excel_transformer.py:164 | on the example sheet the as-written loop moves from the first cursor to row 5 and stays there; the corrected loop moves on to row 7 |
| Legacy.ImportUnresolved | excel_transformer.py:8-20 | exactly FUNNEL_STAGES and EXPAND_ALL_TO_ACP are imported but not defined by the root configuration |
| Legacy.ImportsResolved | excel_transformer.py:283-286 | with the two settings from the package configuration every import resolves, and a kept "ALL" row expands to the three stages, emitting TOTAL x 3 records |

## Left out

- Workbook I/O is not modelled:
  - `pd.read_excel` and `pd.ExcelFile`;
  - `process_workbook` and `write_transformed_output`;
  - `process_excel_file_for_streamlit`, `select_excel_file` and the `__main__` block.

  Sheets arrive as grids, and the input workbook as a map from sheet name to grid. A sheet the
  workbook lacks is simply absent. The output workbook arrives already read back, as each
  sheet's "Platform" column (`Validator.OutputSheet`), or None when it cannot be read.
- Logging is left out, with the strict and tolerant mismatch messages and the legacy debug loop
  at excel_transformer.py:216-221. None of these changes a result.
- The timestamp and the file names of the validation report are left out. The report keeps the
  comparisons and the summary.
- Float parsing is left out. A cell is `Blank`, `Num(int)` or `Text`, and numeric text is an
  optional sign followed by ASCII digits. pandas' parsing of "5.5", scientific notation and the
  `int()` truncation in the package's `safe_to_numeric` are not modelled.
- Sheet.SafeToNumeric: infinity text ("inf", "-inf", "+inf", "Infinity") is not modelled. pandas
  parses it to a float infinity, and `int()` then raises OverflowError. The `except` at
  `cej_transformer/parser.py:41` does not catch that error, so the tick read and the TOTAL sum
  raise too. The model reads such text as unparsable and returns 0.
- Legacy.LegacySafeToNumeric: the legacy function can return a float from `pd.to_numeric`. The
  model returns an integer.
- White space and letter case are ASCII only. `strip()` removes ASCII white space and the
  separator controls 0x1C-0x1F. `lower()` and `upper()` map A-Z and a-z only.
- Parser.IterPlatformSections: the generator is modelled as the full list of sections or the
  first error, not as a lazy stream. Every caller in the package consumes it to the end, and a
  raise loses everything yielded before it.
- Legacy.FindPlatformTablesAndTransform: it models the corrected missing-header skip. The
  as-written skip loops forever on some sheets, so the as-written scan has no result function.
  Its passes are modelled (`Legacy.LegacyPasser` with `AsWritten`), and the endless repetition
  is proved (see Findings).
- Legacy.KeptRecords: the emission order is stated through the package's nested expansion. The
  index form is proved once, in `Transformer.RecordOrder`, and not restated for the legacy rows.
- The legacy expander reads each ticked column's count a second time at excel_transformer.py:332.
  The model reads it once, since both reads coerce the same cell.
- The near-end stop of the legacy scan is modelled as written: `cursor + 10 >= rows - 10`. The
  package uses `rows - 5`.
- Configuration files, the browser UI, the command-line scripts, the logging setup and the tests
  are not part of this model.

## Findings

| source | as written | input that shows it | evidently intended | confidence | as-written member | corrected member |
|---|---|---|---|---|---|---|
| excel_transformer.py:164 | a block with missing headers sets the cursor to title row + 1, the row above the header row, so the next window search finds the same block again | a single-language sheet whose YouTube block has its title on row 4 and a header row 6 without "Format" (`Legacy.STALLING_SHEET`): the cursor goes from 4 to 5 and stays at 5 | continue below the skipped block's header row (header row + 1), so the scan moves on | not executed | Legacy.StallingSheetLoops | Legacy.LegacyProgressive |
| excel_transformer.py:19 | `FUNNEL_STAGES` and `EXPAND_ALL_TO_ACP` are imported from the root `config.py`, which defines neither, so importing the module raises ImportError | any use of the module | take both settings from cej_transformer/config.py:56-57 (the three stages, expansion on) | not executed | Legacy.ImportUnresolved | Legacy.ImportsResolved |

=== FILE: config.dfy ===
/**
 * Constants of the transformer package (cej_transformer/config.py) and the older
 * root-level configuration read by the legacy transformer (config.py).
 */
module Config {

  const FUNNEL_STAGE_HEADER: string := "Funnel Stage"
  const FORMAT_HEADER: string := "Format"
  const DURATION_HEADER: string := "Duration"

  const AR_GROUP_PRIMARY: string := "Aspect Ratio"
  const AR_GROUP_SECONDARY: string := "Format"
  const LANGUAGES_GROUP: string := "Languages"
  const TOTAL_HEADER: string := "TOTAL"

  /** The four headers whose absence makes a block structurally broken, in resolution order. */
  const MANDATORY_HEADERS: seq<string> := [FUNNEL_STAGE_HEADER, FORMAT_HEADER, DURATION_HEADER, TOTAL_HEADER]

  const START_ROW_SEARCH_FOR_PLATFORM: nat := 7
  const SUB_HEADER_ROW_OFFSET: nat := 3
  const DATA_START_ROW_OFFSET: nat := 4

  /** Rows examined from the cursor when looking for a "Funnel Stage" header row. */
  const SEARCH_WINDOW: nat := 30

  /** Platform keys and display names, in declaration order. */
  const PLATFORM_NAMES: seq<(string, string)> := [
    ("youtube", "YouTube"),
    ("meta", "META"),
    ("tiktok", "TikTok"),
    ("linkedin", "LinkedIn"),
    ("programmatic", "Programmatic"),
    ("audio", "Audio"),
    ("gaming", "Gaming"),
    ("amazon", "Amazon")
  ]

  /** The root configuration's table, used by the legacy transformer: it has no LinkedIn. */
  const LEGACY_PLATFORM_NAMES: seq<(string, string)> := [
    ("youtube", "YouTube"),
    ("meta", "META"),
    ("tiktok", "TikTok"),
    ("programmatic", "Programmatic"),
    ("audio", "Audio"),
    ("gaming", "Gaming"),
    ("amazon", "Amazon")
  ]

  const FUNNEL_STAGES: seq<string> := ["Awareness", "Consideration", "Purchase"]
  const EXPAND_ALL_TO_ACP: bool := true

  const DUAL_LANG_INPUT_SHEET_NAME: string := "Tracker (Dual Lang)"
  const SINGLE_LANG_INPUT_SHEET_NAME: string := "Tracker (Single Lang)"
  const OUTPUT_SHEET_NAME_DUAL_LANG: string := "Transformed_Dual_Lang"
  const OUTPUT_SHEET_NAME_SINGLE_LANG: string := "Transformed_Single_Lang"

  /** How one input worksheet is processed and where its output goes. */
  datatype SheetSpec = SheetSpec(sheetName: string, isDual: bool, outputSheetName: string)

  const SHEET_SPECS: seq<SheetSpec> := [
    SheetSpec(DUAL_LANG_INPUT_SHEET_NAME, true, OUTPUT_SHEET_NAME_DUAL_LANG),
    SheetSpec(SINGLE_LANG_INPUT_SHEET_NAME, false, OUTPUT_SHEET_NAME_SINGLE_LANG)
  ]
}

=== FILE: legacy.dfy ===
/**
 * The legacy single-file transformer (excel_transformer.py, `find_platform_tables_and_transform`
 * and `safe_to_numeric`). It finds platform blocks with the same window search as the package,
 * but matches titles exactly against the root platform table, skips blocks with missing
 * headers instead of raising, collects sub-columns with its own stop rule, and applies the
 * strict policy: a data row whose TOTAL disagrees with its ticks emits nothing.
 */
module Legacy {
  import opened Wrappers
  import opened PyText
  import opened Sheet
  import opened Platforms
  import opened Parser
  import opened Nested
  import opened Transformer
  import Config

  // ---------------------------------------------------------------- safe_to_numeric

  /**
   * The legacy `safe_to_numeric`: 0 for a missing cell or one whose text is blank, the number
   * itself for a numeric cell, the parsed integer for numeric text and 0 for text that does
   * not parse.
   */
  function LegacySafeToNumeric(c: Cell): (r: int)
    ensures c.Blank? ==> r == 0
    ensures c.Text? && ParseInt(Strip(c.s)).None? ==> r == 0
    ensures c.Text? && ParseInt(Strip(c.s)).Some? ==> r == ParseInt(Strip(c.s)).value
  {
    if c.Blank? || Strip(Str(c)) == "" then 0
    else match c
      case Num(n) => n
      case Text(s) => (match ParseInt(Strip(s)) case Some(n) => n case None => 0)
      case Blank => 0
  }

  /** The text of a number has no surrounding white space. */
  lemma DecimalTrimmed(n: int)
    ensures Decimal(n) != "" && Strip(Decimal(n)) == Decimal(n)
  {
    var d := Digits(if n < 0 then -n else n);
    assert IsDigit(d[|d| - 1]) && IsDigit(d[0]);
    StripOfTrimmed(Decimal(n));
  }

  /**
   * On every cell the legacy coercion agrees with the package's: a number reads as itself, and
   * text reads as the integer it spells or as 0. The tick counts the legacy loop sums are
   * therefore the ones `Transformer.TickCounts` reads.
   */
  lemma LegacyNumericAgrees(c: Cell)
    ensures LegacySafeToNumeric(c) == SafeToNumeric(c)
    ensures c.Num? ==> LegacySafeToNumeric(c) == c.n
  {
    if c.Num? {
      DecimalTrimmed(c.n);
    }
  }

  // ---------------------------------------------------------------- the main header row

  /**
   * A main header cell after pandas' `.str.strip().astype(str)`: text is stripped, and every
   * other cell (a number or a missing cell) reads "nan".
   */
  function LegacyHeader(c: Cell): (h: string)
    ensures c.Text? ==> h == CellStr(c)
    ensures !c.Text? ==> h == "nan"
  {
    if c.Text? then Strip(c.s) else "nan"
  }

  function LegacyHeaders(row: Row): (r: seq<string>)
    ensures |r| == |row|
  {
    seq(|row|, j requires 0 <= j < |row| => LegacyHeader(row[j]))
  }

  /** `core_main_headers_check`: the four mandatory headers, with "Languages" before TOTAL on a dual-language sheet. */
  function CoreHeaders(dual: bool): seq<string> {
    if dual then [Config.FUNNEL_STAGE_HEADER, Config.FORMAT_HEADER, Config.DURATION_HEADER,
                  Config.LANGUAGES_GROUP, Config.TOTAL_HEADER]
    else Config.MANDATORY_HEADERS
  }

  /** Every core header is present, and so is one of the two aspect-ratio group labels. */
  predicate HeadersComplete(headers: seq<string>, dual: bool) {
    (forall h :: h in CoreHeaders(dual) ==> h in headers)
    && (Config.AR_GROUP_PRIMARY in headers || Config.AR_GROUP_SECONDARY in headers)
  }

  /**
   * The group-label half of the check adds nothing: the secondary label is "Format", which
   * is itself a core header. A complete row is one with every core header.
   */
  lemma CompleteIsCore(headers: seq<string>, dual: bool)
    ensures HeadersComplete(headers, dual) <==> forall h :: h in CoreHeaders(dual) ==> h in headers
  {
    assert Config.FORMAT_HEADER in CoreHeaders(dual);
  }

  /** A complete row has every mandatory header, so the four `.index` lookups succeed. */
  lemma CompleteMandatory(headers: seq<string>, dual: bool)
    requires HeadersComplete(headers, dual)
    ensures Mandatory(headers).Success?
  {
    var core := CoreHeaders(dual);
    MandatoryFirstMissing(headers);
    forall h | h in Config.MANDATORY_HEADERS
      ensures h in headers
    {
      assert h in core;
    }
  }

  // ---------------------------------------------------------------- the aspect-ratio group

  /** `[i for i, h in enumerate(headers) if h == name]`, from index `i` on. */
  function Occurrences(headers: seq<string>, name: string, i: nat): seq<nat>
    decreases |headers| - i
  {
    if i >= |headers| then []
    else (if headers[i] == name then [i] else []) + Occurrences(headers, name, i + 1)
  }

  /** The occurrences from `i` on are the first match at or after `i`, then the occurrences after it. */
  lemma {:induction false} OccurrencesFirst(headers: seq<string>, name: string, i: nat)
    ensures IndexFrom(headers, name, i).None? ==> Occurrences(headers, name, i) == []
    ensures IndexFrom(headers, name, i).Some? ==>
              Occurrences(headers, name, i)
              == [IndexFrom(headers, name, i).value] + Occurrences(headers, name, IndexFrom(headers, name, i).value + 1)
    decreases |headers| - i
  {
    if i < |headers| {
      if headers[i] != name {
        OccurrencesFirst(headers, name, i + 1);
        assert Occurrences(headers, name, i) == [] + Occurrences(headers, name, i + 1);
        assert IndexFrom(headers, name, i) == IndexFrom(headers, name, i + 1);
      }
    }
  }

  /**
   * The legacy group choice: the first "Aspect Ratio" column if any; otherwise, among the
   * "Format" columns, the second when there are two or more and the first is the primary
   * Format column, the first when there are two or more and it is not, and the only one
   * when there is one.
   */
  function LegacyArGroup(headers: seq<string>, formatCol: nat): (r: ArGroup)
    requires Config.AR_GROUP_PRIMARY in headers || Config.AR_GROUP_SECONDARY in headers
    ensures r.start < |headers| && headers[r.start] == r.header
  {
    match IndexOf(headers, Config.AR_GROUP_PRIMARY)
    case Some(i) => ArGroup(i, Config.AR_GROUP_PRIMARY)
    case None =>
      IndexOfFirst(headers, Config.AR_GROUP_PRIMARY);
      IndexOfFirst(headers, Config.AR_GROUP_SECONDARY);
      OccurrencesFirst(headers, Config.AR_GROUP_SECONDARY, 0);
      var fi := Occurrences(headers, Config.AR_GROUP_SECONDARY, 0);
      OccurrencesWithin(headers, Config.AR_GROUP_SECONDARY, 0);
      if |fi| > 1 then ArGroup(if fi[0] == formatCol then fi[1] else fi[0], Config.AR_GROUP_SECONDARY)
      else ArGroup(fi[0], Config.AR_GROUP_SECONDARY)
  }

  /** Every occurrence is an index of the row holding the name. */
  lemma {:induction false} OccurrencesWithin(headers: seq<string>, name: string, i: nat)
    ensures forall k :: 0 <= k < |Occurrences(headers, name, i)| ==>
              Occurrences(headers, name, i)[k] < |headers| && headers[Occurrences(headers, name, i)[k]] == name
    decreases |headers| - i
  {
    if i < |headers| {
      OccurrencesWithin(headers, name, i + 1);
    }
  }

  /**
   * With the primary Format column found by `.index` (the first "Format"), the group is the
   * first "Aspect Ratio" column when there is one; otherwise the next "Format" column after
   * the primary one, and the primary Format column itself when there is no second one.
   */
  lemma LegacyArGroupChoice(headers: seq<string>, formatCol: nat)
    requires IndexOf(headers, Config.FORMAT_HEADER) == Some(formatCol)
    ensures Config.AR_GROUP_SECONDARY in headers
    ensures var r := LegacyArGroup(headers, formatCol);
            (Config.AR_GROUP_PRIMARY in headers ==>
               IndexOf(headers, Config.AR_GROUP_PRIMARY).Some?
               && r == ArGroup(IndexOf(headers, Config.AR_GROUP_PRIMARY).value, Config.AR_GROUP_PRIMARY))
            && (Config.AR_GROUP_PRIMARY !in headers ==>
                  r.header == Config.AR_GROUP_SECONDARY
                  && r.start == match IndexFrom(headers, Config.AR_GROUP_SECONDARY, formatCol + 1)
                                case Some(j) => j
                                case None => formatCol)
  {
    IndexOfFirst(headers, Config.FORMAT_HEADER);
    IndexOfFirst(headers, Config.AR_GROUP_PRIMARY);
    OccurrencesFirst(headers, Config.AR_GROUP_SECONDARY, 0);
    OccurrencesFirst(headers, Config.AR_GROUP_SECONDARY, formatCol + 1);
  }

  // ---------------------------------------------------------------- sub-column collection

  /** Text the legacy checks treat as blank: exactly "" or "nan" (lower case). */
  predicate Void(s: string) {
    s == "" || s == "nan"
  }

  /** A column is taken: its sub-header is not blank, and its main header is the group label or blank. */
  predicate Accepts(subs: seq<string>, mains: seq<string>, group: string, i: nat)
    requires i < |subs| && i < |mains|
  {
    !Void(Strip(subs[i])) && (mains[i] == group || Void(Strip(mains[i])))
  }

  /** A column that is not taken ends the collection when it is past the first and its main header is not blank. */
  predicate Halts(subs: seq<string>, mains: seq<string>, start: nat, group: string, i: nat)
    requires i < |subs| && i < |mains|
  {
    !Accepts(subs, mains, group, i) && !Void(Strip(mains[i])) && i > start
  }

  /** The columns the legacy `for i in range(start, end)` loop collects from column `i` on. */
  function LegacyColumnsFrom(subs: seq<string>, mains: seq<string>, start: nat, end: nat, group: string, i: nat)
    : seq<ColumnSpec>
    requires end <= |subs| && end <= |mains|
    decreases end - i
  {
    if i >= end then []
    else if Accepts(subs, mains, group, i) then
      [ColumnSpec(i, Strip(subs[i]))] + LegacyColumnsFrom(subs, mains, start, end, group, i + 1)
    else if Halts(subs, mains, start, group, i) then []
    else LegacyColumnsFrom(subs, mains, start, end, group, i + 1)
  }

  /** Collected columns lie in the range, strictly increasing, each named by its stripped, non-blank sub-header. */
  predicate LegacyWithin(cols: seq<ColumnSpec>, subs: seq<string>, lo: nat, end: nat)
    requires end <= |subs|
  {
    (forall k :: 0 <= k < |cols| ==> lo <= cols[k].index < end)
    && (forall k :: 0 <= k < |cols| ==> !Void(cols[k].name) && cols[k].name == Strip(subs[cols[k].index]))
    && (forall k, l :: 0 <= k < l < |cols| ==> cols[k].index < cols[l].index)
  }

  lemma {:induction false} LegacyColumnsWithin(subs: seq<string>, mains: seq<string>, start: nat, end: nat,
                                               group: string, i: nat)
    requires end <= |subs| && end <= |mains|
    ensures LegacyWithin(LegacyColumnsFrom(subs, mains, start, end, group, i), subs, i, end)
    decreases end - i
  {
    if i < end {
      var rest := LegacyColumnsFrom(subs, mains, start, end, group, i + 1);
      LegacyColumnsWithin(subs, mains, start, end, group, i + 1);
      if Accepts(subs, mains, group, i) {
        LegacyConsWithin(ColumnSpec(i, Strip(subs[i])), rest, subs, end);
      }
    }
  }

  /** A taken column followed by columns after it keeps the list within range and increasing. */
  lemma LegacyConsWithin(c: ColumnSpec, rest: seq<ColumnSpec>, subs: seq<string>, end: nat)
    requires end <= |subs| && c.index < end
    requires !Void(c.name) && c.name == Strip(subs[c.index])
    requires LegacyWithin(rest, subs, c.index + 1, end)
    ensures LegacyWithin([c] + rest, subs, c.index, end)
  {
    var r := [c] + rest;
    forall k | 0 < k < |r|
      ensures r[k] == rest[k - 1]
    {
    }
  }

  /**
   * A column is collected exactly when it lies in the range, is taken, and no column before
   * it (from `i` on) ends the collection.
   */
  lemma {:induction false} LegacyColumnsMembers(subs: seq<string>, mains: seq<string>, start: nat, end: nat,
                                                group: string, i: nat, c: nat)
    requires end <= |subs| && end <= |mains|
    ensures c in Indices(LegacyColumnsFrom(subs, mains, start, end, group, i)) <==>
              i <= c < end && Accepts(subs, mains, group, c)
              && forall k :: i <= k < c ==> !Halts(subs, mains, start, group, k)
    decreases end - i
  {
    if i < end {
      var rest := LegacyColumnsFrom(subs, mains, start, end, group, i + 1);
      LegacyColumnsMembers(subs, mains, start, end, group, i + 1, c);
      if Accepts(subs, mains, group, i) {
        IndicesCons(ColumnSpec(i, Strip(subs[i])), rest);
      } else if Halts(subs, mains, start, group, i) {
        assert LegacyColumnsFrom(subs, mains, start, end, group, i) == [];
      }
    }
  }

  /**
   * Where the two collectors part: past the first column, a blank sub-header under a
   * non-blank main header ends the legacy collection, while the package's collector passes
   * over it and goes on.
   */
  lemma BlankSubHeaderHalts(subs: seq<string>, mains: seq<string>, start: nat, end: nat, group: string, i: nat)
    requires end <= |subs| && end <= |mains|
    requires start < i < end && Void(Strip(subs[i])) && !Void(Strip(mains[i]))
    ensures LegacyColumnsFrom(subs, mains, start, end, group, i) == []
    ensures ColumnsFrom(subs, mains, start, end, group, i) == ColumnsFrom(subs, mains, start, end, group, i + 1)
  {
    assert Lower("nan") == "nan";
  }

  /** The legacy sub-column loop, with its `break`. */
  method CollectLegacyColumns(subs: seq<string>, mains: seq<string>, start: nat, end: nat, group: string)
    returns (cols: seq<ColumnSpec>)
    requires end <= |subs| && end <= |mains|
    ensures cols == LegacyColumnsFrom(subs, mains, start, end, group, start)
  {
    cols := [];
    var i := start;
    assert cols + LegacyColumnsFrom(subs, mains, start, end, group, i) == LegacyColumnsFrom(subs, mains, start, end, group, start);
    while i < end
      invariant start <= i
      invariant cols + LegacyColumnsFrom(subs, mains, start, end, group, i) == LegacyColumnsFrom(subs, mains, start, end, group, start)
      decreases end - i
    {
      if Accepts(subs, mains, group, i) {
        var col := ColumnSpec(i, Strip(subs[i]));
        ghost var rest := LegacyColumnsFrom(subs, mains, start, end, group, i + 1);
        assert cols + ([col] + rest) == (cols + [col]) + rest;
        cols := cols + [col];
      } else if Halts(subs, mains, start, group, i) {
        assert cols + [] == cols;
        break;
      }
      i := i + 1;
    }
    assert cols + [] == cols;
  }

  /** The end of the aspect-ratio span: the Languages column if present, else the TOTAL column, else the row's end. */
  function LegacyBoundary(headers: seq<string>): (b: nat)
    ensures b <= |headers|
  {
    match IndexOf(headers, Config.LANGUAGES_GROUP)
    case Some(l) => l
    case None =>
      match IndexOf(headers, Config.TOTAL_HEADER)
      case Some(t) => t
      case None => |headers|
  }

  /**
   * The language columns: on a dual-language sheet, those collected from the Languages column
   * up to TOTAL; none when either header is missing (the `except ValueError` branch) or on a
   * single-language sheet.
   */
  function LegacyLanguageColumns(subs: seq<string>, headers: seq<string>, dual: bool): seq<ColumnSpec>
    requires |subs| == |headers|
  {
    if !dual then []
    else match IndexOf(headers, Config.LANGUAGES_GROUP)
      case None => []
      case Some(l) =>
        match IndexOf(headers, Config.TOTAL_HEADER)
        case None => []
        case Some(t) => LegacyColumnsFrom(subs, headers, l, t, Config.LANGUAGES_GROUP, l)
  }

  // ---------------------------------------------------------------- one data row (strict policy)

  /** What every record of a row shares: `str(cell).strip()` of format and duration, so a missing cell reads "nan". */
  function LegacyKey(sec: PlatformSection, row: Row): RowKey {
    RowKey(sec.platform, CellStr(Get(row, sec.formatCol)), CellStr(Get(row, sec.durationCol)))
  }

  /** The language factor of the strict check: the number of selected languages, and 1 when there are none. */
  function LanguageFactor(languages: seq<string>): (f: nat)
    ensures f >= 1 && f == |Slots(languages)|
  {
    if languages == [] then 1 else |languages|
  }

  /** The stripped funnel-stage text of a row, as `str(cell).strip()`. */
  function LegacyStage(sec: PlatformSection, row: Row): string {
    CellStr(Get(row, sec.funnelCol))
  }

  /**
   * `sum * factor` as repeated addition. The row functions below use it for the strict check, so
   * that unfolding them does not hand the solver a product of two unknown terms.
   */
  function Scaled(sum: nat, factor: nat): nat
    decreases factor
  {
    if factor == 0 then 0 else Scaled(sum, factor - 1) + sum
  }

  lemma {:induction false} ScaledIsProduct(sum: nat, factor: nat)
    ensures Scaled(sum, factor) == sum * factor
    decreases factor
  {
    if factor > 0 {
      ScaledIsProduct(sum, factor - 1);
    }
  }

  /** The strict policy keeps a row: it has a positive tick, and its TOTAL equals tick sum x language factor. */
  predicate Kept(sec: PlatformSection, row: Row) {
    var sum := TickSum(TickCounts(row, sec.arColumns));
    sum != 0 && Scaled(sum, LanguageFactor(RowLanguages(sec, row))) == LegacySafeToNumeric(Get(row, sec.totalCol))
  }

  /** Everything a data row emits under the strict policy. */
  function LegacyRowRecords(sec: PlatformSection, row: Row): seq<Record> {
    var ticks := TickCounts(row, sec.arColumns);
    var languages := RowLanguages(sec, row);
    if TickSum(ticks) == 0 then []
    else if Scaled(TickSum(ticks), LanguageFactor(languages)) != LegacySafeToNumeric(Get(row, sec.totalCol)) then []
    else TickRecords(LegacyKey(sec, row), ticks, ExpandFunnelStage(LegacyStage(sec, row)), Slots(languages))
  }

  lemma Regroup(sum: nat, stages: nat, factor: nat)
    ensures sum * (stages * factor) == (sum * factor) * stages
  {
  }

  /**
   * The strict policy: a row that is not kept emits nothing, and a kept row emits exactly
   * TOTAL x (number of expanded stages) records, that is tick sum x stages x language factor.
   */
  lemma LegacyRowCount(sec: PlatformSection, row: Row)
    ensures !Kept(sec, row) ==> LegacyRowRecords(sec, row) == []
    ensures Kept(sec, row) ==>
              |LegacyRowRecords(sec, row)|
              == LegacySafeToNumeric(Get(row, sec.totalCol)) * |ExpandFunnelStage(LegacyStage(sec, row))|
    ensures Kept(sec, row) ==>
              |LegacyRowRecords(sec, row)|
              == TickSum(TickCounts(row, sec.arColumns))
                 * (|ExpandFunnelStage(LegacyStage(sec, row))| * LanguageFactor(RowLanguages(sec, row)))
  {
    var ticks := TickCounts(row, sec.arColumns);
    var languages := RowLanguages(sec, row);
    var stages := ExpandFunnelStage(LegacyStage(sec, row));
    if Kept(sec, row) {
      ScaledIsProduct(TickSum(ticks), LanguageFactor(languages));
      TickCount(LegacyKey(sec, row), ticks, stages, Slots(languages));
      Regroup(TickSum(ticks), |stages|, LanguageFactor(languages));
    }
  }

  /**
   * Every record of a row carries the block's platform, the row's `str(...).strip()` format
   * and duration ("nan" for a missing cell), an expanded stage and a ticked column's name; it
   * has a language exactly when the row selected one, and that language is a selected one.
   */
  lemma LegacyRowFields(sec: PlatformSection, row: Row)
    ensures forall r :: r in LegacyRowRecords(sec, row) ==>
              r.platform == sec.platform
              && r.format == CellStr(Get(row, sec.formatCol))
              && r.duration == CellStr(Get(row, sec.durationCol))
              && r.stage in ExpandFunnelStage(LegacyStage(sec, row))
              && (exists t :: t in TickCounts(row, sec.arColumns) && t.name == r.arFormat)
              && (r.language.Some? <==> RowLanguages(sec, row) != [])
              && (r.language.Some? ==> r.language.value in RowLanguages(sec, row))
  {
    TickMembers(LegacyKey(sec, row), TickCounts(row, sec.arColumns), ExpandFunnelStage(LegacyStage(sec, row)),
                Slots(RowLanguages(sec, row)));
    SlotsHold(RowLanguages(sec, row));
  }

  /**
   * A kept row emits the nested expansion of its ticks, stages and language slots: the same
   * order as the package (tick column, then repetition, then stage, then language slot).
   */
  lemma KeptRecords(sec: PlatformSection, row: Row)
    requires Kept(sec, row)
    ensures LegacyRowRecords(sec, row)
            == TickRecords(LegacyKey(sec, row), TickCounts(row, sec.arColumns),
                           ExpandFunnelStage(LegacyStage(sec, row)), Slots(RowLanguages(sec, row)))
  {
  }

  /**
   * On a row whose TOTAL agrees with its ticks and whose funnel-stage, format and duration
   * cells are present, the two expanders emit the same records.
   */
  lemma LegacyAgreesWithPackage(sec: PlatformSection, row: Row)
    requires Kept(sec, row)
    requires !Get(row, sec.funnelCol).Blank? && !Get(row, sec.formatCol).Blank? && !Get(row, sec.durationCol).Blank?
    ensures LegacyRowRecords(sec, row) == RowRecords(sec, row)
  {
    assert LegacyKey(sec, row) == KeyOf(sec, row);
    assert LegacyStage(sec, row) == FunnelText(sec, row);
  }

  /** The body of the data-row loop: whether the row ends the block and, when not, what it emits. */
  method LegacyReadRow(sec: PlatformSection, row: Row) returns (ends: bool, records: seq<Record>)
    ensures ends == Ender(sec)(row)
    ensures !ends ==> records == LegacyEmitter(sec)(row)
  {
    records := [];
    ends := RowStartsNextPlatform(row);
    if ends {
      return;
    }
    var cell := Get(row, sec.funnelCol);
    if cell.Blank? || CellStr(cell) == "" {
      return true, [];
    }
    var stage := CellStr(cell);
    var key := RowKey(sec.platform, CellStr(Get(row, sec.formatCol)), CellStr(Get(row, sec.durationCol)));
    var total := LegacySafeToNumeric(Get(row, sec.totalCol));
    var stages := ExpandFunnelStage(stage);
    var ticks := ReadTickCounts(row, sec.arColumns);
    var sum := TickSum(ticks);
    var languages: seq<string> := [];
    var count := 1;
    if sec.isDual && sec.languageColumns != [] {
      languages := ReadLanguageSelection(row, sec.languageColumns);
      if languages != [] {
        count := |languages|;
      }
    }
    assert languages == RowLanguages(sec, row);
    ScaledIsProduct(sum, count);
    if sum == 0 || sum * count != total {
      return;
    }
    records := EmitRecords([], key, ticks, stages, Slots(languages));
    assert [] + TickRecords(key, ticks, stages, Slots(languages)) == LegacyRowRecords(sec, row);
  }

  // ---------------------------------------------------------------- one platform block

  /** `LegacyRowRecords` as the body of the data-row loop. */
  function LegacyEmitter(sec: PlatformSection): Row -> seq<Record> {
    row => LegacyRowRecords(sec, row)
  }

  /** The records of a block's data rows, in row order, up to the first row that ends the block. */
  function BlockRecords(g: Grid, sec: PlatformSection): seq<Record> {
    Until(g, Ender(sec), LegacyEmitter(sec), sec.dataRowStart)
  }

  /**
   * Where the data-row loop stops, which becomes the next cursor: the `data_row_idx - 2`
   * written when the next block's header row is met is overwritten after the loop.
   */
  function BlockEnd(g: Grid, sec: PlatformSection): nat {
    UntilEnd(g, Ender(sec), sec.dataRowStart)
  }

  /**
   * The data-row loop of one block: its records and the row where it stopped. It runs the
   * early-exit loop with the two closures `LegacyReadRow` is proved against, so each step stops
   * or emits exactly as `LegacyReadRow` does on that row.
   */
  method TransformBlock(g: Grid, sec: PlatformSection) returns (records: seq<Record>, next: nat)
    ensures records == BlockRecords(g, sec)
    ensures next == BlockEnd(g, sec)
  {
    records, next := RunUntil(g, Ender(sec), LegacyEmitter(sec), sec.dataRowStart);
  }

  /** Every record of a block carries the block's platform. */
  lemma BlockPlatform(g: Grid, sec: PlatformSection)
    ensures forall x :: x in BlockRecords(g, sec) ==> x.platform == sec.platform
  {
    forall x | x in BlockRecords(g, sec)
      ensures x.platform == sec.platform
    {
      UntilFrom(g, Ender(sec), LegacyEmitter(sec), sec.dataRowStart, x);
      var k :| sec.dataRowStart <= k < |g| && x in LegacyEmitter(sec)(g[k]);
      LegacyRowFields(sec, g[k]);
    }
  }

  /**
   * The next pass starts on the row that ended the block: when that row is the next block's
   * header row under a known title, the window search finds that block first.
   */
  lemma NextBlockFound(g: Grid, sec: PlatformSection)
    requires BlockEnd(g, sec) < |g|
    requires !RowProbe(g, LegacyRecognise, BlockEnd(g, sec)).NoPlatform?
    ensures SearchWindow(g, LegacyRecognise, BlockEnd(g, sec)) == RowProbe(g, LegacyRecognise, BlockEnd(g, sec))
  {
  }

  // ---------------------------------------------------------------- resolving a found block

  /** The missing-header skip as written (line 164) and as corrected. */
  datatype Revision = AsWritten | Corrected

  /**
   * Where the cursor goes after a block with missing headers: as written, one row past the
   * title, which is the row above the header row; corrected, the row below the header row.
   */
  function MissingHeaderCursor(m: nat, rev: Revision): (c: nat)
    requires 2 <= m
    ensures rev == AsWritten ==> c + 1 == m
    ensures rev == Corrected ==> c == m + 1
  {
    match rev
    case AsWritten => (m - 2) + 1
    case Corrected => m + 1
  }

  /** What becomes of a found block: the scan raises, moves the cursor without emitting, or reads the block. */
  datatype Outcome = Abort(error: ScanError) | SkipTo(next: nat) | Ready(section: PlatformSection)

  /** A block whose headers are complete: its groups and its sub-header row. */
  function LegacyGroups(g: Grid, dual: bool, m: nat, platform: string, headers: seq<string>,
                        cols: MandatoryColumns): (o: Outcome)
    requires 2 <= m < |g|
    requires cols.format < |headers|
    requires Config.AR_GROUP_PRIMARY in headers || Config.AR_GROUP_SECONDARY in headers
    ensures o.Abort? ==> o.error == RowOutOfRange(m + 1)
    ensures o.SkipTo? ==> o.next == m + 5
    ensures o.Ready? ==> o.section.platform == platform && o.section.dataRowStart == m + 2
                         && o.section.isDual == dual && o.section.arColumns != []
  {
    var ar := LegacyArGroup(headers, cols.format);
    if m + 1 >= |g| then Abort(RowOutOfRange(m + 1))
    else
      var subs := StrCells(g, m + 1, |headers|);
      var arColumns := LegacyColumnsFrom(subs, headers, ar.start, LegacyBoundary(headers), ar.header, ar.start);
      var languageColumns := LegacyLanguageColumns(subs, headers, dual);
      if arColumns == [] then SkipTo(m + 5)
      else
        Ready(PlatformSection(platform, dual, (m - 2) + Config.DATA_START_ROW_OFFSET,
                              cols.funnel, cols.format, cols.duration, cols.total, arColumns, languageColumns))
  }

  /** The block whose main header row is `m` and whose title names `platform` (lines 151-248). */
  function LegacyResolve(g: Grid, dual: bool, m: nat, platform: string, rev: Revision): (o: Outcome)
    requires 2 <= m < |g|
    ensures o.SkipTo? ==> o.next == m + 5 || o.next == MissingHeaderCursor(m, rev)
    ensures o.Ready? ==> o.section.platform == platform && o.section.dataRowStart == m + 2
  {
    var headers := LegacyHeaders(g[m]);
    if !HeadersComplete(headers, dual) then SkipTo(MissingHeaderCursor(m, rev))
    else
      CompleteMandatory(headers, dual);
      LegacyGroups(g, dual, m, platform, headers, Mandatory(headers).value)
  }

  /**
   * A block is read only when its main header row has every core header (Languages included on
   * a dual-language sheet); otherwise it is skipped, moving the cursor as the revision says.
   */
  lemma ResolveNeedsHeaders(g: Grid, dual: bool, m: nat, platform: string, rev: Revision)
    requires 2 <= m < |g|
    ensures var o := LegacyResolve(g, dual, m, platform, rev);
            (!HeadersComplete(LegacyHeaders(g[m]), dual) <==> o == SkipTo(MissingHeaderCursor(m, rev)))
            && (o.Ready? ==> forall h :: h in CoreHeaders(dual) ==> h in LegacyHeaders(g[m]))
  {
    var headers := LegacyHeaders(g[m]);
    if HeadersComplete(headers, dual) {
      CompleteMandatory(headers, dual);
    }
  }

  /**
   * When each outcome of a complete block occurs: the scan raises exactly when the sub-header
   * row is past the end of the sheet, skips to header row + 5 exactly when the aspect-ratio
   * group collects nothing, and otherwise reads a block whose mandatory columns are those of the
   * header row, whose aspect-ratio columns are that collection (from the group's column up to
   * the boundary) and whose language columns are those the Languages group collects.
   */
  lemma LegacyGroupsShape(g: Grid, dual: bool, m: nat, platform: string, headers: seq<string>,
                          cols: MandatoryColumns)
    requires 2 <= m < |g|
    requires cols.format < |headers|
    requires Config.AR_GROUP_PRIMARY in headers || Config.AR_GROUP_SECONDARY in headers
    ensures var o := LegacyGroups(g, dual, m, platform, headers, cols);
            (o.Abort? <==> m + 1 >= |g|)
            && (m + 1 < |g| ==>
                  var subs := StrCells(g, m + 1, |headers|);
                  var ar := LegacyArGroup(headers, cols.format);
                  var arColumns := LegacyColumnsFrom(subs, headers, ar.start, LegacyBoundary(headers), ar.header, ar.start);
                  (o.SkipTo? <==> arColumns == [])
                  && (o.Ready? ==>
                        o.section.arColumns == arColumns
                        && o.section.languageColumns == LegacyLanguageColumns(subs, headers, dual)
                        && o.section.funnelCol == cols.funnel && o.section.formatCol == cols.format
                        && o.section.durationCol == cols.duration && o.section.totalCol == cols.total
                        && LegacyWithin(arColumns, subs, ar.start, LegacyBoundary(headers))))
  {
    if m + 1 < |g| {
      var subs := StrCells(g, m + 1, |headers|);
      var ar := LegacyArGroup(headers, cols.format);
      LegacyColumnsWithin(subs, headers, ar.start, LegacyBoundary(headers), ar.header, ar.start);
    }
  }

  /**
   * What a block the legacy scan reads looks like: data two rows below the header row under the
   * title's platform and the sheet's mode, each mandatory header exactly in its column, and
   * non-empty aspect-ratio columns that are increasing, named by non-blank sub-headers and lie
   * from the group's chosen column up to the boundary (the Languages column, else TOTAL). Language columns exist only on a
   * dual-language sheet whose header row holds Languages and TOTAL, and lie between the two.
   */
  lemma LegacyResolvedShape(g: Grid, dual: bool, m: nat, platform: string, rev: Revision, s: PlatformSection)
    requires 2 <= m < |g|
    requires LegacyResolve(g, dual, m, platform, rev) == Ready(s)
    ensures var headers := LegacyHeaders(g[m]);
            s.platform == platform && s.isDual == dual && s.dataRowStart == m + 2 && m + 1 < |g|
            && s.funnelCol < |headers| && headers[s.funnelCol] == Config.FUNNEL_STAGE_HEADER
            && s.formatCol < |headers| && headers[s.formatCol] == Config.FORMAT_HEADER
            && s.durationCol < |headers| && headers[s.durationCol] == Config.DURATION_HEADER
            && s.totalCol < |headers| && headers[s.totalCol] == Config.TOTAL_HEADER
            && s.arColumns != []
            && (Config.AR_GROUP_PRIMARY in headers || Config.AR_GROUP_SECONDARY in headers)
            && LegacyWithin(s.arColumns, StrCells(g, m + 1, |headers|), LegacyArGroup(headers, s.formatCol).start,
                            LegacyBoundary(headers))
            && (s.languageColumns != [] ==>
                  dual && Config.LANGUAGES_GROUP in headers && Config.TOTAL_HEADER in headers
                  && IndexOf(headers, Config.TOTAL_HEADER).value <= |headers|
                  && LegacyWithin(s.languageColumns, StrCells(g, m + 1, |headers|),
                                  IndexOf(headers, Config.LANGUAGES_GROUP).value, IndexOf(headers, Config.TOTAL_HEADER).value))
  {
    var headers := LegacyHeaders(g[m]);
    CompleteMandatory(headers, dual);
    var cols := Mandatory(headers).value;
    LegacyGroupsShape(g, dual, m, platform, headers, cols);
    var subs := StrCells(g, m + 1, |headers|);
    var ar := LegacyArGroup(headers, cols.format);
    var arColumns := LegacyColumnsFrom(subs, headers, ar.start, LegacyBoundary(headers), ar.header, ar.start);
    if dual && Config.LANGUAGES_GROUP in headers && Config.TOTAL_HEADER in headers {
      IndexOfFirst(headers, Config.LANGUAGES_GROUP);
      IndexOfFirst(headers, Config.TOTAL_HEADER);
      var l := IndexOf(headers, Config.LANGUAGES_GROUP).value;
      var t := IndexOf(headers, Config.TOTAL_HEADER).value;
      LegacyColumnsWithin(subs, headers, l, t, Config.LANGUAGES_GROUP, l);
    } else {
      IndexOfFirst(headers, Config.LANGUAGES_GROUP);
      IndexOfFirst(headers, Config.TOTAL_HEADER);
    }
  }

  /**
   * `LegacyResolve` for any row; the scan only asks for rows it found a title two rows above,
   * so the second case does not arise there.
   */
  function ResolveAtRow(g: Grid, dual: bool, rev: Revision): (nat, string) -> Outcome {
    (m: nat, platform: string) => if 2 <= m < |g| then LegacyResolve(g, dual, m, platform, rev) else SkipTo(m + 1)
  }

  // ---------------------------------------------------------------- one pass of the scan loop

  /**
   * What one pass of the scan loop decides: stop, raise, move the cursor without emitting, or
   * read the data rows of a resolved block.
   */
  datatype Pass = Stop | Raise(error: ScanError) | Move(next: nat) | Read(section: PlatformSection)

  /** What the loop does with a resolved block. */
  function AfterOutcome(o: Outcome): (ps: Pass)
    ensures o.Abort? <==> ps.Raise?
  {
    match o
    case Abort(e) => Raise(e)
    case SkipTo(next) => Move(next)
    case Ready(sec) => Read(sec)
  }

  /**
   * The pass of the scan loop that starts at `cursor`: the window search with the title matcher
   * `recognise`, then the found block's resolution `resolve`. Both are parameters, so the cursor
   * discipline can be stated for any of them.
   */
  function PassWith(g: Grid, recognise: string -> Option<string>, resolve: (nat, string) -> Outcome, cursor: nat): Pass
    requires cursor < |g|
  {
    match SearchWindow(g, recognise, cursor)
    case NoPlatform => if cursor + 10 >= |g| - 10 then Stop else Move(cursor + 10)
    case TitleUnreadable(r) => Raise(ColumnOutOfRange(r - 2, 1))
    case HeaderAt(m, platform) => AfterOutcome(resolve(m, platform))
  }

  /** The pass for any cursor: past the end of the sheet the loop has stopped. */
  function Passer(g: Grid, recognise: string -> Option<string>, resolve: (nat, string) -> Outcome): nat -> Pass {
    (c: nat) => if c < |g| then PassWith(g, recognise, resolve, c) else Stop
  }

  /** The legacy scan's pass, with the missing-header skip as the revision says. */
  function LegacyPasser(g: Grid, dual: bool, rev: Revision): nat -> Pass {
    Passer(g, LegacyRecognise, ResolveAtRow(g, dual, rev))
  }

  /** The data-row loop of a resolved block: its records and the row it stopped at. */
  function BlockReader(g: Grid): PlatformSection -> (seq<Record>, nat) {
    sec => (BlockRecords(g, sec), BlockEnd(g, sec))
  }

  /** Every pass that goes on moves the cursor forward, directly or past the block it reads. */
  ghost predicate Progressive(pass: nat -> Pass, read: PlatformSection -> (seq<Record>, nat)) {
    forall c: nat ::
      (pass(c).Move? ==> c < pass(c).next) && (pass(c).Read? ==> c < read(pass(c).section).1)
  }

  /** A resolution that never sends the cursor back to or above the block's header row. */
  ghost predicate Forward(resolve: (nat, string) -> Outcome) {
    forall m: nat, platform: string ::
      (resolve(m, platform).SkipTo? ==> m < resolve(m, platform).next)
      && (resolve(m, platform).Ready? ==> m < resolve(m, platform).section.dataRowStart)
  }

  /** A data loop that never stops before the block's first data row. */
  ghost predicate ReadsForward(read: PlatformSection -> (seq<Record>, nat)) {
    forall sec: PlatformSection :: sec.dataRowStart <= read(sec).1
  }

  /** With a forward resolution and data loop, every pass that goes on moves the cursor forward. */
  lemma PassesForward(g: Grid, recognise: string -> Option<string>, resolve: (nat, string) -> Outcome,
                      read: PlatformSection -> (seq<Record>, nat))
    requires Forward(resolve) && ReadsForward(read)
    ensures Progressive(Passer(g, recognise, resolve), read)
  {
    forall c: nat | c < |g|
      ensures var ps := PassWith(g, recognise, resolve, c);
              (ps.Move? ==> c < ps.next) && (ps.Read? ==> c < read(ps.section).1)
    {
      var p := SearchWindow(g, recognise, c);
      if p.HeaderAt? {
        var o := resolve(p.row, p.platform);
        if o.Ready? {
          assert o.section.dataRowStart <= read(o.section).1;
        }
      }
    }
  }

  /** The corrected resolution is forward: a skipped block moves the cursor below its header row. */
  lemma CorrectedForward(g: Grid, dual: bool)
    ensures Forward(ResolveAtRow(g, dual, Corrected))
  {
  }

  /** A block's data loop stops at or after its first data row. */
  lemma BlockReaderForward(g: Grid)
    ensures ReadsForward(BlockReader(g))
  {
  }

  /** The records emitted from `cursor` on, or the error raised first (which loses them all). */
  function Drive(size: nat, pass: nat -> Pass, read: PlatformSection -> (seq<Record>, nat), cursor: nat)
    : Result<seq<Record>, ScanError>
    requires Progressive(pass, read)
    decreases size - cursor
  {
    if cursor >= size then Success([])
    else match pass(cursor)
      case Stop => Success([])
      case Raise(e) => Failure(e)
      case Move(next) => Drive(size, pass, read, next)
      case Read(sec) => Prepend(read(sec).0, Drive(size, pass, read, read(sec).1))
  }

  /** The corrected legacy pass moves the cursor forward. */
  lemma LegacyProgressive(g: Grid, dual: bool)
    ensures Progressive(LegacyPasser(g, dual, Corrected), BlockReader(g))
  {
    CorrectedForward(g, dual);
    BlockReaderForward(g);
    PassesForward(g, LegacyRecognise, ResolveAtRow(g, dual, Corrected), BlockReader(g));
  }

  /** `find_platform_tables_and_transform`, with the corrected missing-header skip. */
  function LegacyTransform(g: Grid, dual: bool): Result<seq<Record>, ScanError> {
    LegacyProgressive(g, dual);
    Drive(|g|, LegacyPasser(g, dual, Corrected), BlockReader(g), FIRST_CURSOR)
  }

  // ---------------------------------------------------------------- the loops

  /** A block's resolution, as the straight-line code of the scan loop with its collection loops. */
  method ReadBlock(g: Grid, dual: bool, m: nat, platform: string) returns (o: Outcome)
    requires 2 <= m < |g|
    ensures o == LegacyResolve(g, dual, m, platform, Corrected)
  {
    var headers := LegacyHeaders(g[m]);
    if !HeadersComplete(headers, dual) {
      return SkipTo(m + 1);
    }
    CompleteMandatory(headers, dual);
    var cols := Mandatory(headers).value;
    var ar := LegacyArGroup(headers, cols.format);
    if m + 1 >= |g| {
      return Abort(RowOutOfRange(m + 1));
    }
    var subs := StrCells(g, m + 1, |headers|);
    var arColumns := CollectLegacyColumns(subs, headers, ar.start, LegacyBoundary(headers), ar.header);
    var languageColumns: seq<ColumnSpec> := [];
    if dual {
      var lang := IndexOf(headers, Config.LANGUAGES_GROUP);
      var total := IndexOf(headers, Config.TOTAL_HEADER);
      if lang.Some? && total.Some? {
        languageColumns := CollectLegacyColumns(subs, headers, lang.value, total.value, Config.LANGUAGES_GROUP);
      }
    }
    if arColumns == [] {
      return SkipTo(m + 5);
    }
    o := Ready(PlatformSection(platform, dual, (m - 2) + Config.DATA_START_ROW_OFFSET,
                               cols.funnel, cols.format, cols.duration, cols.total, arColumns, languageColumns));
  }

  /** One pass of the scan loop up to its data rows: the window search and the found block's resolution. */
  method ScanOnce(g: Grid, dual: bool, cursor: nat) returns (ps: Pass)
    requires cursor < |g|
    ensures ps == LegacyPasser(g, dual, Corrected)(cursor)
  {
    var probe := WindowSearch(g, LegacyRecognise, cursor);
    match probe
    case NoPlatform =>
      var next := cursor + 10;
      if next >= |g| - 10 {
        return Stop;
      }
      ps := Move(next);
    case TitleUnreadable(r) =>
      ps := Raise(ColumnOutOfRange(r - 2, 1));
    case HeaderAt(m, platform) =>
      var o := ReadBlock(g, dual, m, platform);
      assert o == ResolveAtRow(g, dual, Corrected)(m, platform);
      ps := AfterOutcome(o);
  }

  /** `find_platform_tables_and_transform`: the scan loop, collecting every emitted record in order. */
  method FindPlatformTablesAndTransform(g: Grid, dual: bool) returns (r: Result<seq<Record>, ScanError>)
    ensures r == LegacyTransform(g, dual)
  {
    LegacyProgressive(g, dual);
    var pass, read := LegacyPasser(g, dual, Corrected), BlockReader(g);
    var out: seq<Record> := [];
    var cursor := FIRST_CURSOR;
    PrependNothing(Drive(|g|, pass, read, cursor));
    while cursor < |g|
      invariant LegacyTransform(g, dual) == Prepend(out, Drive(|g|, pass, read, cursor))
      decreases |g| - cursor
    {
      var ps := ScanOnce(g, dual, cursor);
      match ps
      case Stop =>
        break;
      case Raise(e) =>
        return Failure(e);
      case Move(next) =>
        cursor := next;
      case Read(sec) =>
        var records, next := TransformBlock(g, sec);
        assert (records, next) == read(sec);
        PrependAssoc(out, records, Drive(|g|, pass, read, next));
        out := out + records;
        cursor := next;
    }
    assert out + [] == out;
    r := Success(out);
  }

  // ---------------------------------------------------------------- what the scan emits

  /** Items every block read emits satisfy `ok`: then every item the scan emits does. */
  lemma {:induction false} DriveKeeps(size: nat, pass: nat -> Pass, read: PlatformSection -> (seq<Record>, nat),
                                      cursor: nat, ok: Record -> bool)
    requires Progressive(pass, read)
    requires forall c: nat :: pass(c).Read? ==> forall x :: x in read(pass(c).section).0 ==> ok(x)
    ensures Drive(size, pass, read, cursor).Success? ==> forall x :: x in Drive(size, pass, read, cursor).value ==> ok(x)
    decreases size - cursor
  {
    if cursor < size {
      match pass(cursor)
      case Move(next) =>
        DriveKeeps(size, pass, read, next, ok);
      case Read(sec) =>
        DriveKeeps(size, pass, read, read(sec).1, ok);
      case _ =>
    }
  }

  /** A resolution that reads a block under the platform its title named. */
  ghost predicate Titled(resolve: (nat, string) -> Outcome) {
    forall m: nat, platform: string :: resolve(m, platform).Ready? ==> resolve(m, platform).section.platform == platform
  }

  /** A pass reads blocks only under a platform name the title matcher returned. */
  lemma PassPlatforms(g: Grid, recognise: string -> Option<string>, resolve: (nat, string) -> Outcome, cursor: nat)
    requires cursor < |g| && Titled(resolve)
    ensures var ps := PassWith(g, recognise, resolve, cursor);
            ps.Read? ==> exists s :: recognise(s) == Some(ps.section.platform)
  {
    var probe := SearchWindow(g, recognise, cursor);
    if probe.HeaderAt? {
      assert recognise(CellStr(At(g, probe.row - 2, 1))) == Some(probe.platform);
    }
  }

  /**
   * Every record of the legacy output names a platform of the root table by its display name;
   * in particular no record is for LinkedIn, whose blocks the legacy matcher never recognises.
   */
  lemma LegacyPlatforms(g: Grid, dual: bool)
    ensures LegacyTransform(g, dual).Success? ==>
              forall x :: x in LegacyTransform(g, dual).value ==>
                IsDisplayName(Config.LEGACY_PLATFORM_NAMES, x.platform) && x.platform != "LinkedIn"
  {
    var pass, read := LegacyPasser(g, dual, Corrected), BlockReader(g);
    var ok := (x: Record) => exists s :: LegacyRecognise(s) == Some(x.platform);
    forall c: nat | pass(c).Read?
      ensures forall x :: x in read(pass(c).section).0 ==> ok(x)
    {
      PassPlatforms(g, LegacyRecognise, ResolveAtRow(g, dual, Corrected), c);
      BlockPlatform(g, pass(c).section);
    }
    LegacyProgressive(g, dual);
    DriveKeeps(|g|, pass, read, FIRST_CURSOR, ok);
    forall x | LegacyTransform(g, dual).Success? && x in LegacyTransform(g, dual).value
      ensures IsDisplayName(Config.LEGACY_PLATFORM_NAMES, x.platform) && x.platform != "LinkedIn"
    {
      var s :| LegacyRecognise(s) == Some(x.platform);
      LegacyNeverLinkedIn(Upper(s));
    }
  }

  // ---------------------------------------------------------------- the missing-header skip

  /** A block with missing headers is skipped: as written to the row above its header row, corrected to the row below. */
  lemma MissingHeadersSkip(g: Grid, dual: bool, m: nat, platform: string)
    requires 2 <= m < |g| && !HeadersComplete(LegacyHeaders(g[m]), dual)
    ensures ResolveAtRow(g, dual, AsWritten)(m, platform) == SkipTo(m - 1)
    ensures ResolveAtRow(g, dual, Corrected)(m, platform) == SkipTo(m + 1)
  {
    ResolveNeedsHeaders(g, dual, m, platform, AsWritten);
    ResolveNeedsHeaders(g, dual, m, platform, Corrected);
  }

  /** A pass whose found block is skipped moves the cursor where the resolution says. */
  lemma SkippedPass(g: Grid, recognise: string -> Option<string>, resolve: (nat, string) -> Outcome, cursor: nat, next: nat)
    requires cursor < |g|
    requires SearchWindow(g, recognise, cursor).HeaderAt?
    requires resolve(SearchWindow(g, recognise, cursor).row, SearchWindow(g, recognise, cursor).platform) == SkipTo(next)
    ensures Passer(g, recognise, resolve)(cursor) == Move(next)
  {
  }

  /**
   * A resolution that sends the cursor to the row above the block's header row, when that row
   * finds nothing, makes the next pass find the same block again and send the cursor to the
   * same row: the loop repeats that pass forever.
   */
  lemma BackwardSkipRepeats(g: Grid, recognise: string -> Option<string>, resolve: (nat, string) -> Outcome, cursor: nat)
    requires cursor < |g|
    requires SearchWindow(g, recognise, cursor).HeaderAt?
    requires var p := SearchWindow(g, recognise, cursor);
             resolve(p.row, p.platform) == SkipTo(p.row - 1) && RowProbe(g, recognise, p.row - 1).NoPlatform?
    ensures var m := SearchWindow(g, recognise, cursor).row;
            Passer(g, recognise, resolve)(cursor) == Move(m - 1) && Passer(g, recognise, resolve)(m - 1) == Move(m - 1)
  {
    var p := SearchWindow(g, recognise, cursor);
    var m := p.row;
    var end := WindowEnd(g, m - 1);
    assert m < end;
    assert FirstProbe(g, recognise, m - 1, end) == p;
    SkippedPass(g, recognise, resolve, cursor, m - 1);
    SkippedPass(g, recognise, resolve, m - 1, m - 1);
  }

  /**
   * As written, a block with missing headers whose header row has a row above it that finds
   * nothing sends the scan loop into an endless repetition of the same pass, whatever the title
   * matcher.
   */
  lemma AsWrittenStalls(g: Grid, recognise: string -> Option<string>, dual: bool, cursor: nat)
    requires cursor < |g|
    requires SearchWindow(g, recognise, cursor).HeaderAt?
    requires var m := SearchWindow(g, recognise, cursor).row;
             !HeadersComplete(LegacyHeaders(g[m]), dual) && RowProbe(g, recognise, m - 1).NoPlatform?
    ensures var m := SearchWindow(g, recognise, cursor).row;
            var pass := Passer(g, recognise, ResolveAtRow(g, dual, AsWritten));
            pass(cursor) == Move(m - 1) && pass(m - 1) == Move(m - 1)
  {
    var p := SearchWindow(g, recognise, cursor);
    MissingHeadersSkip(g, dual, p.row, p.platform);
    BackwardSkipRepeats(g, recognise, ResolveAtRow(g, dual, AsWritten), cursor);
  }

  /** The corrected skip moves past the header row, so the same block is not found again. */
  lemma CorrectedSkips(g: Grid, recognise: string -> Option<string>, dual: bool, cursor: nat)
    requires cursor < |g|
    requires SearchWindow(g, recognise, cursor).HeaderAt?
    requires !HeadersComplete(LegacyHeaders(g[SearchWindow(g, recognise, cursor).row]), dual)
    ensures var m := SearchWindow(g, recognise, cursor).row;
            Passer(g, recognise, ResolveAtRow(g, dual, Corrected))(cursor) == Move(m + 1)
  {
    var p := SearchWindow(g, recognise, cursor);
    MissingHeadersSkip(g, dual, p.row, p.platform);
    SkippedPass(g, recognise, ResolveAtRow(g, dual, Corrected), cursor, p.row + 1);
  }

  /** A sheet with one YouTube block whose header row has no "Format": title on row 4, header on row 6. */
  const STALLING_SHEET: Grid := [
    [Blank, Blank], [Blank, Blank], [Blank, Blank], [Blank, Blank],
    [Blank, Text("YouTube")],
    [Blank, Blank],
    [Text("Funnel Stage"), Blank]]

  /** Only row 6 of that sheet has a "Funnel Stage" cell. */
  lemma StallingSheetRows()
    ensures RowHasFunnelHeader(STALLING_SHEET[6])
    ensures !RowHasFunnelHeader(STALLING_SHEET[4]) && !RowHasFunnelHeader(STALLING_SHEET[5])
  {
    var g := STALLING_SHEET;
    assert Strip("Funnel Stage") == "Funnel Stage" by {
      StripOfTrimmed("Funnel Stage");
    }
    assert IsFunnelHeaderCell(g[6][0]);
    assert !RowHasFunnelHeader(g[4]) by {
      assert |Lower(CellStr(g[4][1]))| <= 7;
    }
  }

  /** The sheet has a column B, so reading a title does not raise. */
  lemma StallingSheetWide()
    ensures !Narrow(STALLING_SHEET)
  {
    assert |STALLING_SHEET[4]| == 2;
  }

  /** The legacy matcher reads the title of that sheet's block as YouTube. */
  lemma StallingSheetTitle()
    ensures LegacyRecognise(CellStr(At(STALLING_SHEET, 4, 1))) == Some("YouTube")
  {
    assert Strip("YouTube") == "YouTube" by {
      StripOfTrimmed("YouTube");
    }
    assert Upper("YouTube") == "YOUTUBE";
  }

  /** The block's header row lacks "Format". */
  lemma StallingSheetHeaders()
    ensures !HeadersComplete(LegacyHeaders(STALLING_SHEET[6]), false)
  {
    var headers := LegacyHeaders(STALLING_SHEET[6]);
    assert headers == ["Funnel Stage", "nan"];
    assert Config.FORMAT_HEADER !in headers;
  }

  /** The first search on that sheet finds the YouTube block on row 6, with row 5 above it finding nothing. */
  lemma StallingSheetSearch()
    ensures SearchWindow(STALLING_SHEET, LegacyRecognise, FIRST_CURSOR) == HeaderAt(6, "YouTube")
    ensures RowProbe(STALLING_SHEET, LegacyRecognise, 5).NoPlatform?
    ensures !HeadersComplete(LegacyHeaders(STALLING_SHEET[6]), false)
  {
    StallingSheetRows();
    StallingSheetWide();
    StallingSheetTitle();
    StallingSheetHeaders();
    assert TitleProbe(STALLING_SHEET, LegacyRecognise, 6) == HeaderAt(6, "YouTube");
    assert RowProbe(STALLING_SHEET, LegacyRecognise, 6) == HeaderAt(6, "YouTube");
  }

  /** On that sheet the as-written loop goes from the first cursor to row 5 and stays there. */
  lemma StallingSheetLoops()
    ensures LegacyPasser(STALLING_SHEET, false, AsWritten)(FIRST_CURSOR) == Move(5)
    ensures LegacyPasser(STALLING_SHEET, false, AsWritten)(5) == Move(5)
    ensures LegacyPasser(STALLING_SHEET, false, Corrected)(FIRST_CURSOR) == Move(7)
  {
    StallingSheetSearch();
    AsWrittenStalls(STALLING_SHEET, LegacyRecognise, false, FIRST_CURSOR);
    CorrectedSkips(STALLING_SHEET, LegacyRecognise, false, FIRST_CURSOR);
  }

  // ---------------------------------------------------------------- the configuration import

  /** The names excel_transformer.py imports from the root configuration (lines 8-20). */
  const LEGACY_IMPORTS: set<string> := {
    "DUAL_LANG_INPUT_SHEET_NAME", "SINGLE_LANG_INPUT_SHEET_NAME", "OUTPUT_FILE_BASENAME", "LOG_FILE",
    "PLATFORM_NAMES", "MAIN_HEADER_ASPECT_RATIO_GROUP_PRIMARY", "MAIN_HEADER_ASPECT_RATIO_GROUP_SECONDARY",
    "MAIN_HEADER_LANGUAGES_GROUP", "MAIN_HEADER_TOTAL_COL", "START_ROW_SEARCH_FOR_PLATFORM",
    "PLATFORM_TITLE_ROW_OFFSET", "MAIN_HEADER_ROW_OFFSET", "SUB_HEADER_ROW_OFFSET", "DATA_START_ROW_OFFSET",
    "LOG_LEVEL", "LOG_FORMAT", "LOG_MAX_BYTES", "LOG_BACKUP_COUNT", "OUTPUT_COLUMNS_BASE",
    "OUTPUT_LANGUAGE_COLUMN", "FUNNEL_STAGE_HEADER", "FORMAT_HEADER", "DURATION_HEADER",
    "OUTPUT_SHEET_NAME_DUAL_LANG", "OUTPUT_SHEET_NAME_SINGLE_LANG", "FUNNEL_STAGES", "EXPAND_ALL_TO_ACP"}

  /** The names the root configuration (config.py) defines. */
  const ROOT_CONFIG_NAMES: set<string> := {
    "APP_NAME", "VERSION", "DUAL_LANG_INPUT_SHEET_NAME", "SINGLE_LANG_INPUT_SHEET_NAME",
    "OUTPUT_FILE_BASENAME", "LOG_FILE", "DEFAULT_OUTPUT_FORMAT", "OUTPUT_SHEET_NAME_DUAL_LANG",
    "OUTPUT_SHEET_NAME_SINGLE_LANG", "PLATFORM_NAMES", "MAIN_HEADER_ASPECT_RATIO_GROUP_PRIMARY",
    "MAIN_HEADER_ASPECT_RATIO_GROUP_SECONDARY", "MAIN_HEADER_LANGUAGES_GROUP", "MAIN_HEADER_TOTAL_COL",
    "PLATFORM_COLUMN_HEADER", "FUNNEL_STAGE_HEADER", "FORMAT_HEADER", "DURATION_HEADER", "TOTAL_HEADER",
    "LANGUAGE_HEADER", "CORE_MAIN_HEADERS", "START_ROW_SEARCH_FOR_PLATFORM", "PLATFORM_TITLE_ROW_OFFSET",
    "MAIN_HEADER_ROW_OFFSET", "SUB_HEADER_ROW_OFFSET", "DATA_START_ROW_OFFSET", "PLATFORM_SEARCH_WINDOW",
    "LOG_LEVEL", "LOG_FORMAT", "LOG_MAX_BYTES", "LOG_BACKUP_COUNT", "OUTPUT_COLUMNS_BASE",
    "OUTPUT_LANGUAGE_COLUMN"}

  /** The two expansion settings, which only the package configuration defines. */
  const EXPANSION_NAMES: set<string> := {"FUNNEL_STAGES", "EXPAND_ALL_TO_ACP"}

  /**
   * As written the import cannot succeed: exactly the two expansion settings are missing from
   * the root configuration, so loading the legacy module raises ImportError.
   */
  lemma ImportUnresolved()
    ensures LEGACY_IMPORTS - ROOT_CONFIG_NAMES == EXPANSION_NAMES
  {
    assert "FUNNEL_STAGES" !in ROOT_CONFIG_NAMES;
    assert "EXPAND_ALL_TO_ACP" !in ROOT_CONFIG_NAMES;
  }

  /**
   * Corrected, the two settings come from the package configuration: every import resolves,
   * and a kept "ALL" row expands to the three configured stages, emitting TOTAL x 3 records.
   */
  lemma ImportsResolved(sec: PlatformSection, row: Row)
    requires Kept(sec, row) && Upper(Strip(LegacyStage(sec, row))) == "ALL"
    ensures LEGACY_IMPORTS <= ROOT_CONFIG_NAMES + EXPANSION_NAMES
    ensures ExpandFunnelStage(LegacyStage(sec, row)) == Config.FUNNEL_STAGES
    ensures |LegacyRowRecords(sec, row)| == LegacySafeToNumeric(Get(row, sec.totalCol)) * 3
  {
    ImportUnresolved();
    LegacyRowCount(sec, row);
  }
}

=== FILE: nested.dfy ===
/**
 * Nested loops as values: `Product(xs, ys, f)` is what two nested `for` loops produce when the
 * outer one runs over `xs`, the inner one over `ys`, and the body appends `f(x, y)`.
 */
module Nested {

  /** The inner loop for one outer value: `f(x, y)` for every `y`, in order. */
  function Inner<A, B, C>(x: A, ys: seq<B>, f: (A, B) -> C): (r: seq<C>)
    ensures |r| == |ys|
  {
    seq(|ys|, j requires 0 <= j < |ys| => f(x, ys[j]))
  }

  /** Both loops: the rows of every outer value, outer value by outer value. */
  function Product<A, B, C>(xs: seq<A>, ys: seq<B>, f: (A, B) -> C): seq<C>
    decreases |xs|
  {
    if xs == [] then [] else Product(xs[..|xs| - 1], ys, f) + Inner(xs[|xs| - 1], ys, f)
  }

  /** `k` copies of `x`: the values a `for _ in range(k)` loop sees. */
  function Rep<A>(x: A, k: nat): (r: seq<A>)
    ensures |r| == k
  {
    seq(k, _ => x)
  }

  lemma InnerAppend<A, B, C>(x: A, ys: seq<B>, ys': seq<B>, f: (A, B) -> C)
    ensures Inner(x, ys + ys', f) == Inner(x, ys, f) + Inner(x, ys', f)
  {
  }

  lemma MulSucc(n: nat, b: nat)
    requires n > 0
    ensures n * b == (n - 1) * b + b
  {
  }

  lemma MulNat(a: nat, b: nat)
    ensures 0 <= a * b
  {
  }

  lemma MulLe(a: nat, b: nat, c: nat)
    requires a <= b
    ensures a * c <= b * c
  {
  }

  /** Two nested loops run the body |xs| * |ys| times. */
  lemma {:induction false} ProductLength<A, B, C>(xs: seq<A>, ys: seq<B>, f: (A, B) -> C)
    ensures |Product(xs, ys, f)| == |xs| * |ys|
    decreases |xs|
  {
    if xs != [] {
      ProductLength(xs[..|xs| - 1], ys, f);
      MulSucc(|xs|, |ys|);
    }
  }

  /** Running the outer loop over two lists in turn runs it over their concatenation. */
  lemma {:induction false} ProductAppend<A, B, C>(xs: seq<A>, xs': seq<A>, ys: seq<B>, f: (A, B) -> C)
    ensures Product(xs + xs', ys, f) == Product(xs, ys, f) + Product(xs', ys, f)
    decreases |xs'|
  {
    if xs' == [] {
      assert xs + xs' == xs;
    } else {
      var n := |xs'| - 1;
      assert (xs + xs')[..|xs + xs'| - 1] == xs + xs'[..n];
      ProductAppend(xs, xs'[..n], ys, f);
    }
  }

  /** The body's result for the `i`-th outer and `j`-th inner value is element `i * |ys| + j`. */
  lemma {:induction false} ProductAt<A, B, C>(xs: seq<A>, ys: seq<B>, f: (A, B) -> C, i: nat, j: nat)
    requires i < |xs| && j < |ys|
    ensures 0 <= i * |ys| + j < |Product(xs, ys, f)|
    ensures Product(xs, ys, f)[i * |ys| + j] == f(xs[i], ys[j])
    decreases |xs|
  {
    var n := |xs| - 1;
    ProductLength(xs[..n], ys, f);
    ProductLength(xs, ys, f);
    MulNat(i, |ys|);
    MulSucc(i + 1, |ys|);
    MulLe(i + 1, |xs|, |ys|);
    if i < n {
      assert xs[..n][i] == xs[i];
      ProductAt(xs[..n], ys, f, i, j);
    }
  }

  // ---------------------------------------------------------------- a loop that stops early

  /**
   * A loop over `rows` from index `r` that breaks at the first row `stop` accepts and appends
   * `emit(row)` for every row before it.
   */
  function Until<R, T>(rows: seq<R>, stop: R -> bool, emit: R -> seq<T>, r: nat): seq<T>
    decreases |rows| - r
  {
    if r >= |rows| || stop(rows[r]) then [] else emit(rows[r]) + Until(rows, stop, emit, r + 1)
  }

  /** Where that loop leaves its index: the first stopping row at or after `r`, or the end of the rows. */
  function UntilEnd<R>(rows: seq<R>, stop: R -> bool, r: nat): (e: nat)
    ensures r <= e
    ensures r <= |rows| ==> e <= |rows|
    ensures e < |rows| ==> stop(rows[e])
    decreases |rows| - r
  {
    if r >= |rows| || stop(rows[r]) then r else UntilEnd(rows, stop, r + 1)
  }

  /** The loop itself: it appends `emit(row)` for each row from `start` on until a row stops it, and returns where it stopped. */
  method RunUntil<R, T>(rows: seq<R>, stop: R -> bool, emit: R -> seq<T>, start: nat) returns (out: seq<T>, next: nat)
    ensures out == Until(rows, stop, emit, start)
    ensures next == UntilEnd(rows, stop, start)
  {
    out := [];
    next := start;
    while next < |rows| && !stop(rows[next])
      invariant start <= next
      invariant out + Until(rows, stop, emit, next) == Until(rows, stop, emit, start)
      invariant UntilEnd(rows, stop, next) == UntilEnd(rows, stop, start)
      decreases |rows| - next
    {
      out := out + emit(rows[next]);
      next := next + 1;
    }
    assert out + [] == out;
  }

  /** Rows from the first stopping row on are never looked at: cutting them off changes nothing. */
  lemma {:induction false} UntilBefore<R, T>(rows: seq<R>, stop: R -> bool, emit: R -> seq<T>, r: nat, m: nat)
    requires r <= m < |rows| && stop(rows[m])
    ensures Until(rows, stop, emit, r) == Until(rows[..m], stop, emit, r)
    decreases m - r
  {
    if r < m {
      assert rows[..m][r] == rows[r];
      if !stop(rows[r]) {
        UntilBefore(rows, stop, emit, r + 1, m);
      }
    }
  }

  /**
   * Every item the loop produces comes from a row at or after `r` that precedes every stopping
   * row: `emit(rows[k])` holds it for some `k` with no stopping row in `r..k`.
   */
  lemma {:induction false} UntilFrom<R, T>(rows: seq<R>, stop: R -> bool, emit: R -> seq<T>, r: nat, x: T)
    requires x in Until(rows, stop, emit, r)
    ensures exists k :: r <= k < |rows| && x in emit(rows[k]) && forall j :: r <= j <= k ==> !stop(rows[j])
    decreases |rows| - r
  {
    if x !in emit(rows[r]) {
      UntilFrom(rows, stop, emit, r + 1, x);
      var k :| r + 1 <= k < |rows| && x in emit(rows[k]) && forall j :: r + 1 <= j <= k ==> !stop(rows[j]);
      assert forall j :: r <= j <= k ==> !stop(rows[j]);
    }
  }
}

=== FILE: parser.dfy ===
/**
 * The section locator of cej_transformer/parser.py: a forward scan over the sheet that finds
 * each platform block ("Funnel Stage" header row with the platform title two rows above),
 * resolves the columns that play each role, and yields one `PlatformSection` per usable block.
 */
module Parser {
  import opened Wrappers
  import opened PyText
  import opened Sheet
  import opened Platforms
  import Config

  /** A column of a header group and the stripped text of its sub-header. */
  datatype ColumnSpec = ColumnSpec(index: nat, name: string)

  /** Everything the expander needs to read one platform block. */
  datatype PlatformSection = PlatformSection(
    platform: string,
    isDual: bool,
    dataRowStart: nat,
    funnelCol: nat,
    formatCol: nat,
    durationCol: nat,
    totalCol: nat,
    arColumns: seq<ColumnSpec>,
    languageColumns: seq<ColumnSpec>)

  /**
   * Why a scan raises instead of yielding: a mandatory header missing from the main header
   * row (`ValueError`), or a cell or row read past the end of the sheet (`IndexError`).
   */
  datatype ScanError =
    | MissingHeader(header: string)
    | ColumnOutOfRange(row: nat, column: nat)
    | RowOutOfRange(row: nat)

  // ---------------------------------------------------------------- header lookup

  /** The first index from `from` on whose header is exactly `name`. */
  function IndexFrom(headers: seq<string>, name: string, from: nat): (r: Option<nat>)
    ensures r.Some? ==> from <= r.value < |headers| && headers[r.value] == name
    decreases |headers| - from
  {
    if from >= |headers| then None
    else if headers[from] == name then Some(from)
    else IndexFrom(headers, name, from + 1)
  }

  /** `IndexFrom` finds the first match at or after `from`, and finds nothing only when there is none. */
  lemma {:induction false} IndexFromFirst(headers: seq<string>, name: string, from: nat)
    ensures var r := IndexFrom(headers, name, from);
            (r.None? <==> forall k :: from <= k < |headers| ==> headers[k] != name)
            && (r.Some? ==> forall k :: from <= k < r.value ==> headers[k] != name)
    decreases |headers| - from
  {
    if from < |headers| && headers[from] != name {
      IndexFromFirst(headers, name, from + 1);
    }
  }

  /** `headers.index(name)`: `None` where Python raises `ValueError`. Matching is exact, case included. */
  function IndexOf(headers: seq<string>, name: string): (r: Option<nat>)
    ensures r.Some? ==> r.value < |headers| && headers[r.value] == name
  {
    IndexFrom(headers, name, 0)
  }

  /** `list.index` finds the first occurrence, and raises exactly when the name is absent. */
  lemma IndexOfFirst(headers: seq<string>, name: string)
    ensures var r := IndexOf(headers, name);
            (r.None? <==> name !in headers)
            && (r.Some? ==> forall k :: 0 <= k < r.value ==> headers[k] != name)
  {
    IndexFromFirst(headers, name, 0);
  }

  /** Where the aspect-ratio group starts and the main header that labels it. */
  datatype ArGroup = ArGroup(start: nat, header: string)

  /**
   * `_resolve_ar_group`: the "Aspect Ratio" column if the row has one; otherwise the first
   * "Format" column after the primary Format column; otherwise none.
   */
  function ResolveArGroup(headers: seq<string>, primary: nat): (r: Option<ArGroup>)
    ensures r.Some? ==> r.value.start < |headers| && headers[r.value.start] == r.value.header
  {
    match IndexOf(headers, Config.AR_GROUP_PRIMARY)
    case Some(i) => Some(ArGroup(i, Config.AR_GROUP_PRIMARY))
    case None =>
      match IndexFrom(headers, Config.AR_GROUP_SECONDARY, primary + 1)
      case Some(i) => Some(ArGroup(i, Config.AR_GROUP_SECONDARY))
      case None => None
  }

  /**
   * The group is the first "Aspect Ratio" column when there is one; otherwise the first "Format"
   * column strictly after the primary one, and there is none only when no such column exists.
   */
  lemma ResolveArGroupChoice(headers: seq<string>, primary: nat)
    ensures var r := ResolveArGroup(headers, primary);
            (Config.AR_GROUP_PRIMARY in headers ==>
               r.Some? && r.value.header == Config.AR_GROUP_PRIMARY
               && forall k :: 0 <= k < r.value.start ==> headers[k] != Config.AR_GROUP_PRIMARY)
            && (Config.AR_GROUP_PRIMARY !in headers ==>
                  (r.Some? <==> exists k :: primary < k < |headers| && headers[k] == Config.AR_GROUP_SECONDARY))
            && (Config.AR_GROUP_PRIMARY !in headers && r.Some? ==>
                  r.value.header == Config.AR_GROUP_SECONDARY && primary < r.value.start
                  && forall k :: primary < k < r.value.start ==> headers[k] != Config.AR_GROUP_SECONDARY)
  {
    IndexOfFirst(headers, Config.AR_GROUP_PRIMARY);
    IndexFromFirst(headers, Config.AR_GROUP_SECONDARY, primary + 1);
  }

  // ---------------------------------------------------------------- sub-header collection

  /** A main header that belongs to another group: non-blank, not "nan", not the group's own label. */
  predicate Foreign(main: string, group: string) {
    main != "" && main != group && main != "nan"
  }

  /** Collection stops at column `i`: a later column with a sub-header under a foreign main header. */
  predicate StopsAt(subs: seq<string>, mains: seq<string>, start: nat, group: string, i: nat)
    requires i < |subs| && i < |mains|
  {
    i > start && Filled(Strip(subs[i])) && Foreign(Strip(mains[i]), group)
  }

  /** The columns `_collect_sub_headers` collects from column `i` on, up to (not including) `end`. */
  function ColumnsFrom(subs: seq<string>, mains: seq<string>, start: nat, end: nat, group: string, i: nat)
    : seq<ColumnSpec>
    requires end <= |subs| && end <= |mains|
    decreases end - i
  {
    if i >= end then []
    else if !Filled(Strip(subs[i])) then ColumnsFrom(subs, mains, start, end, group, i + 1)
    else if StopsAt(subs, mains, start, group, i) then []
    else [ColumnSpec(i, Strip(subs[i]))] + ColumnsFrom(subs, mains, start, end, group, i + 1)
  }

  /** Collected columns lie in the range, strictly increasing, each named by its filled, stripped sub-header. */
  predicate ColumnsWithin(cols: seq<ColumnSpec>, subs: seq<string>, lo: nat, end: nat)
    requires end <= |subs|
  {
    (forall k :: 0 <= k < |cols| ==> lo <= cols[k].index < end)
    && (forall k :: 0 <= k < |cols| ==>
          Filled(cols[k].name) && Trimmed(cols[k].name) && cols[k].name == Strip(subs[cols[k].index]))
    && (forall k, l :: 0 <= k < l < |cols| ==> cols[k].index < cols[l].index)
  }

  lemma {:induction false} ColumnsFromWithin(subs: seq<string>, mains: seq<string>, start: nat, end: nat,
                                             group: string, i: nat)
    requires end <= |subs| && end <= |mains|
    ensures ColumnsWithin(ColumnsFrom(subs, mains, start, end, group, i), subs, i, end)
    decreases end - i
  {
    if i < end {
      var rest := ColumnsFrom(subs, mains, start, end, group, i + 1);
      ColumnsFromWithin(subs, mains, start, end, group, i + 1);
      if Filled(Strip(subs[i])) && !StopsAt(subs, mains, start, group, i) {
        ConsWithin(ColumnSpec(i, Strip(subs[i])), rest, subs, end);
      }
    }
  }

  /** A filled column followed by columns after it keeps the list within range and increasing. */
  lemma ConsWithin(c: ColumnSpec, rest: seq<ColumnSpec>, subs: seq<string>, end: nat)
    requires end <= |subs| && c.index < end
    requires Filled(c.name) && c.name == Strip(subs[c.index])
    requires ColumnsWithin(rest, subs, c.index + 1, end)
    ensures ColumnsWithin([c] + rest, subs, c.index, end)
  {
    var r := [c] + rest;
    forall k | 0 < k < |r|
      ensures r[k] == rest[k - 1]
    {
    }
  }

  /** `_collect_sub_headers(subs, mains, start_idx=start, end_idx=end, fallback_header=group)` */
  function Collected(subs: seq<string>, mains: seq<string>, start: nat, end: nat, group: string): seq<ColumnSpec>
    requires end <= |subs| && end <= |mains|
  {
    ColumnsFrom(subs, mains, start, end, group, start)
  }

  /** The indices of a list of columns. */
  function Indices(cols: seq<ColumnSpec>): set<nat> {
    set k | 0 <= k < |cols| :: cols[k].index
  }

  /**
   * A column is collected exactly when it lies in the range, has a filled sub-header, and no
   * column up to and including it stops collection. Blank sub-headers never stop it.
   */
  lemma {:induction false} ColumnsFromMembers(subs: seq<string>, mains: seq<string>, start: nat, end: nat,
                                              group: string, i: nat, c: nat)
    requires end <= |subs| && end <= |mains|
    ensures c in Indices(ColumnsFrom(subs, mains, start, end, group, i)) <==>
              i <= c < end && Filled(Strip(subs[c]))
              && forall k :: i <= k <= c ==> !StopsAt(subs, mains, start, group, k)
    decreases end - i
  {
    var r := ColumnsFrom(subs, mains, start, end, group, i);
    if i < end {
      var rest := ColumnsFrom(subs, mains, start, end, group, i + 1);
      ColumnsFromMembers(subs, mains, start, end, group, i + 1, c);
      if !Filled(Strip(subs[i])) {
        assert r == rest;
        assert !StopsAt(subs, mains, start, group, i);
      } else if StopsAt(subs, mains, start, group, i) {
        assert r == [];
      } else {
        IndicesCons(ColumnSpec(i, Strip(subs[i])), rest);
      }
    }
  }

  lemma IndicesCons(c: ColumnSpec, rest: seq<ColumnSpec>)
    ensures Indices([c] + rest) == {c.index} + Indices(rest)
  {
    var r := [c] + rest;
    assert r[0] == c;
    assert c.index in Indices(r);
    forall x | x in Indices(rest)
      ensures x in Indices(r)
    {
      var k :| 0 <= k < |rest| && rest[k].index == x;
      assert r[k + 1] == rest[k];
    }
    forall x | x in Indices(r)
      ensures x in {c.index} + Indices(rest)
    {
      var k :| 0 <= k < |r| && r[k].index == x;
      if k > 0 {
        assert r[k] == rest[k - 1];
      }
    }
  }

  /** The first column of the range is never a stop: with a filled sub-header it is always collected first. */
  lemma FirstColumnCollected(subs: seq<string>, mains: seq<string>, start: nat, end: nat, group: string)
    requires end <= |subs| && end <= |mains|
    requires start < end && Filled(Strip(subs[start]))
    ensures var r := Collected(subs, mains, start, end, group);
            r != [] && r[0] == ColumnSpec(start, Strip(subs[start]))
  {
  }

  /** `_collect_sub_headers`, as the loop that appends and breaks. */
  method CollectSubHeaders(subs: seq<string>, mains: seq<string>, start: nat, end: nat, group: string)
    returns (collected: seq<ColumnSpec>)
    requires end <= |subs| && end <= |mains|
    ensures collected == Collected(subs, mains, start, end, group)
  {
    collected := [];
    var idx := start;
    assert collected + ColumnsFrom(subs, mains, start, end, group, idx) == ColumnsFrom(subs, mains, start, end, group, idx);
    while idx < end
      invariant start <= idx
      invariant collected + ColumnsFrom(subs, mains, start, end, group, idx) == Collected(subs, mains, start, end, group)
      decreases end - idx
    {
      var subValue := Strip(subs[idx]);
      var mainValue := Strip(mains[idx]);
      if !Filled(subValue) {
        idx := idx + 1;
        continue;
      }
      if idx > start && Foreign(mainValue, group) {
        assert ColumnsFrom(subs, mains, start, end, group, idx) == [];
        assert collected + [] == collected;
        break;
      }
      ghost var rest := ColumnsFrom(subs, mains, start, end, group, idx + 1);
      assert ColumnsFrom(subs, mains, start, end, group, idx) == [ColumnSpec(idx, subValue)] + rest;
      assert collected + ([ColumnSpec(idx, subValue)] + rest) == (collected + [ColumnSpec(idx, subValue)]) + rest;
      collected := collected + [ColumnSpec(idx, subValue)];
      idx := idx + 1;
    }
    assert collected + [] == collected;
  }

  // ---------------------------------------------------------------- finding a block

  /** What the window search found: nothing, a block's header row and platform, or a raised IndexError. */
  datatype Probe = NoPlatform | HeaderAt(row: nat, platform: string) | TitleUnreadable(row: nat)

  /**
   * The title read for a header row `r`: the cell in column B two rows up, stripped and
   * handed to the matcher. A sheet without column B raises; a missing title or an unknown
   * platform finds nothing. A row shorter than the sheet reads its missing cells as blank.
   */
  function TitleProbe(g: Grid, recognise: string -> Option<string>, r: nat): (p: Probe)
    requires r < |g|
    ensures p.HeaderAt? ==> p.row == r && 2 <= r && p.platform != ""
                            && recognise(CellStr(At(g, r - 2, 1))) == Some(p.platform)
    ensures p.TitleUnreadable? <==> 2 <= r && Narrow(g)
    ensures p.TitleUnreadable? ==> p.row == r
  {
    if r < 2 then NoPlatform
    else if Narrow(g) then TitleUnreadable(r)
    else if At(g, r - 2, 1).Blank? then NoPlatform
    else match recognise(CellStr(At(g, r - 2, 1)))
      case Some(name) => if name != "" then HeaderAt(r, name) else NoPlatform
      case None => NoPlatform
  }

  /** Row `r` of the window: only a row with a "Funnel Stage" cell is looked at further. */
  function RowProbe(g: Grid, recognise: string -> Option<string>, r: nat): (p: Probe)
    requires r < |g|
  {
    if RowHasFunnelHeader(g[r]) then TitleProbe(g, recognise, r) else NoPlatform
  }

  /** The first row in `[r, end)` whose probe finds a block or raises. */
  function FirstProbe(g: Grid, recognise: string -> Option<string>, r: nat, end: nat): (p: Probe)
    requires end <= |g|
    ensures !p.NoPlatform? ==> r <= p.row < end && p == RowProbe(g, recognise, p.row)
    decreases end - r
  {
    if r >= end then NoPlatform
    else if !RowProbe(g, recognise, r).NoPlatform? then RowProbe(g, recognise, r)
    else FirstProbe(g, recognise, r + 1, end)
  }

  /** The rows the search passes over find nothing: it stops at the first row that finds a block or raises. */
  lemma {:induction false} FirstProbeSkips(g: Grid, recognise: string -> Option<string>, r: nat, end: nat)
    requires end <= |g|
    ensures var p := FirstProbe(g, recognise, r, end);
            (!p.NoPlatform? ==> forall k :: r <= k < p.row ==> RowProbe(g, recognise, k).NoPlatform?)
            && (p.NoPlatform? ==> forall k :: r <= k < end ==> RowProbe(g, recognise, k).NoPlatform?)
    decreases end - r
  {
    if r < end && RowProbe(g, recognise, r).NoPlatform? {
      FirstProbeSkips(g, recognise, r + 1, end);
      assert FirstProbe(g, recognise, r, end) == FirstProbe(g, recognise, r + 1, end);
      forall k | r <= k < r + 1
        ensures RowProbe(g, recognise, k).NoPlatform?
      {
        assert k == r;
      }
    }
  }

  function Min(a: nat, b: nat): nat {
    if a < b then a else b
  }

  /** The rows examined from `cursor`: at most `SEARCH_WINDOW` of them, and none past the sheet. */
  function WindowEnd(g: Grid, cursor: nat): nat {
    Min(cursor + Config.SEARCH_WINDOW, |g|)
  }

  function SearchWindow(g: Grid, recognise: string -> Option<string>, cursor: nat): Probe {
    FirstProbe(g, recognise, cursor, WindowEnd(g, cursor))
  }

  /** Starting later inside the window, but not past the block, finds the same block. */
  lemma {:induction false} FirstProbeFrom(g: Grid, recognise: string -> Option<string>, r: nat, r': nat, end: nat, end': nat)
    requires end <= |g| && end' <= |g|
    requires !FirstProbe(g, recognise, r, end).NoPlatform?
    requires r <= r' <= FirstProbe(g, recognise, r, end).row < end'
    ensures FirstProbe(g, recognise, r', end') == FirstProbe(g, recognise, r, end)
    decreases FirstProbe(g, recognise, r, end).row - r'
  {
    var p := FirstProbe(g, recognise, r, end);
    FirstProbeSkips(g, recognise, r, end);
    if r' < p.row {
      assert RowProbe(g, recognise, r').NoPlatform?;
      FirstProbeFrom(g, recognise, r, r' + 1, end, end');
    } else {
      assert p == RowProbe(g, recognise, r');
    }
  }

  /** The two nested loops of the search: rows of the window, then the cells of a row. */
  method WindowSearch(g: Grid, recognise: string -> Option<string>, cursor: nat) returns (p: Probe)
    ensures p == SearchWindow(g, recognise, cursor)
  {
    var end := WindowEnd(g, cursor);
    var offset := 0;
    while offset < Config.SEARCH_WINDOW
      invariant offset <= Config.SEARCH_WINDOW
      invariant cursor + offset <= end || offset == 0
      invariant SearchWindow(g, recognise, cursor) == FirstProbe(g, recognise, cursor + offset, end)
    {
      var r := cursor + offset;
      if r >= |g| {
        break;
      }
      var isHeaderRow := RowStartsNextPlatform(g[r]);
      var found := if isHeaderRow then TitleProbe(g, recognise, r) else NoPlatform;
      assert found == RowProbe(g, recognise, r);
      if !found.NoPlatform? {
        return found;
      }
      offset := offset + 1;
    }
    p := NoPlatform;
  }

  // ---------------------------------------------------------------- resolving a block

  /** What becomes of a found block: the scan raises, skips it, or yields a section. */
  datatype Resolution = Fatal(error: ScanError) | Skip | Resolved(section: PlatformSection)

  /** `lang_group_start or total_col`: a Languages group starting at column 0 counts as absent. */
  function ArEnd(lang: Option<nat>, total: nat): nat {
    if lang.Some? && lang.value != 0 then lang.value else total
  }

  /** The columns of the four mandatory headers of a main header row. */
  datatype MandatoryColumns = MandatoryColumns(funnel: nat, format: nat, duration: nat, total: nat)

  /**
   * The four `_get_header_index` calls, in order: the first mandatory header absent from
   * the row is the one the scan raises for.
   */
  function Mandatory(headers: seq<string>): (r: Result<MandatoryColumns, ScanError>)
    ensures r.Success? ==>
              r.value.funnel < |headers| && headers[r.value.funnel] == Config.FUNNEL_STAGE_HEADER
              && r.value.format < |headers| && headers[r.value.format] == Config.FORMAT_HEADER
              && r.value.duration < |headers| && headers[r.value.duration] == Config.DURATION_HEADER
              && r.value.total < |headers| && headers[r.value.total] == Config.TOTAL_HEADER
  {
    match IndexOf(headers, Config.FUNNEL_STAGE_HEADER)
    case None => Failure(MissingHeader(Config.FUNNEL_STAGE_HEADER))
    case Some(funnel) =>
    match IndexOf(headers, Config.FORMAT_HEADER)
    case None => Failure(MissingHeader(Config.FORMAT_HEADER))
    case Some(format) =>
    match IndexOf(headers, Config.DURATION_HEADER)
    case None => Failure(MissingHeader(Config.DURATION_HEADER))
    case Some(duration) =>
    match IndexOf(headers, Config.TOTAL_HEADER)
    case None => Failure(MissingHeader(Config.TOTAL_HEADER))
    case Some(total) => Success(MandatoryColumns(funnel, format, duration, total))
  }

  /** The block once its mandatory columns are known: the header groups and the sub-header row. */
  function ResolveGroups(g: Grid, dual: bool, m: nat, platform: string, headers: seq<string>,
                         cols: MandatoryColumns): (r: Resolution)
    requires 2 <= m < |g|
    requires cols.format < |headers| && cols.total < |headers|
    ensures r.Resolved? ==> r.section.funnelCol == cols.funnel && r.section.formatCol == cols.format
                            && r.section.durationCol == cols.duration && r.section.totalCol == cols.total
  {
    match ResolveArGroup(headers, cols.format)
    case None => Skip
    case Some(ar) =>
      var lang := if dual && Config.LANGUAGES_GROUP in headers then IndexOf(headers, Config.LANGUAGES_GROUP) else None;
      if m + 1 >= |g| then Skip
      else
        var subs := StrCells(g, m + 1, |headers|);
        var arColumns := Collected(subs, headers, ar.start, ArEnd(lang, cols.total), ar.header);
        if arColumns == [] then Skip
        else
          var languageColumns :=
            if dual && lang.Some? then Collected(subs, headers, lang.value, cols.total, Config.LANGUAGES_GROUP) else [];
          Resolved(PlatformSection(platform, dual, (m - 2) + Config.DATA_START_ROW_OFFSET,
                                   cols.funnel, cols.format, cols.duration, cols.total, arColumns, languageColumns))
  }

  /** The block whose main header row is `m` and whose title names `platform` (parser.py lines 83-133). */
  function ResolveSection(g: Grid, dual: bool, m: nat, platform: string): (r: Resolution)
    requires 2 <= m < |g|
    ensures r.Resolved? ==> r.section.dataRowStart == m + 2 && r.section.platform == platform && r.section.isDual == dual
    ensures r.Resolved? ==> r.section.funnelCol < |HeaderRow(g[m])|
                            && HeaderRow(g[m])[r.section.funnelCol] == Config.FUNNEL_STAGE_HEADER
  {
    var headers := HeaderRow(g[m]);
    match Mandatory(headers)
    case Failure(e) => Fatal(e)
    case Success(cols) => ResolveGroups(g, dual, m, platform, headers, cols)
  }

  /**
   * A mandatory header missing from the main header row makes the scan raise, naming the
   * first one missing in the order funnel stage, format, duration, total. Matching is exact:
   * a row found by its case-insensitive "funnel stage" cell but spelled differently raises.
   */
  lemma MandatoryFirstMissing(headers: seq<string>)
    ensures Mandatory(headers).Success? <==> forall h :: h in Config.MANDATORY_HEADERS ==> h in headers
    ensures Mandatory(headers).Failure? ==>
              exists k :: 0 <= k < |Config.MANDATORY_HEADERS| && Config.MANDATORY_HEADERS[k] !in headers
                          && Mandatory(headers).error == MissingHeader(Config.MANDATORY_HEADERS[k])
                          && forall l :: 0 <= l < k ==> Config.MANDATORY_HEADERS[l] in headers
  {
    var hs := Config.MANDATORY_HEADERS;
    IndexOfFirst(headers, Config.FUNNEL_STAGE_HEADER);
    IndexOfFirst(headers, Config.FORMAT_HEADER);
    IndexOfFirst(headers, Config.DURATION_HEADER);
    IndexOfFirst(headers, Config.TOTAL_HEADER);
    assert hs[0] == Config.FUNNEL_STAGE_HEADER && hs[1] == Config.FORMAT_HEADER;
    assert hs[2] == Config.DURATION_HEADER && hs[3] == Config.TOTAL_HEADER;
    if hs[0] !in headers {
      assert Mandatory(headers).error == MissingHeader(hs[0]);
    } else if hs[1] !in headers {
      assert Mandatory(headers).error == MissingHeader(hs[1]);
    } else if hs[2] !in headers {
      assert Mandatory(headers).error == MissingHeader(hs[2]);
    } else if hs[3] !in headers {
      assert Mandatory(headers).error == MissingHeader(hs[3]);
    }
  }

  /** A block with no "Funnel Stage" header spelled exactly makes the scan raise for it. */
  lemma ResolveSectionRaises(g: Grid, dual: bool, m: nat, platform: string)
    requires 2 <= m < |g|
    requires Config.FUNNEL_STAGE_HEADER !in HeaderRow(g[m])
    ensures ResolveSection(g, dual, m, platform) == Fatal(MissingHeader(Config.FUNNEL_STAGE_HEADER))
  {
    IndexOfFirst(HeaderRow(g[m]), Config.FUNNEL_STAGE_HEADER);
  }

  /**
   * What a resolved block looks like: the data rows start two rows below the main header row,
   * each mandatory column holds its header exactly, and the aspect-ratio columns are non-empty,
   * filled, increasing, and lie from the group's own column up to the Languages group (when it is found
   * at a non-zero column) or else up to TOTAL. Language columns exist only when the sheet is
   * dual-language and its main header row holds "Languages". They then lie from that column up
   * to TOTAL.
   */
  predicate BlockShape(g: Grid, m: nat, s: PlatformSection)
    requires m < |g|
  {
    var headers := HeaderRow(g[m]);
    var lang := if s.isDual && Config.LANGUAGES_GROUP in headers then IndexOf(headers, Config.LANGUAGES_GROUP) else None;
    s.dataRowStart == m + 2 && m + 1 < |g|
    && s.funnelCol < |headers| && headers[s.funnelCol] == Config.FUNNEL_STAGE_HEADER
    && s.formatCol < |headers| && headers[s.formatCol] == Config.FORMAT_HEADER
    && s.durationCol < |headers| && headers[s.durationCol] == Config.DURATION_HEADER
    && s.totalCol < |headers| && headers[s.totalCol] == Config.TOTAL_HEADER
    && s.arColumns != []
    && ArEnd(lang, s.totalCol) <= |headers|
    && ResolveArGroup(headers, s.formatCol).Some?
    && ColumnsWithin(s.arColumns, StrCells(g, m + 1, |headers|), ResolveArGroup(headers, s.formatCol).value.start,
                     ArEnd(lang, s.totalCol))
    && (s.languageColumns != [] ==>
          lang.Some? && lang.value < s.totalCol
          && ColumnsWithin(s.languageColumns, StrCells(g, m + 1, |headers|), lang.value, s.totalCol))
  }

  lemma WithinWiden(cols: seq<ColumnSpec>, subs: seq<string>, lo: nat, end: nat, lo': nat, end': nat)
    requires end <= end' <= |subs| && lo' <= lo
    requires ColumnsWithin(cols, subs, lo, end)
    ensures ColumnsWithin(cols, subs, lo', end')
  {
  }

  /** A block that resolves has the shape above, under the title's platform and the sheet's mode. */
  lemma ResolvedShape(g: Grid, dual: bool, m: nat, platform: string, s: PlatformSection)
    requires 2 <= m < |g|
    requires ResolveSection(g, dual, m, platform) == Resolved(s)
    ensures s.isDual == dual && BlockShape(g, m, s)
  {
    var headers := HeaderRow(g[m]);
    var cols := Mandatory(headers).value;
    var ar := ResolveArGroup(headers, cols.format).value;
    var lang := if dual && Config.LANGUAGES_GROUP in headers then IndexOf(headers, Config.LANGUAGES_GROUP) else None;
    var subs := StrCells(g, m + 1, |headers|);
    var arEnd := ArEnd(lang, cols.total);
    ColumnsFromWithin(subs, headers, ar.start, arEnd, ar.header, ar.start);
    if dual && lang.Some? {
      ColumnsFromWithin(subs, headers, lang.value, cols.total, Config.LANGUAGES_GROUP, lang.value);
    }
  }

  /** The block resolution as the straight-line code of the scan loop, with the collection loops. */
  method ResolveBlock(g: Grid, dual: bool, m: nat, platform: string) returns (res: Resolution)
    requires 2 <= m < |g|
    ensures res == ResolveSection(g, dual, m, platform)
  {
    var headers := HeaderRow(g[m]);
    var mandatory := Mandatory(headers);
    if mandatory.Failure? {
      return Fatal(mandatory.error);
    }
    var cols := mandatory.value;
    var ar := ResolveArGroup(headers, cols.format);
    if ar.None? {
      return Skip;
    }
    var lang := if dual && Config.LANGUAGES_GROUP in headers then IndexOf(headers, Config.LANGUAGES_GROUP) else None;
    if m + 1 >= |g| {
      return Skip;
    }
    var subs := StrCells(g, m + 1, |headers|);
    var arColumns := CollectSubHeaders(subs, headers, ar.value.start, ArEnd(lang, cols.total), ar.value.header);
    if arColumns == [] {
      return Skip;
    }
    var languageColumns: seq<ColumnSpec> := [];
    if dual && lang.Some? {
      languageColumns := CollectSubHeaders(subs, headers, lang.value, cols.total, Config.LANGUAGES_GROUP);
    }
    res := Resolved(PlatformSection(platform, dual, (m - 2) + Config.DATA_START_ROW_OFFSET,
                                    cols.funnel, cols.format, cols.duration, cols.total, arColumns, languageColumns));
  }

  // ---------------------------------------------------------------- the scan

  /**
   * `ResolveSection` for any row: a row outside `[2, |g|)` never holds a block. The scan only
   * asks for rows it found a title two rows above, so the second case does not arise there.
   */
  function ResolveAt(g: Grid, dual: bool, m: nat, platform: string): (r: Resolution)
    ensures r.Resolved? ==> r.section.dataRowStart == m + 2 && r.section.platform == platform
  {
    if 2 <= m < |g| then ResolveSection(g, dual, m, platform) else Skip
  }

  /** The block resolver the package's scan uses for a sheet and its mode. */
  function Resolver(g: Grid, dual: bool): (nat, string) -> Resolution {
    (m: nat, platform: string) => ResolveAt(g, dual, m, platform)
  }

  /** One pass of the scan loop: it stops with a result, or yields some sections and moves the cursor on. */
  datatype Step = Done(result: Result<seq<PlatformSection>, ScanError>) | Continue(yielded: seq<PlatformSection>, next: nat)

  /** What the loop does with a resolved block whose main header row is `m`. */
  function AfterResolution(m: nat, res: Resolution): (st: Step)
    ensures st.Continue? ==> m + 4 <= st.next
  {
    match res
    case Fatal(e) => Done(Failure(e))
    case Skip => Continue([], m + 5)
    case Resolved(s) => Continue([s], m + 4)
  }

  /** What the loop does with the outcome of the window search from `cursor`. */
  function AfterProbe(g: Grid, resolve: (nat, string) -> Resolution, cursor: nat, probe: Probe): (st: Step)
    requires probe.HeaderAt? ==> cursor <= probe.row
    requires probe.TitleUnreadable? ==> 2 <= probe.row
    ensures st.Continue? ==> cursor < st.next
  {
    match probe
    case NoPlatform =>
      if cursor + 10 >= |g| - 5 then Done(Success([])) else Continue([], cursor + 10)
    case TitleUnreadable(r) => Done(Failure(ColumnOutOfRange(r - 2, 1)))
    case HeaderAt(m, platform) => AfterResolution(m, resolve(m, platform))
  }

  /**
   * The pass of the scan loop that starts at `cursor`. The title matcher and the block resolver
   * are parameters: the package passes `NormalizePlatform` and `Resolver(g, dual)`, and the
   * cursor discipline of the loop holds whatever they are.
   */
  function ScanStep(g: Grid, recognise: string -> Option<string>, resolve: (nat, string) -> Resolution,
                    cursor: nat): (st: Step)
    requires cursor < |g|
    ensures st.Continue? ==> cursor < st.next
  {
    AfterProbe(g, resolve, cursor, SearchWindow(g, recognise, cursor))
  }

  /**
   * A pass that finds a block does what the block's resolution says, whatever the matcher and
   * the resolver: it raises the resolution's error, skips the block by moving the cursor to the
   * header row + 5 without yielding, or yields the block and moves the cursor to the header
   * row + 4 (the sub-header row + 3).
   */
  lemma FoundBlockPass(g: Grid, recognise: string -> Option<string>, resolve: (nat, string) -> Resolution, cursor: nat)
    requires cursor < |g|
    requires SearchWindow(g, recognise, cursor).HeaderAt?
    ensures var p := SearchWindow(g, recognise, cursor);
            var res := resolve(p.row, p.platform);
            var st := ScanStep(g, recognise, resolve, cursor);
            (res.Fatal? ==> st == Done(Failure(res.error)))
            && (res == Skip ==> st == Continue([], p.row + 5))
            && (res.Resolved? ==> st == Continue([res.section], p.row + 4))
  {
  }

  /**
   * The package skips a block exactly when its mandatory headers resolve but its aspect-ratio
   * group does not, its sub-header row is past the end of the sheet, or the group collects no
   * column.
   */
  lemma ResolveSkips(g: Grid, dual: bool, m: nat, platform: string)
    requires 2 <= m < |g|
    ensures var headers := HeaderRow(g[m]);
            var cols := Mandatory(headers);
            ResolveSection(g, dual, m, platform) == Skip
            <==> cols.Success?
                 && match ResolveArGroup(headers, cols.value.format)
                    case None => true
                    case Some(ar) =>
                      var lang := if dual && Config.LANGUAGES_GROUP in headers then IndexOf(headers, Config.LANGUAGES_GROUP) else None;
                      m + 1 >= |g|
                      || Collected(StrCells(g, m + 1, |headers|), headers, ar.start, ArEnd(lang, cols.value.total), ar.header) == []
  {
  }

  /** The sections yielded from `cursor` on, or the error the scan raises first. */
  function ScanFrom(g: Grid, recognise: string -> Option<string>, resolve: (nat, string) -> Resolution, cursor: nat)
    : Result<seq<PlatformSection>, ScanError>
    decreases |g| - cursor
  {
    if cursor >= |g| then Success([])
    else match ScanStep(g, recognise, resolve, cursor)
      case Done(r) => r
      case Continue(yielded, next) => Prepend(yielded, ScanFrom(g, recognise, resolve, next))
  }

  /** The body of the scan loop: the window search, then the block's resolution. */
  method ScanPass(g: Grid, dual: bool, cursor: nat) returns (st: Step)
    requires cursor < |g|
    ensures st == ScanStep(g, NormalizePlatform, Resolver(g, dual), cursor)
  {
    var probe := WindowSearch(g, NormalizePlatform, cursor);
    if probe.HeaderAt? {
      var res := ResolveBlock(g, dual, probe.row, probe.platform);
      st := AfterResolution(probe.row, res);
    } else {
      st := AfterProbe(g, Resolver(g, dual), cursor, probe);
    }
  }

  /** The first cursor: `max(0, START_ROW_SEARCH_FOR_PLATFORM - 3)`. */
  const FIRST_CURSOR: nat := Config.START_ROW_SEARCH_FOR_PLATFORM - 3

  /** `iter_platform_sections`: every section of the sheet, in discovery order. */
  function Sections(g: Grid, dual: bool): Result<seq<PlatformSection>, ScanError> {
    ScanFrom(g, NormalizePlatform, Resolver(g, dual), FIRST_CURSOR)
  }

  /** `iter_platform_sections` as the cursor loop; the yielded sections are collected in order. */
  method IterPlatformSections(g: Grid, dual: bool) returns (r: Result<seq<PlatformSection>, ScanError>)
    ensures r == Sections(g, dual)
  {
    var sections: seq<PlatformSection> := [];
    var cursor := FIRST_CURSOR;
    PrependNothing(ScanFrom(g, NormalizePlatform, Resolver(g, dual), cursor));
    while cursor < |g|
      invariant Sections(g, dual) == Prepend(sections, ScanFrom(g, NormalizePlatform, Resolver(g, dual), cursor))
      decreases |g| - cursor
    {
      var st := ScanPass(g, dual, cursor);
      match st
      case Done(res) =>
        return Prepend(sections, res);
      case Continue(yielded, next) =>
        PrependAssoc(sections, yielded, ScanFrom(g, NormalizePlatform, Resolver(g, dual), next));
        sections := sections + yielded;
        cursor := next;
    }
    assert sections + [] == sections;
    r := Success(sections);
  }

  // ---------------------------------------------------------------- what the scan yields

  /** A resolver yields a block under the title's platform with its data two rows below the header row. */
  ghost predicate Anchored(resolve: (nat, string) -> Resolution) {
    forall m: nat, platform: string :: resolve(m, platform).Resolved? ==>
      resolve(m, platform).section.dataRowStart == m + 2 && resolve(m, platform).section.platform == platform
  }

  /**
   * A yielded section: what the resolver makes of the block whose main header row is two rows
   * above its data, titled (two rows above that, column B) by a cell the matcher reads as its platform.
   */
  predicate SectionOk(g: Grid, recognise: string -> Option<string>, resolve: (nat, string) -> Resolution,
                      s: PlatformSection) {
    4 <= s.dataRowStart && s.dataRowStart - 2 < |g|
    && resolve(s.dataRowStart - 2, s.platform) == Resolved(s)
    && recognise(CellStr(At(g, s.dataRowStart - 4, 1))) == Some(s.platform)
  }

  /**
   * Sections yielded from `cursor`: each a resolved, titled block with data starting at least two
   * rows past the cursor, and the blocks in sheet order at least four rows apart.
   */
  predicate SectionsFrom(g: Grid, recognise: string -> Option<string>, resolve: (nat, string) -> Resolution,
                         secs: seq<PlatformSection>, cursor: nat) {
    (forall k :: 0 <= k < |secs| ==> SectionOk(g, recognise, resolve, secs[k]) && cursor + 2 <= secs[k].dataRowStart)
    && (forall k, l :: 0 <= k < l < |secs| ==> secs[k].dataRowStart + 4 <= secs[l].dataRowStart)
  }

  lemma ConsSections(g: Grid, recognise: string -> Option<string>, resolve: (nat, string) -> Resolution,
                     s: PlatformSection, rest: seq<PlatformSection>, cursor: nat)
    requires SectionOk(g, recognise, resolve, s) && cursor + 2 <= s.dataRowStart
    requires SectionsFrom(g, recognise, resolve, rest, s.dataRowStart + 2)
    ensures SectionsFrom(g, recognise, resolve, [s] + rest, cursor)
  {
    var secs := [s] + rest;
    forall k | 0 < k < |secs|
      ensures secs[k] == rest[k - 1]
    {
    }
  }

  lemma SectionsFromLater(g: Grid, recognise: string -> Option<string>, resolve: (nat, string) -> Resolution,
                          secs: seq<PlatformSection>, cursor: nat, cursor': nat)
    requires cursor <= cursor' && SectionsFrom(g, recognise, resolve, secs, cursor')
    ensures SectionsFrom(g, recognise, resolve, secs, cursor)
  {
  }

  /** A block found by the window search is titled by a cell the matcher reads as its platform. */
  lemma FoundTitle(g: Grid, recognise: string -> Option<string>, cursor: nat)
    requires SearchWindow(g, recognise, cursor).HeaderAt?
    ensures var p := SearchWindow(g, recognise, cursor);
            cursor <= p.row < |g| && 2 <= p.row && !Narrow(g)
            && recognise(CellStr(At(g, p.row - 2, 1))) == Some(p.platform)
  {
  }

  /** A pass yields at most one section: a titled block below the cursor, the next cursor two rows past its data start. */
  lemma PassYield(g: Grid, recognise: string -> Option<string>, resolve: (nat, string) -> Resolution, cursor: nat)
    requires cursor < |g| && Anchored(resolve)
    ensures var st := ScanStep(g, recognise, resolve, cursor);
            st.Continue? && st.yielded != [] ==>
              |st.yielded| == 1 && SectionOk(g, recognise, resolve, st.yielded[0])
              && cursor + 2 <= st.yielded[0].dataRowStart && st.yielded[0].dataRowStart + 2 == st.next
  {
    var probe := SearchWindow(g, recognise, cursor);
    if probe.HeaderAt? {
      FoundTitle(g, recognise, cursor);
      var res := resolve(probe.row, probe.platform);
      if res.Resolved? {
        assert res.section.dataRowStart == probe.row + 2 && res.section.platform == probe.platform;
      }
    }
  }

  lemma ScanFromStep(g: Grid, recognise: string -> Option<string>, resolve: (nat, string) -> Resolution, cursor: nat)
    requires cursor < |g|
    ensures var st := ScanStep(g, recognise, resolve, cursor);
            ScanFrom(g, recognise, resolve, cursor)
            == if st.Done? then st.result else Prepend(st.yielded, ScanFrom(g, recognise, resolve, st.next))
  {
  }

  /** The scan yields only resolved, correctly titled blocks, in order down the sheet. */
  lemma {:induction false} ScanSectionsOrdered(g: Grid, recognise: string -> Option<string>,
                                               resolve: (nat, string) -> Resolution, cursor: nat)
    requires Anchored(resolve)
    ensures var r := ScanFrom(g, recognise, resolve, cursor);
            r.Success? ==> SectionsFrom(g, recognise, resolve, r.value, cursor)
    decreases |g| - cursor
  {
    if cursor < |g| {
      var st := ScanStep(g, recognise, resolve, cursor);
      ScanFromStep(g, recognise, resolve, cursor);
      if st.Continue? {
        ScanSectionsOrdered(g, recognise, resolve, st.next);
        var rest := ScanFrom(g, recognise, resolve, st.next);
        if rest.Success? {
          PassYield(g, recognise, resolve, cursor);
          if st.yielded == [] {
            assert [] + rest.value == rest.value;
            SectionsFromLater(g, recognise, resolve, rest.value, cursor, st.next);
          } else {
            assert st.yielded == [st.yielded[0]];
            ConsSections(g, recognise, resolve, st.yielded[0], rest.value, cursor);
          }
        }
      }
    }
  }

  lemma ResolverAnchored(g: Grid, dual: bool)
    ensures Anchored(Resolver(g, dual))
  {
  }

  /** A section titled for the package's matcher carries the display name of a configured platform. */
  lemma YieldedPlatform(g: Grid, s: PlatformSection)
    requires 4 <= s.dataRowStart && s.dataRowStart - 2 < |g|
    requires NormalizePlatform(CellStr(At(g, s.dataRowStart - 4, 1))) == Some(s.platform)
    ensures IsDisplayName(Config.PLATFORM_NAMES, s.platform)
  {
  }

  /**
   * `iter_platform_sections` yields resolved, titled blocks in sheet order, each at least four
   * rows below the one before; with `ResolvedShape` and `YieldedPlatform`, each is a well-shaped block of a configured platform.
   */
  lemma SectionsOrdered(g: Grid, dual: bool)
    ensures Sections(g, dual).Success? ==>
              SectionsFrom(g, NormalizePlatform, Resolver(g, dual), Sections(g, dual).value, FIRST_CURSOR)
  {
    ResolverAnchored(g, dual);
    ScanSectionsOrdered(g, NormalizePlatform, Resolver(g, dual), FIRST_CURSOR);
  }

  /**
   * What the expander relies on about a yielded block: it lies inside the sheet, belongs to the
   * kind of sheet that was scanned, names a configured platform, and its main header row holds
   * "Funnel Stage", stripped, in the funnel column.
   */
  predicate Usable(g: Grid, dual: bool, s: PlatformSection) {
    4 <= s.dataRowStart && s.dataRowStart - 2 < |g|
    && s.isDual == dual
    && IsDisplayName(Config.PLATFORM_NAMES, s.platform)
    && s.funnelCol < |HeaderRow(g[s.dataRowStart - 2])|
    && HeaderRow(g[s.dataRowStart - 2])[s.funnelCol] == Config.FUNNEL_STAGE_HEADER
  }

  /** A yielded block belongs to the kind of sheet that was scanned. */
  lemma YieldedDual(g: Grid, dual: bool, s: PlatformSection)
    requires 4 <= s.dataRowStart && s.dataRowStart - 2 < |g|
    requires Resolver(g, dual)(s.dataRowStart - 2, s.platform) == Resolved(s)
    ensures s.isDual == dual
  {
    assert ResolveSection(g, dual, s.dataRowStart - 2, s.platform) == Resolved(s);
  }

  /** The main header row of a yielded block holds "Funnel Stage", stripped, in the funnel column. */
  lemma YieldedFunnelHeader(g: Grid, dual: bool, s: PlatformSection)
    requires 4 <= s.dataRowStart && s.dataRowStart - 2 < |g|
    requires Resolver(g, dual)(s.dataRowStart - 2, s.platform) == Resolved(s)
    ensures s.funnelCol < |HeaderRow(g[s.dataRowStart - 2])|
    ensures HeaderRow(g[s.dataRowStart - 2])[s.funnelCol] == Config.FUNNEL_STAGE_HEADER
  {
    assert ResolveSection(g, dual, s.dataRowStart - 2, s.platform) == Resolved(s);
  }

  lemma YieldedUsable(g: Grid, dual: bool, s: PlatformSection)
    requires SectionOk(g, NormalizePlatform, Resolver(g, dual), s)
    ensures Usable(g, dual, s)
  {
    YieldedDual(g, dual, s);
    YieldedFunnelHeader(g, dual, s);
    YieldedPlatform(g, s);
  }

  /** Every block a successful scan yields is usable, and the blocks lie in sheet order at least four rows apart. */
  lemma SectionsUsable(g: Grid, dual: bool)
    ensures Sections(g, dual).Success? ==>
              var secs := Sections(g, dual).value;
              (forall k :: 0 <= k < |secs| ==> Usable(g, dual, secs[k]))
              && (forall k, l :: 0 <= k < l < |secs| ==> secs[k].dataRowStart + 4 <= secs[l].dataRowStart)
  {
    if Sections(g, dual).Success? {
      var secs := Sections(g, dual).value;
      SectionsOrdered(g, dual);
      forall k | 0 <= k < |secs|
        ensures Usable(g, dual, secs[k])
      {
        YieldedUsable(g, dual, secs[k]);
      }
    }
  }
}

=== FILE: platforms.dfy ===
/**
 * Recognising a platform from the title cell two rows above a "Funnel Stage" header row.
 * The package matcher (cej_transformer/parser.py `_normalize_platform`) is tolerant of case,
 * surrounding white space and a trailing parenthetical; the legacy matcher
 * (excel_transformer.py) compares the upper-cased title exactly with the root table.
 */
module Platforms {
  import opened Wrappers
  import opened PyText
  import Config

  /** A table entry matches when the title or its base form equals the upper-cased key or display name. */
  predicate LabelMatches(entry: (string, string), title: string, base: string) {
    title == Upper(entry.0) || title == Upper(entry.1) || base == Upper(entry.0) || base == Upper(entry.1)
  }

  /** The name is one of the display names of `table`. */
  predicate IsDisplayName(table: seq<(string, string)>, name: string) {
    exists k :: 0 <= k < |table| && table[k].1 == name
  }

  /** The display name of the first entry from index `i` on that matches, in table order. */
  function MatchFrom(table: seq<(string, string)>, i: nat, title: string, base: string): (r: Option<string>)
    requires i <= |table|
    ensures r.Some? ==> IsDisplayName(table, r.value)
    decreases |table| - i
  {
    if i == |table| then None
    else if LabelMatches(table[i], title, base) then Some(table[i].1)
    else MatchFrom(table, i + 1, title, base)
  }

  /** The scan succeeds exactly when some entry matches, and then answers with the first one. */
  lemma {:induction false} MatchFromFirst(table: seq<(string, string)>, i: nat, title: string, base: string)
    requires i <= |table|
    ensures MatchFrom(table, i, title, base).Some? <==> exists k :: i <= k < |table| && LabelMatches(table[k], title, base)
    ensures MatchFrom(table, i, title, base).Some? ==>
              exists k :: i <= k < |table| && LabelMatches(table[k], title, base)
                          && MatchFrom(table, i, title, base).value == table[k].1
                          && forall k' :: i <= k' < k ==> !LabelMatches(table[k'], title, base)
    decreases |table| - i
  {
    if i < |table| && !LabelMatches(table[i], title, base) {
      MatchFromFirst(table, i + 1, title, base);
      assert MatchFrom(table, i, title, base) == MatchFrom(table, i + 1, title, base);
      if MatchFrom(table, i + 1, title, base).Some? {
        var k :| i + 1 <= k < |table| && LabelMatches(table[k], title, base)
                 && MatchFrom(table, i + 1, title, base).value == table[k].1
                 && forall k' :: i + 1 <= k' < k ==> !LabelMatches(table[k'], title, base);
        assert forall k' :: i <= k' < k ==> !LabelMatches(table[k'], title, base);
      } else {
        assert forall k :: i <= k < |table| ==> !LabelMatches(table[k], title, base);
      }
    }
  }

  /** `candidate.strip().upper()` */
  function Normalized(candidate: string): string {
    Upper(Strip(candidate))
  }

  /** `normalized.split(" (")[0].strip()`: the title without a trailing parenthetical. */
  function BaseForm(candidate: string): string {
    Strip(PrefixBefore(Normalized(candidate), " ("))
  }

  /**
   * `_normalize_platform`: the display name for a title, matched case-insensitively against
   * keys and display names, either as a whole or with everything from the first " (" removed.
   */
  function NormalizePlatform(candidate: string): (r: Option<string>)
    ensures r.Some? ==> IsDisplayName(Config.PLATFORM_NAMES, r.value)
  {
    MatchFrom(Config.PLATFORM_NAMES, 0, Normalized(candidate), BaseForm(candidate))
  }

  /** A title is recognised exactly when its full or base form names an entry; unknown titles give None. */
  lemma NormalizePlatformMatches(candidate: string)
    ensures NormalizePlatform(candidate).Some? <==>
              exists k :: 0 <= k < |Config.PLATFORM_NAMES|
                          && LabelMatches(Config.PLATFORM_NAMES[k], Normalized(candidate), BaseForm(candidate))
  {
    MatchFromFirst(Config.PLATFORM_NAMES, 0, Normalized(candidate), BaseForm(candidate));
  }

  /** The legacy lookup: exact equality of the upper-cased title with an upper-cased key or display name. */
  function LegacyMatch(title: string): (r: Option<string>)
    ensures r.Some? ==> IsDisplayName(Config.LEGACY_PLATFORM_NAMES, r.value)
  {
    MatchFrom(Config.LEGACY_PLATFORM_NAMES, 0, title, title)
  }

  /** How the legacy transformer reads a stripped title: upper-case it, then look it up exactly. */
  function LegacyRecognise(title: string): (r: Option<string>)
    ensures r.Some? ==> IsDisplayName(Config.LEGACY_PLATFORM_NAMES, r.value)
  {
    LegacyMatch(Upper(title))
  }

  /** Titles that differ only in letter case name the same platform. */
  lemma {:induction false} NormalizeIgnoresCase(s: string, t: string)
    requires Upper(s) == Upper(t)
    ensures NormalizePlatform(s) == NormalizePlatform(t)
  {
    StripUpperCommute(s);
    StripUpperCommute(t);
  }

  /** Nothing the legacy matcher recognises is LinkedIn: the root table has no such entry. */
  lemma LegacyNeverLinkedIn(title: string)
    ensures LegacyMatch(title) != Some("LinkedIn")
  {
    var table := Config.LEGACY_PLATFORM_NAMES;
    assert !IsDisplayName(table, "LinkedIn") by {
      forall k | 0 <= k < |table|
        ensures table[k].1 != "LinkedIn"
      {
        assert |table[k].1| != |"LinkedIn"|;
      }
    }
  }
}

=== FILE: pytext.dfy ===
/**
 * The Python `str` operations the core relies on: `strip()`, `lower()`, `upper()`,
 * `str(int)`, the integer part of numeric parsing and `split(sep)[0]`.
 * Case mapping and white space are modelled over ASCII.
 */
module PyText {
  import opened Wrappers

  /** White space as `str.strip()` removes it (the ASCII part of Python's set). */
  predicate IsSpace(c: char) {
    c == ' ' || c == '\t' || c == '\n' || c == '\r' || c == '\U{0B}' || c == '\U{0C}'
    || ('\U{1C}' <= c <= '\U{1F}')
  }

  /** Neither end of `s` is white space. */
  predicate Trimmed(s: string) {
    s == [] || (!IsSpace(s[0]) && !IsSpace(s[|s| - 1]))
  }

  function StripLeft(s: string): (r: string)
    ensures |r| <= |s|
  {
    if s != [] && IsSpace(s[0]) then StripLeft(s[1..]) else s
  }

  /** `lstrip()` removes a prefix of white space and stops at the first non-space. */
  lemma {:induction false} StripLeftFacts(s: string)
    ensures var r := StripLeft(s);
            r == s[|s| - |r|..] && (forall i :: 0 <= i < |s| - |r| ==> IsSpace(s[i])) && (r == [] || !IsSpace(r[0]))
    decreases |s|
  {
    if s != [] && IsSpace(s[0]) {
      StripLeftFacts(s[1..]);
    }
  }

  function StripRight(s: string): (r: string)
    ensures |r| <= |s|
  {
    if s != [] && IsSpace(s[|s| - 1]) then StripRight(s[..|s| - 1]) else s
  }

  /** `rstrip()` removes a suffix of white space and stops at the last non-space. */
  lemma {:induction false} StripRightFacts(s: string)
    ensures var r := StripRight(s);
            r == s[..|r|] && (forall i :: |r| <= i < |s| ==> IsSpace(s[i])) && (r == [] || !IsSpace(r[|r| - 1]))
    decreases |s|
  {
    if s != [] && IsSpace(s[|s| - 1]) {
      StripRightFacts(s[..|s| - 1]);
    }
  }

  /** `s.strip()`: the longest infix of `s` that starts and ends with a non-space. */
  function Strip(s: string): (r: string)
    ensures Trimmed(r)
    ensures |r| <= |s|
  {
    var l := StripLeft(s);
    StripLeftFacts(s);
    StripRightFacts(l);
    var r := StripRight(l);
    assert r != [] ==> r[0] == l[0];
    r
  }

  lemma StripOfTrimmed(s: string)
    requires Trimmed(s)
    ensures Strip(s) == s
  {
  }

  function LowerChar(c: char): char {
    if 'A' <= c <= 'Z' then (c as int + 32) as char else c
  }

  function UpperChar(c: char): char {
    if 'a' <= c <= 'z' then (c as int - 32) as char else c
  }

  /** `s.lower()`: each character mapped on its own. */
  function Lower(s: string): (r: string)
    ensures |r| == |s|
  {
    seq(|s|, i requires 0 <= i < |s| => LowerChar(s[i]))
  }

  /** `s.upper()` */
  function Upper(s: string): (r: string)
    ensures |r| == |s|
  {
    if s == [] then [] else [UpperChar(s[0])] + Upper(s[1..])
  }

  /** Upper-casing acts on each character alone. */
  lemma {:induction false} UpperAt(s: string)
    ensures forall i :: 0 <= i < |s| ==> Upper(s)[i] == UpperChar(s[i])
    decreases |s|
  {
    if s != [] {
      UpperAt(s[1..]);
    }
  }

  /** Case mapping never turns a space into a non-space or back, so it commutes with strip. */
  lemma {:induction false} StripUpperCommute(s: string)
    ensures Strip(Upper(s)) == Upper(Strip(s))
  {
    StripLeftUpper(s);
    StripRightUpper(StripLeft(s));
  }

  lemma UpperCharSpace(c: char)
    ensures IsSpace(UpperChar(c)) <==> IsSpace(c)
  {
  }

  /** Case mapping commutes with taking a suffix or a prefix. */
  lemma {:induction false} UpperSlices(s: string, k: nat)
    requires k <= |s|
    ensures Upper(s[k..]) == Upper(s)[k..]
    ensures Upper(s[..k]) == Upper(s)[..k]
    decreases k
  {
    if k == 0 {
      assert s[0..] == s;
    } else {
      UpperSlices(s[1..], k - 1);
      assert s[1..][k - 1..] == s[k..];
      assert s[..k][1..] == s[1..][..k - 1];
    }
  }

  lemma {:induction false} StripLeftUpper(s: string)
    ensures StripLeft(Upper(s)) == Upper(StripLeft(s))
    decreases |s|
  {
    if s != [] {
      UpperAt(s);
      UpperCharSpace(s[0]);
      if IsSpace(s[0]) {
        UpperSlices(s, 1);
        StripLeftUpper(s[1..]);
      }
    }
  }

  lemma {:induction false} StripRightUpper(s: string)
    ensures StripRight(Upper(s)) == Upper(StripRight(s))
    decreases |s|
  {
    if s != [] {
      var u := Upper(s);
      var n := |s| - 1;
      UpperAt(s);
      assert u[n] == UpperChar(s[n]);
      UpperCharSpace(s[n]);
      if IsSpace(s[n]) {
        UpperSlices(s, n);
        assert StripRight(u) == StripRight(u[..n]);
        assert StripRight(s) == StripRight(s[..n]);
        StripRightUpper(s[..n]);
      } else {
        assert StripRight(u) == u;
        assert StripRight(s) == s;
      }
    }
  }

  predicate IsDigit(c: char) {
    '0' <= c <= '9'
  }

  predicate AllDigits(s: string) {
    s != [] && forall i :: 0 <= i < |s| ==> IsDigit(s[i])
  }

  function DigitChar(d: nat): (c: char)
    requires d < 10
    ensures IsDigit(c)
  {
    ('0' as int + d) as char
  }

  /** `str(n)` for a non-negative integer: its decimal digits. */
  function Digits(n: nat): (r: string)
    ensures AllDigits(r)
    decreases n
  {
    if n < 10 then [DigitChar(n)] else Digits(n / 10) + [DigitChar(n % 10)]
  }

  /** `str(n)` for any integer. */
  function Decimal(n: int): string {
    if n < 0 then "-" + Digits(-n) else Digits(n)
  }

  function DigitValue(c: char): nat
    requires IsDigit(c)
  {
    c as int - '0' as int
  }

  function DigitsValue(s: string): nat
    requires forall i :: 0 <= i < |s| ==> IsDigit(s[i])
  {
    if s == [] then 0 else DigitsValue(s[..|s| - 1]) * 10 + DigitValue(s[|s| - 1])
  }

  /**
   * The integer reading of a numeric text: an optional sign followed by decimal digits.
   * Any other text does not parse.
   */
  function ParseInt(s: string): (r: Option<int>)
    ensures r.Some? ==> s != [] && (IsDigit(s[0]) || s[0] == '-' || s[0] == '+')
  {
    if |s| > 1 && (s[0] == '-' || s[0] == '+') && AllDigits(s[1..]) then
      var magnitude: int := DigitsValue(s[1..]);
      Some(if s[0] == '-' then -magnitude else magnitude)
    else if AllDigits(s) then Some(DigitsValue(s))
    else None
  }

  lemma {:induction false} DigitsValueOfDigits(n: nat)
    ensures DigitsValue(Digits(n)) == n
    decreases n
  {
    if n >= 10 {
      var d := Digits(n / 10) + [DigitChar(n % 10)];
      assert d[..|d| - 1] == Digits(n / 10);
      DigitsValueOfDigits(n / 10);
    }
  }

  /** Parsing inverts rendering: `int(str(n)) == n`. */
  lemma ParseDecimal(n: int)
    ensures ParseInt(Decimal(n)) == Some(n)
  {
    DigitsValueOfDigits(if n < 0 then -n else n);
    if n < 0 {
      var s := Decimal(n);
      assert s[1..] == Digits(-n);
    }
  }

  /** `sep` occurs in `s` at position `i`. */
  predicate OccursAt(s: string, sep: string, i: nat) {
    i + |sep| <= |s| && s[i..i + |sep|] == sep
  }

  /** `s.split(sep)[0]`: everything before the first occurrence of `sep`, or all of `s`. */
  function PrefixBefore(s: string, sep: string): (r: string)
    requires sep != []
    ensures |r| <= |s| && r == s[..|r|]
    ensures forall i: nat :: i < |r| ==> !OccursAt(s, sep, i)
    ensures |r| < |s| ==> OccursAt(s, sep, |r|)
    decreases |s|
  {
    if |s| < |sep| then s
    else if s[..|sep|] == sep then []
    else
      var rest := PrefixBefore(s[1..], sep);
      assert forall i: nat {:trigger OccursAt(s, sep, i)} :: 1 <= i ==> (OccursAt(s, sep, i) <==> OccursAt(s[1..], sep, i - 1));
      [s[0]] + rest
  }
}

=== FILE: sheet.dfy ===
/**
 * The loaded worksheet: a rectangular grid of cells as pandas hands it over
 * (`header=None`), and the cell readings every component shares.
 */
module Sheet {
  import opened Wrappers
  import opened PyText
  import Config

  /** A cell: missing (pandas NaN), a whole number, or text. */
  datatype Cell = Blank | Num(n: int) | Text(s: string)

  type Row = seq<Cell>
  type Grid = seq<Row>

  /** Every row has the same number of columns, as in a DataFrame. */
  predicate Rectangular(g: Grid) {
    forall i, j :: 0 <= i < |g| && 0 <= j < |g| ==> |g[i]| == |g[j]|
  }

  function Width(g: Grid): nat {
    if g == [] then 0 else |g[0]|
  }

  lemma RowWidth(g: Grid, i: nat)
    requires Rectangular(g) && i < |g|
    ensures |g[i]| == Width(g)
  {
  }

  /** `str(cell)`: a missing cell renders as "nan". */
  function Str(c: Cell): string {
    match c
    case Blank => "nan"
    case Num(n) => Decimal(n)
    case Text(s) => s
  }

  /** `str(cell).strip()` */
  function CellStr(c: Cell): (r: string)
    ensures Trimmed(r)
    ensures c.Blank? ==> r == "nan"
  {
    Strip(Str(c))
  }

  /** `str(cell).strip() if pd.notna(cell) else ""`: a missing cell reads as empty text. */
  function CellText(c: Cell): (r: string)
    ensures Trimmed(r)
    ensures r == "" <==> c.Blank? || CellStr(c) == ""
  {
    if c.Blank? then "" else CellStr(c)
  }

  /** `str(row[j]).strip()` for every column: a header row as the locator reads it. */
  function HeaderRow(row: Row): (r: seq<string>)
    ensures |r| == |row|
  {
    seq(|row|, j requires 0 <= j < |row| => CellStr(row[j]))
  }

  /**
   * `row.iloc[j]`. A sheet loaded by pandas is rectangular; a column past the end of a
   * shorter row reads as a missing cell, which is how pandas pads ragged rows.
   */
  function Get(row: Row, j: nat): Cell {
    if j < |row| then row[j] else Blank
  }

  /** `df.iloc[r, j]`: the cell `Get(g[r], j)`. */
  function At(g: Grid, r: nat, j: nat): Cell
    requires r < |g|
  {
    if j < |g[r]| then g[r][j] else Blank
  }

  /**
   * The frame pandas builds from the rows has fewer than two columns: it is as wide as its
   * longest row, so no row reaches column B.
   */
  predicate Narrow(g: Grid) {
    forall i :: 0 <= i < |g| ==> |g[i]| < 2
  }

  /** `df.iloc[r].astype(str).tolist()` over the first `width` columns: unstripped cell text. */
  function StrCells(g: Grid, r: nat, width: nat): (s: seq<string>)
    requires r < |g|
    ensures |s| == width
  {
    seq(width, j requires 0 <= j < width => Str(At(g, r, j)))
  }

  /** Text that is non-empty and is not "nan" in any letter case. */
  predicate Filled(s: string) {
    s != "" && Lower(s) != "nan"
  }

  /**
   * `safe_to_numeric`: the integer value of a cell, 0 for a missing or blank cell and
   * for text that does not parse. On the modelled cells it never fails.
   */
  function SafeToNumeric(c: Cell): (r: int)
    ensures c.Blank? ==> r == 0
    ensures c.Num? ==> r == c.n
    ensures c.Text? && ParseInt(Strip(c.s)).None? ==> r == 0
    ensures c.Text? && ParseInt(Strip(c.s)).Some? ==> r == ParseInt(Strip(c.s)).value
  {
    match c
    case Blank => 0
    case Num(n) => n
    case Text(s) =>
      if Strip(s) == "" then 0
      else match ParseInt(Strip(s))
        case Some(n) => n
        case None => 0
  }

  /** Text holding an integer, with any surrounding white space, coerces to that integer. */
  lemma {:induction false} SafeToNumericReadsDecimal(n: int, pad: string)
    requires forall i :: 0 <= i < |pad| ==> IsSpace(pad[i])
    ensures SafeToNumeric(Text(pad + Decimal(n) + pad)) == n
  {
    var s := pad + Decimal(n) + pad;
    StripPadded(pad, Decimal(n));
    ParseDecimal(n);
  }

  lemma {:induction false} StripPadded(pad: string, core: string)
    requires forall i :: 0 <= i < |pad| ==> IsSpace(pad[i])
    requires core != [] && !IsSpace(core[0]) && !IsSpace(core[|core| - 1])
    ensures Strip(pad + core + pad) == core
  {
    assert pad + core + pad == pad + (core + pad);
    StripLeftSpaces(pad, core + pad);
    StripRightSpaces(core, pad);
  }

  lemma {:induction false} StripLeftSpaces(pad: string, x: string)
    requires forall i :: 0 <= i < |pad| ==> IsSpace(pad[i])
    ensures StripLeft(pad + x) == StripLeft(x)
    decreases |pad|
  {
    if pad != [] {
      assert (pad + x)[1..] == pad[1..] + x;
      StripLeftSpaces(pad[1..], x);
    } else {
      assert pad + x == x;
    }
  }

  lemma {:induction false} StripRightSpaces(x: string, pad: string)
    requires forall i :: 0 <= i < |pad| ==> IsSpace(pad[i])
    ensures StripRight(x + pad) == StripRight(x)
    decreases |pad|
  {
    if pad != [] {
      assert (x + pad)[..|x + pad| - 1] == x + pad[..|pad| - 1];
      StripRightSpaces(x, pad[..|pad| - 1]);
    } else {
      assert x + pad == x;
    }
  }

  /** `config.FUNNEL_STAGE_HEADER.lower()`, the text a header cell is compared with. */
  const FUNNEL_STAGE_KEY: string := "funnel stage"

  /** A cell reads as the "Funnel Stage" header: present, and equal to it once stripped and lower-cased. */
  predicate IsFunnelHeaderCell(c: Cell) {
    !c.Blank? && Lower(CellStr(c)) == FUNNEL_STAGE_KEY
  }

  /** Some cell of the row from column `j` on is a "Funnel Stage" header. */
  predicate HeaderCellFrom(row: Row, j: nat)
    decreases |row| - j
  {
    j < |row| && (IsFunnelHeaderCell(row[j]) || HeaderCellFrom(row, j + 1))
  }

  /** Some cell of the row is a "Funnel Stage" header: a platform block's main header row. */
  predicate RowHasFunnelHeader(row: Row) {
    HeaderCellFrom(row, 0)
  }

  /** The recursive reading agrees with "some cell of the row is a header cell". */
  lemma {:induction false} HeaderCellFromExists(row: Row, j: nat)
    ensures HeaderCellFrom(row, j) <==> exists k :: j <= k < |row| && IsFunnelHeaderCell(row[k])
    decreases |row| - j
  {
    if j < |row| {
      HeaderCellFromExists(row, j + 1);
      if IsFunnelHeaderCell(row[j]) {
        assert HeaderCellFrom(row, j);
      } else {
        assert HeaderCellFrom(row, j) == HeaderCellFrom(row, j + 1);
        forall k | j <= k < |row| && IsFunnelHeaderCell(row[k])
          ensures j + 1 <= k
        {
        }
      }
    }
  }

  /** `_row_starts_next_platform`: the loop over the row's cells that stops at the first header cell. */
  method RowStartsNextPlatform(row: Row) returns (found: bool)
    ensures found <==> exists k :: 0 <= k < |row| && IsFunnelHeaderCell(row[k])
    ensures found == RowHasFunnelHeader(row)
  {
    HeaderCellFromExists(row, 0);
    var j := 0;
    while j < |row|
      invariant j <= |row|
      invariant forall k :: 0 <= k < j ==> !IsFunnelHeaderCell(row[k])
    {
      if IsFunnelHeaderCell(row[j]) {
        return true;
      }
      j := j + 1;
    }
    return false;
  }
}

=== FILE: transformer.dfy ===
/**
 * The row expander of the package (cej_transformer/transformer.py): every data row of a
 * platform block becomes one output record per ticked aspect-ratio unit, funnel stage and
 * selected language, in a fixed nested order. A TOTAL that disagrees with the ticks is only
 * logged (the tolerant policy), so it never changes what is emitted.
 */
module Transformer {
  import opened Wrappers
  import opened PyText
  import opened Sheet
  import opened Parser
  import opened Nested
  import opened Platforms
  import Config

  /** One output row; `language` is absent when the row selected no language. */
  datatype Record = Record(
    platform: string,
    stage: string,
    format: string,
    duration: string,
    arFormat: string,
    language: Option<string>)

  /** An aspect-ratio column whose coerced tick count is positive, with that count. */
  datatype Tick = Tick(name: string, count: nat)

  /** What every record of one row shares: the block's platform and the row's format and duration. */
  datatype RowKey = RowKey(platform: string, format: string, duration: string)

  // ---------------------------------------------------------------- tick counts

  /** The coerced count of a column in a row. */
  function TickValue(row: Row, c: ColumnSpec): int {
    SafeToNumeric(Get(row, c.index))
  }

  /** `_read_tick_counts`: the columns with a positive count, as (name, count), in column order. */
  function TickCounts(row: Row, cols: seq<ColumnSpec>): seq<Tick>
    decreases |cols|
  {
    if cols == [] then []
    else
      var c := cols[|cols| - 1];
      var n := TickValue(row, c);
      TickCounts(row, cols[..|cols| - 1]) + (if n > 0 then [Tick(c.name, n)] else [])
  }

  /** Reading a column list in two parts reads each part in turn: the result is a filter. */
  lemma {:induction false} TickCountsAppend(row: Row, a: seq<ColumnSpec>, b: seq<ColumnSpec>)
    ensures TickCounts(row, a + b) == TickCounts(row, a) + TickCounts(row, b)
    decreases |b|
  {
    if b == [] {
      assert a + b == a;
    } else {
      var n := |b| - 1;
      assert (a + b)[..|a + b| - 1] == a + b[..n];
      TickCountsAppend(row, a, b[..n]);
    }
  }

  /** A single column is kept, with its count, exactly when its count is positive. */
  lemma TickCountsSingle(row: Row, c: ColumnSpec)
    ensures TickValue(row, c) > 0 ==> TickCounts(row, [c]) == [Tick(c.name, TickValue(row, c))]
    ensures TickValue(row, c) <= 0 ==> TickCounts(row, [c]) == []
  {
    assert [c][..0] == [];
  }

  /** Every kept pair names a column of the list and carries that column's positive count. */
  lemma {:induction false} TickCountsFrom(row: Row, cols: seq<ColumnSpec>)
    ensures forall t :: t in TickCounts(row, cols) ==>
              t.count > 0 && exists c :: c in cols && c.name == t.name && TickValue(row, c) == t.count
    decreases |cols|
  {
    if cols != [] {
      var n := |cols| - 1;
      TickCountsFrom(row, cols[..n]);
      forall t | t in TickCounts(row, cols)
        ensures t.count > 0 && exists c :: c in cols && c.name == t.name && TickValue(row, c) == t.count
      {
        if t in TickCounts(row, cols[..n]) {
          var c :| c in cols[..n] && c.name == t.name && TickValue(row, c) == t.count;
          assert c in cols;
        } else {
          assert cols[n] in cols;
        }
      }
    }
  }

  /** A row has no tick pair exactly when no column of the list has a positive count. */
  lemma {:induction false} TickCountsEmpty(row: Row, cols: seq<ColumnSpec>)
    ensures TickCounts(row, cols) == [] <==> forall c :: c in cols ==> TickValue(row, c) <= 0
    decreases |cols|
  {
    if cols != [] {
      var n := |cols| - 1;
      TickCountsEmpty(row, cols[..n]);
      assert cols == cols[..n] + [cols[n]];
      forall c | c in cols
        ensures c in cols[..n] || c == cols[n]
      {
      }
    }
  }

  /** `_read_tick_counts` as its append loop. */
  method ReadTickCounts(row: Row, cols: seq<ColumnSpec>) returns (counts: seq<Tick>)
    ensures counts == TickCounts(row, cols)
  {
    counts := [];
    for i := 0 to |cols|
      invariant counts == TickCounts(row, cols[..i])
    {
      assert cols[..i + 1][..i] == cols[..i];
      var n := TickValue(row, cols[i]);
      if n > 0 {
        counts := counts + [Tick(cols[i].name, n)];
      }
    }
    assert cols[..|cols|] == cols;
  }

  /** The sum of the kept counts. */
  function TickSum(ticks: seq<Tick>): nat
    decreases |ticks|
  {
    if ticks == [] then 0 else TickSum(ticks[..|ticks| - 1]) + ticks[|ticks| - 1].count
  }

  // ---------------------------------------------------------------- language selection

  /** A language cell counts as selected when its text is non-empty and not "nan". */
  predicate Selected(row: Row, c: ColumnSpec) {
    Filled(CellStr(Get(row, c.index)))
  }

  /** `_read_language_selection`: the names of the selected language columns, in column order. */
  function LanguageSelection(row: Row, cols: seq<ColumnSpec>): seq<string>
    decreases |cols|
  {
    if cols == [] then []
    else
      var c := cols[|cols| - 1];
      LanguageSelection(row, cols[..|cols| - 1]) + (if Selected(row, c) then [c.name] else [])
  }

  /** Reading a column list in two parts reads each part in turn: the result is a filter. */
  lemma {:induction false} LanguageSelectionAppend(row: Row, a: seq<ColumnSpec>, b: seq<ColumnSpec>)
    ensures LanguageSelection(row, a + b) == LanguageSelection(row, a) + LanguageSelection(row, b)
    decreases |b|
  {
    if b == [] {
      assert a + b == a;
    } else {
      var n := |b| - 1;
      assert (a + b)[..|a + b| - 1] == a + b[..n];
      LanguageSelectionAppend(row, a, b[..n]);
    }
  }

  /** A single column is kept, under its name, exactly when it is selected. */
  lemma LanguageSelectionSingle(row: Row, c: ColumnSpec)
    ensures LanguageSelection(row, [c]) == if Selected(row, c) then [c.name] else []
  {
    assert [c][..0] == [];
  }

  /** No language is selected exactly when no column of the list is selected. */
  lemma {:induction false} LanguageSelectionEmpty(row: Row, cols: seq<ColumnSpec>)
    ensures LanguageSelection(row, cols) == [] <==> forall c :: c in cols ==> !Selected(row, c)
    decreases |cols|
  {
    if cols != [] {
      var n := |cols| - 1;
      LanguageSelectionEmpty(row, cols[..n]);
      assert cols == cols[..n] + [cols[n]];
      forall c | c in cols
        ensures c in cols[..n] || c == cols[n]
      {
      }
    }
  }

  /**
   * Any mark selects a language, even "0" or the number 0; only a missing cell, a blank text
   * or the text "nan" leaves it unselected.
   */
  lemma SelectionMarks(row: Row, c: ColumnSpec)
    ensures Get(row, c.index) == Text("x") ==> Selected(row, c)
    ensures Get(row, c.index) == Text("0") ==> Selected(row, c)
    ensures Get(row, c.index) == Num(0) ==> Selected(row, c)
    ensures Get(row, c.index) == Blank ==> !Selected(row, c)
    ensures Get(row, c.index) == Text(" NaN ") ==> !Selected(row, c)
  {
    var cell := Get(row, c.index);
    if cell == Text("x") {
      assert Lower("x") == "x";
    } else if cell == Text("0") {
      assert Lower("0") == "0";
    } else if cell == Num(0) {
      assert Str(cell) == "0";
      assert Lower("0") == "0";
    } else if cell == Text(" NaN ") {
      StripPadded(" ", "NaN");
      assert " " + "NaN" + " " == " NaN ";
      assert Lower("NaN") == "nan";
    }
  }

  /** `_read_language_selection` as its append loop. */
  method ReadLanguageSelection(row: Row, cols: seq<ColumnSpec>) returns (selections: seq<string>)
    ensures selections == LanguageSelection(row, cols)
  {
    selections := [];
    for i := 0 to |cols|
      invariant selections == LanguageSelection(row, cols[..i])
    {
      assert cols[..i + 1][..i] == cols[..i];
      var text := CellStr(Get(row, cols[i].index));
      if Filled(text) {
        selections := selections + [cols[i].name];
      }
    }
    assert cols[..|cols|] == cols;
  }

  /** `languages or [None]`: one slot per selected language, or a single slot without one. */
  function Slots(languages: seq<string>): (slots: seq<Option<string>>)
    ensures |slots| == if languages == [] then 1 else |languages|
  {
    if languages == [] then [None] else seq(|languages|, i requires 0 <= i < |languages| => Some(languages[i]))
  }

  /** A slot holds a language exactly when some language was selected, and then it is one of them. */
  lemma SlotsHold(languages: seq<string>)
    ensures forall x :: x in Slots(languages) ==> (x.Some? <==> languages != [])
    ensures forall x :: x in Slots(languages) ==> x.Some? ==> x.value in languages
  {
    var slots := Slots(languages);
    forall x | x in slots
      ensures x.Some? <==> languages != []
      ensures x.Some? ==> x.value in languages
    {
      var i :| 0 <= i < |slots| && slots[i] == x;
    }
  }

  // ---------------------------------------------------------------- funnel stages

  /** `_expand_funnel_stage`: "ALL" stands for every configured stage, anything else for itself. */
  function ExpandFunnelStage(stage: string): seq<string> {
    if Config.EXPAND_ALL_TO_ACP && Upper(Strip(stage)) == "ALL" then Config.FUNNEL_STAGES else [stage]
  }

  /** "ALL" in any letter case and with any surrounding white space expands to the three stages. */
  lemma ExpandAll(pad: string, word: string)
    requires forall i :: 0 <= i < |pad| ==> IsSpace(pad[i])
    requires Upper(word) == "ALL"
    ensures ExpandFunnelStage(pad + word + pad) == ["Awareness", "Consideration", "Purchase"]
  {
    UpperAt(word);
    assert UpperChar(word[0]) == 'A' && UpperChar(word[2]) == 'L';
    StripPadded(pad, word);
  }

  /** Any other stage value is kept unchanged as the only stage. */
  lemma ExpandOther(stage: string)
    requires Upper(Strip(stage)) != "ALL"
    ensures ExpandFunnelStage(stage) == [stage]
  {
  }

  /** The expansion never loses the stage: it is one value or the three configured stages. */
  lemma ExpandShape(stage: string)
    ensures var r := ExpandFunnelStage(stage); r == [stage] || r == Config.FUNNEL_STAGES
    ensures |ExpandFunnelStage(stage)| == 1 || |ExpandFunnelStage(stage)| == 3
  {
  }

  // ---------------------------------------------------------------- emission

  /** The record for one aspect-ratio unit, stage and language slot of a row. */
  function Emit(key: RowKey, ar: string, stage: string, language: Option<string>): Record {
    Record(key.platform, stage, key.format, key.duration, ar, language)
  }

  /** The innermost loop: one record per language slot. */
  function SlotRecords(key: RowKey, ar: string, stage: string, slots: seq<Option<string>>): seq<Record>
    decreases |slots|
  {
    if slots == [] then []
    else SlotRecords(key, ar, stage, slots[..|slots| - 1]) + [Emit(key, ar, stage, slots[|slots| - 1])]
  }

  /** The stage loop: the slot records of each stage in turn. */
  function StageRecords(key: RowKey, ar: string, stages: seq<string>, slots: seq<Option<string>>): seq<Record>
    decreases |stages|
  {
    if stages == [] then []
    else StageRecords(key, ar, stages[..|stages| - 1], slots) + SlotRecords(key, ar, stages[|stages| - 1], slots)
  }

  /** The repetition loop: the stage records once for every tick of the column. */
  function RepeatRecords(key: RowKey, ar: string, k: nat, stages: seq<string>, slots: seq<Option<string>>): seq<Record>
    decreases k
  {
    if k == 0 then [] else RepeatRecords(key, ar, k - 1, stages, slots) + StageRecords(key, ar, stages, slots)
  }

  /** The outermost loop: the repeated records of each ticked column in turn. */
  function TickRecords(key: RowKey, ticks: seq<Tick>, stages: seq<string>, slots: seq<Option<string>>): seq<Record>
    decreases |ticks|
  {
    if ticks == [] then []
    else
      var t := ticks[|ticks| - 1];
      TickRecords(key, ticks[..|ticks| - 1], stages, slots) + RepeatRecords(key, t.name, t.count, stages, slots)
  }

  /** The two inner emission loops of `_transform_section`: every stage, and within it every slot. */
  method EmitUnit(results: seq<Record>, key: RowKey, ar: string, stages: seq<string>,
                  slots: seq<Option<string>>) returns (out: seq<Record>)
    ensures out == results + StageRecords(key, ar, stages, slots)
  {
    out := results;
    for s := 0 to |stages|
      invariant out == results + StageRecords(key, ar, stages[..s], slots)
    {
      assert stages[..s + 1][..s] == stages[..s];
      ghost var before := out;
      for l := 0 to |slots|
        invariant out == before + SlotRecords(key, ar, stages[s], slots[..l])
      {
        assert slots[..l + 1][..l] == slots[..l];
        out := out + [Emit(key, ar, stages[s], slots[l])];
      }
      assert slots[..|slots|] == slots;
    }
    assert stages[..|stages|] == stages;
  }

  /** The four nested emission loops of `_transform_section`: every ticked column, every tick of it, then `EmitUnit`. */
  method EmitRecords(results: seq<Record>, key: RowKey, ticks: seq<Tick>, stages: seq<string>,
                     slots: seq<Option<string>>) returns (out: seq<Record>)
    ensures out == results + TickRecords(key, ticks, stages, slots)
  {
    out := results;
    for a := 0 to |ticks|
      invariant out == results + TickRecords(key, ticks[..a], stages, slots)
    {
      assert ticks[..a + 1][..a] == ticks[..a];
      var t := ticks[a];
      ghost var before := out;
      for rep := 0 to t.count
        invariant out == before + RepeatRecords(key, t.name, rep, stages, slots)
      {
        out := EmitUnit(out, key, t.name, stages, slots);
      }
    }
    assert ticks[..|ticks|] == ticks;
  }

  // ---------------------------------------------------------------- the records of a row, flat

  /** The aspect-ratio units of a row: each ticked column's name once per tick, column by column. */
  function Units(ticks: seq<Tick>): seq<string>
    decreases |ticks|
  {
    if ticks == [] then []
    else Units(ticks[..|ticks| - 1]) + Rep(ticks[|ticks| - 1].name, ticks[|ticks| - 1].count)
  }

  function Pair(stage: string, slot: Option<string>): (string, Option<string>) {
    (stage, slot)
  }

  /** The (stage, language slot) combinations of a row, stage by stage. */
  function Combos(stages: seq<string>, slots: seq<Option<string>>): seq<(string, Option<string>)> {
    Product(stages, slots, Pair)
  }

  function Emitter(key: RowKey): (string, (string, Option<string>)) -> Record {
    (ar: string, c: (string, Option<string>)) => Emit(key, ar, c.0, c.1)
  }

  /** Reference definition of a row's records: one per (unit, combination), unit by unit. */
  function FlatRecords(key: RowKey, ticks: seq<Tick>, stages: seq<string>, slots: seq<Option<string>>): seq<Record> {
    Product(Units(ticks), Combos(stages, slots), Emitter(key))
  }

  lemma {:induction false} UnitsLength(ticks: seq<Tick>)
    ensures |Units(ticks)| == TickSum(ticks)
    decreases |ticks|
  {
    if ticks != [] {
      UnitsLength(ticks[..|ticks| - 1]);
    }
  }

  /** The `rep`-th tick of the `a`-th column is unit number (ticks of the earlier columns) + rep. */
  lemma {:induction false} UnitsAt(ticks: seq<Tick>, a: nat, rep: nat)
    requires a < |ticks| && rep < ticks[a].count
    ensures TickSum(ticks[..a]) + rep < |Units(ticks)|
    ensures Units(ticks)[TickSum(ticks[..a]) + rep] == ticks[a].name
    decreases |ticks|
  {
    var n := |ticks| - 1;
    UnitsLength(ticks[..n]);
    if a < n {
      assert ticks[..n][..a] == ticks[..a];
      assert ticks[..n][a] == ticks[a];
      UnitsAt(ticks[..n], a, rep);
    } else {
      assert ticks[..a] == ticks[..n];
    }
  }

  lemma {:induction false} SlotRecordsRow(key: RowKey, ar: string, stage: string, slots: seq<Option<string>>)
    ensures SlotRecords(key, ar, stage, slots) == Inner(ar, Inner(stage, slots, Pair), Emitter(key))
    decreases |slots|
  {
    if slots != [] {
      var n := |slots| - 1;
      SlotRecordsRow(key, ar, stage, slots[..n]);
      assert Inner(stage, slots, Pair) == Inner(stage, slots[..n], Pair) + [Pair(stage, slots[n])];
      InnerAppend(ar, Inner(stage, slots[..n], Pair), [Pair(stage, slots[n])], Emitter(key));
    }
  }

  lemma {:induction false} StageRecordsRow(key: RowKey, ar: string, stages: seq<string>, slots: seq<Option<string>>)
    ensures StageRecords(key, ar, stages, slots) == Inner(ar, Combos(stages, slots), Emitter(key))
    decreases |stages|
  {
    if stages != [] {
      var n := |stages| - 1;
      StageRecordsRow(key, ar, stages[..n], slots);
      SlotRecordsRow(key, ar, stages[n], slots);
      InnerAppend(ar, Combos(stages[..n], slots), Inner(stages[n], slots, Pair), Emitter(key));
    }
  }

  lemma {:induction false} RepeatRecordsFlat(key: RowKey, ar: string, k: nat, stages: seq<string>, slots: seq<Option<string>>)
    ensures RepeatRecords(key, ar, k, stages, slots) == Product(Rep(ar, k), Combos(stages, slots), Emitter(key))
    decreases k
  {
    if k > 0 {
      RepeatRecordsFlat(key, ar, k - 1, stages, slots);
      StageRecordsRow(key, ar, stages, slots);
      assert Rep(ar, k)[..k - 1] == Rep(ar, k - 1);
    }
  }

  /** The four nested loops produce the reference definition: one record per unit and combination. */
  lemma {:induction false} TickRecordsFlat(key: RowKey, ticks: seq<Tick>, stages: seq<string>, slots: seq<Option<string>>)
    ensures TickRecords(key, ticks, stages, slots) == FlatRecords(key, ticks, stages, slots)
    decreases |ticks|
  {
    if ticks != [] {
      var n := |ticks| - 1;
      TickRecordsFlat(key, ticks[..n], stages, slots);
      RepeatRecordsFlat(key, ticks[n].name, ticks[n].count, stages, slots);
      ProductAppend(Units(ticks[..n]), Rep(ticks[n].name, ticks[n].count), Combos(stages, slots), Emitter(key));
    }
  }

  /** A row emits (sum of its tick counts) x (number of stages) x (number of language slots) records. */
  lemma TickCount(key: RowKey, ticks: seq<Tick>, stages: seq<string>, slots: seq<Option<string>>)
    ensures |TickRecords(key, ticks, stages, slots)| == TickSum(ticks) * (|stages| * |slots|)
  {
    TickRecordsFlat(key, ticks, stages, slots);
    UnitsLength(ticks);
    ProductLength(stages, slots, Pair);
    ProductLength(Units(ticks), Combos(stages, slots), Emitter(key));
  }

  /** The reference definition puts unit `u`, stage `s` and slot `l` at position u * b + s * |slots| + l. */
  lemma FlatOrder(key: RowKey, ticks: seq<Tick>, stages: seq<string>, slots: seq<Option<string>>,
                  u: nat, s: nat, l: nat)
    requires u < |Units(ticks)| && s < |stages| && l < |slots|
    ensures var i := u * (|stages| * |slots|) + (s * |slots| + l);
            0 <= i < |FlatRecords(key, ticks, stages, slots)|
            && FlatRecords(key, ticks, stages, slots)[i] == Emit(key, Units(ticks)[u], stages[s], slots[l])
  {
    var combos := Combos(stages, slots);
    ProductAt(stages, slots, Pair, s, l);
    ProductLength(stages, slots, Pair);
    assert combos[s * |slots| + l] == (stages[s], slots[l]);
    ProductAt(Units(ticks), combos, Emitter(key), u, s * |slots| + l);
  }

  /**
   * The emission order: with `b` = (stages x slots) records per tick, the record of the `rep`-th
   * tick of the `a`-th ticked column, the `s`-th stage and the `l`-th language slot is record
   * number (ticks of the earlier columns + rep) * b + s * |slots| + l of the row.
   */
  lemma RecordOrder(key: RowKey, ticks: seq<Tick>, stages: seq<string>, slots: seq<Option<string>>,
                    a: nat, rep: nat, s: nat, l: nat)
    requires a < |ticks| && rep < ticks[a].count && s < |stages| && l < |slots|
    ensures var i := (TickSum(ticks[..a]) + rep) * (|stages| * |slots|) + (s * |slots| + l);
            0 <= i < |TickRecords(key, ticks, stages, slots)|
            && TickRecords(key, ticks, stages, slots)[i] == Emit(key, ticks[a].name, stages[s], slots[l])
  {
    var u := TickSum(ticks[..a]) + rep;
    var i := u * (|stages| * |slots|) + (s * |slots| + l);
    UnitsAt(ticks, a, rep);
    FlatOrder(key, ticks, stages, slots, u, s, l);
    var flat := FlatRecords(key, ticks, stages, slots);
    assert Units(ticks)[u] == ticks[a].name;
    assert flat[i] == Emit(key, Units(ticks)[u], stages[s], slots[l]);
    var rows := TickRecords(key, ticks, stages, slots);
    TickRecordsFlat(key, ticks, stages, slots);
    assert rows == flat;
  }

  // ---------------------------------------------------------------- what each record holds

  lemma {:induction false} SlotMembers(key: RowKey, ar: string, stage: string, slots: seq<Option<string>>)
    ensures forall r :: r in SlotRecords(key, ar, stage, slots) ==>
              r == Emit(key, ar, stage, r.language) && r.language in slots
    decreases |slots|
  {
    if slots != [] {
      var n := |slots| - 1;
      SlotMembers(key, ar, stage, slots[..n]);
      assert forall x :: x in slots[..n] ==> x in slots;
    }
  }

  lemma {:induction false} StageMembers(key: RowKey, ar: string, stages: seq<string>, slots: seq<Option<string>>)
    ensures forall r :: r in StageRecords(key, ar, stages, slots) ==>
              r == Emit(key, ar, r.stage, r.language) && r.stage in stages && r.language in slots
    decreases |stages|
  {
    if stages != [] {
      var n := |stages| - 1;
      StageMembers(key, ar, stages[..n], slots);
      SlotMembers(key, ar, stages[n], slots);
      assert forall x :: x in stages[..n] ==> x in stages;
      assert stages[n] in stages;
    }
  }

  lemma {:induction false} RepeatMembers(key: RowKey, ar: string, k: nat, stages: seq<string>, slots: seq<Option<string>>)
    ensures forall r :: r in RepeatRecords(key, ar, k, stages, slots) ==> r in StageRecords(key, ar, stages, slots)
    decreases k
  {
    if k > 0 {
      RepeatMembers(key, ar, k - 1, stages, slots);
    }
  }

  /**
   * Every record of a row carries the row's platform, format and duration, one of the expanded
   * stages, one of the language slots and the name of a ticked column.
   */
  lemma {:induction false} TickMembers(key: RowKey, ticks: seq<Tick>, stages: seq<string>, slots: seq<Option<string>>)
    ensures forall r :: r in TickRecords(key, ticks, stages, slots) ==>
              r == Emit(key, r.arFormat, r.stage, r.language) && r.stage in stages && r.language in slots
              && exists t :: t in ticks && t.name == r.arFormat
    decreases |ticks|
  {
    if ticks != [] {
      var n := |ticks| - 1;
      var t := ticks[n];
      TickMembers(key, ticks[..n], stages, slots);
      RepeatMembers(key, t.name, t.count, stages, slots);
      StageMembers(key, t.name, stages, slots);
      assert forall x :: x in ticks[..n] ==> x in ticks;
      assert t in ticks;
    }
  }

  // ---------------------------------------------------------------- one data row

  /** The stripped funnel-stage text of a row; a missing cell reads as empty. */
  function FunnelText(sec: PlatformSection, row: Row): string {
    CellText(Get(row, sec.funnelCol))
  }

  /** What every record of the row shares: the block's platform and the row's stripped format and duration. */
  function KeyOf(sec: PlatformSection, row: Row): RowKey {
    RowKey(sec.platform, CellText(Get(row, sec.formatCol)), CellText(Get(row, sec.durationCol)))
  }

  /** The selected languages of a row: read on a dual-language sheet only. */
  function RowLanguages(sec: PlatformSection, row: Row): seq<string> {
    if sec.isDual then LanguageSelection(row, sec.languageColumns) else []
  }

  /** Everything a data row emits. A row without a positive tick emits nothing. */
  function RowRecords(sec: PlatformSection, row: Row): seq<Record> {
    TickRecords(KeyOf(sec, row), TickCounts(row, sec.arColumns), ExpandFunnelStage(FunnelText(sec, row)),
                Slots(RowLanguages(sec, row)))
  }

  /** A row with no positive tick emits nothing, whatever its TOTAL. */
  lemma RowWithoutTicks(sec: PlatformSection, row: Row)
    requires forall c :: c in sec.arColumns ==> TickValue(row, c) <= 0
    ensures RowRecords(sec, row) == []
  {
    TickCountsEmpty(row, sec.arColumns);
  }

  /**
   * A data row emits (sum of its positive ticks) x (number of expanded stages) x max(1, number
   * of selected languages) records; its TOTAL cell plays no part.
   */
  lemma RowCount(sec: PlatformSection, row: Row)
    ensures var langs := RowLanguages(sec, row);
            |RowRecords(sec, row)|
            == TickSum(TickCounts(row, sec.arColumns)) * (|ExpandFunnelStage(FunnelText(sec, row))|
               * (if langs == [] then 1 else |langs|))
  {
    TickCount(KeyOf(sec, row), TickCounts(row, sec.arColumns), ExpandFunnelStage(FunnelText(sec, row)),
              Slots(RowLanguages(sec, row)));
  }

  /**
   * Every record of a row carries the block's platform and the row's stripped format and
   * duration, an expanded stage and a ticked column's name; it has a language exactly when the
   * row selected one, and that language is a selected one.
   */
  lemma RowFields(sec: PlatformSection, row: Row)
    ensures forall r :: r in RowRecords(sec, row) ==>
              r.platform == sec.platform
              && r.format == CellText(Get(row, sec.formatCol))
              && r.duration == CellText(Get(row, sec.durationCol))
              && r.stage in ExpandFunnelStage(FunnelText(sec, row))
              && (exists t :: t in TickCounts(row, sec.arColumns) && t.name == r.arFormat)
              && (r.language.Some? <==> RowLanguages(sec, row) != [])
              && (r.language.Some? ==> r.language.value in RowLanguages(sec, row))
  {
    TickMembers(KeyOf(sec, row), TickCounts(row, sec.arColumns), ExpandFunnelStage(FunnelText(sec, row)),
                Slots(RowLanguages(sec, row)));
    SlotsHold(RowLanguages(sec, row));
  }

  /** Two rows that agree on the listed columns read the same ticks. */
  lemma {:induction false} TickCountsSameCells(row: Row, row': Row, cols: seq<ColumnSpec>)
    requires forall i :: 0 <= i < |cols| ==> Get(row, cols[i].index) == Get(row', cols[i].index)
    ensures TickCounts(row, cols) == TickCounts(row', cols)
    decreases |cols|
  {
    if cols != [] {
      var n := |cols| - 1;
      assert TickValue(row, cols[n]) == TickValue(row', cols[n]);
      TickCountsSameCells(row, row', cols[..n]);
    }
  }

  /** Two rows that agree on the listed columns select the same languages. */
  lemma {:induction false} LanguageSelectionSameCells(row: Row, row': Row, cols: seq<ColumnSpec>)
    requires forall i :: 0 <= i < |cols| ==> Get(row, cols[i].index) == Get(row', cols[i].index)
    ensures LanguageSelection(row, cols) == LanguageSelection(row', cols)
    decreases |cols|
  {
    if cols != [] {
      var n := |cols| - 1;
      assert Selected(row, cols[n]) == Selected(row', cols[n]);
      LanguageSelectionSameCells(row, row', cols[..n]);
    }
  }

  /**
   * The tolerant policy: whatever the TOTAL cell of a row holds, the row emits the same records.
   * A TOTAL that disagrees with the ticks is only reported.
   */
  lemma TotalIgnored(sec: PlatformSection, row: Row, total: Cell)
    requires sec.totalCol < |row|
    requires sec.totalCol != sec.funnelCol && sec.totalCol != sec.formatCol && sec.totalCol != sec.durationCol
    requires forall c :: c in sec.arColumns ==> c.index != sec.totalCol
    requires forall c :: c in sec.languageColumns ==> c.index != sec.totalCol
    ensures RowRecords(sec, row[sec.totalCol := total]) == RowRecords(sec, row)
  {
    var row' := row[sec.totalCol := total];
    forall i | 0 <= i < |sec.arColumns|
      ensures Get(row, sec.arColumns[i].index) == Get(row', sec.arColumns[i].index)
    {
      assert sec.arColumns[i] in sec.arColumns;
    }
    forall i | 0 <= i < |sec.languageColumns|
      ensures Get(row, sec.languageColumns[i].index) == Get(row', sec.languageColumns[i].index)
    {
      assert sec.languageColumns[i] in sec.languageColumns;
    }
    TickCountsSameCells(row, row', sec.arColumns);
    LanguageSelectionSameCells(row, row', sec.languageColumns);
    assert Get(row', sec.funnelCol) == Get(row, sec.funnelCol);
    assert Get(row', sec.formatCol) == Get(row, sec.formatCol);
    assert Get(row', sec.durationCol) == Get(row, sec.durationCol);
  }

  // ---------------------------------------------------------------- one platform block

  /**
   * A row that ends the block without being read as data: it holds a "Funnel Stage" cell (the
   * next block's header row), or its funnel-stage cell is blank.
   */
  predicate EndsSection(sec: PlatformSection, row: Row) {
    RowHasFunnelHeader(row) || FunnelText(sec, row) == ""
  }

  /** `EndsSection` as the stopping test of the row loop. */
  function Ender(sec: PlatformSection): Row -> bool {
    row => EndsSection(sec, row)
  }

  /** `RowRecords` as the body of the row loop. */
  function RowEmitter(sec: PlatformSection): Row -> seq<Record> {
    row => RowRecords(sec, row)
  }

  /**
   * `_transform_section`: the records of the block's data rows, in row order, from the first
   * data row to the first row that ends the block.
   */
  function SectionRecords(g: Grid, sec: PlatformSection): seq<Record> {
    Until(g, Ender(sec), RowEmitter(sec), sec.dataRowStart)
  }

  /**
   * The body of the row loop of `_transform_section`: whether the row ends the block and, when
   * it does not, the records it emits through the four nested emission loops.
   */
  method ReadRow(sec: PlatformSection, row: Row) returns (ends: bool, records: seq<Record>)
    ensures ends == Ender(sec)(row)
    ensures !ends ==> records == RowEmitter(sec)(row)
  {
    records := [];
    ends := RowStartsNextPlatform(row);
    if ends {
      return;
    }
    var funnel := CellText(Get(row, sec.funnelCol));
    if funnel == "" {
      return true, [];
    }
    var key := RowKey(sec.platform, CellText(Get(row, sec.formatCol)), CellText(Get(row, sec.durationCol)));
    // Coerced for the report only: the tolerant policy emits whatever the TOTAL says.
    var total := SafeToNumeric(Get(row, sec.totalCol));
    var ticks := ReadTickCounts(row, sec.arColumns);
    if ticks == [] {
      return;
    }
    var languages: seq<string> := [];
    if sec.isDual {
      languages := ReadLanguageSelection(row, sec.languageColumns);
    }
    var stages := ExpandFunnelStage(funnel);
    records := EmitRecords([], key, ticks, stages, Slots(languages));
    assert [] + TickRecords(key, ticks, stages, Slots(languages)) == RowRecords(sec, row);
  }

  /** `_transform_section`: the row loop, from the first data row to the row that ends the block. */
  method TransformSection(g: Grid, sec: PlatformSection) returns (results: seq<Record>)
    ensures results == SectionRecords(g, sec)
  {
    results := [];
    var r := sec.dataRowStart;
    while r < |g|
      invariant results + Until(g, Ender(sec), RowEmitter(sec), r) == SectionRecords(g, sec)
      decreases |g| - r
    {
      var ends, records := ReadRow(sec, g[r]);
      if ends {
        break;
      }
      results := results + records;
      r := r + 1;
    }
    assert results + [] == results;
  }

  /** A block's records stop at the next row holding a "Funnel Stage" cell: later rows play no part. */
  lemma SectionBefore(g: Grid, sec: PlatformSection, m: nat)
    requires sec.dataRowStart <= m < |g| && RowHasFunnelHeader(g[m])
    ensures SectionRecords(g, sec) == SectionRecords(g[..m], sec)
  {
    UntilBefore(g, Ender(sec), RowEmitter(sec), sec.dataRowStart, m);
  }

  /**
   * Every record of a block comes from one of its data rows: a row at or after the first data
   * row, before any row that ends the block, that emits it.
   */
  lemma SectionFrom(g: Grid, sec: PlatformSection, x: Record)
    requires x in SectionRecords(g, sec)
    ensures exists k :: sec.dataRowStart <= k < |g| && x in RowRecords(sec, g[k])
                        && forall j :: sec.dataRowStart <= j <= k ==> !EndsSection(sec, g[j])
  {
    UntilFrom(g, Ender(sec), RowEmitter(sec), sec.dataRowStart, x);
  }

  /** Every record of a block carries the block's platform. */
  lemma SectionPlatform(g: Grid, sec: PlatformSection)
    ensures forall x :: x in SectionRecords(g, sec) ==> x.platform == sec.platform
  {
    forall x | x in SectionRecords(g, sec)
      ensures x.platform == sec.platform
    {
      SectionFrom(g, sec, x);
      var k :| sec.dataRowStart <= k < |g| && x in RowRecords(sec, g[k]);
      RowFields(sec, g[k]);
    }
  }

  // ---------------------------------------------------------------- one sheet

  /** The records of the sections in turn. */
  function AllRecords(g: Grid, secs: seq<PlatformSection>): seq<Record>
    decreases |secs|
  {
    if secs == [] then [] else AllRecords(g, secs[..|secs| - 1]) + SectionRecords(g, secs[|secs| - 1])
  }

  /** `_transform_sheet`: every section's records in discovery order, or the error the scan raises. */
  function SheetRecords(g: Grid, dual: bool): Result<seq<Record>, ScanError> {
    match Sections(g, dual)
    case Failure(e) => Failure(e)
    case Success(secs) => Success(AllRecords(g, secs))
  }

  /** `_transform_sheet` as its loop over the sections. */
  method TransformSheet(g: Grid, dual: bool) returns (r: Result<seq<Record>, ScanError>)
    ensures r == SheetRecords(g, dual)
  {
    var sections := IterPlatformSections(g, dual);
    if sections.Failure? {
      return Failure(sections.error);
    }
    var secs := sections.value;
    var transformed: seq<Record> := [];
    for k := 0 to |secs|
      invariant transformed == AllRecords(g, secs[..k])
    {
      assert secs[..k + 1][..k] == secs[..k];
      var records := TransformSection(g, secs[k]);
      transformed := transformed + records;
    }
    assert secs[..|secs|] == secs;
    r := Success(transformed);
  }

  /** Every record of a sheet comes from one of its sections. */
  lemma {:induction false} AllRecordsFrom(g: Grid, secs: seq<PlatformSection>, x: Record)
    requires x in AllRecords(g, secs)
    ensures exists k :: 0 <= k < |secs| && x in SectionRecords(g, secs[k])
    decreases |secs|
  {
    var n := |secs| - 1;
    if x !in SectionRecords(g, secs[n]) {
      AllRecordsFrom(g, secs[..n], x);
      var k :| 0 <= k < n && x in SectionRecords(g, secs[..n][k]);
      assert secs[..n][k] == secs[k];
    }
  }

  /** Every record of a list of usable sections names one of the configured platforms. */
  lemma SectionsPlatforms(g: Grid, dual: bool, secs: seq<PlatformSection>)
    requires forall k :: 0 <= k < |secs| ==> Usable(g, dual, secs[k])
    ensures forall x :: x in AllRecords(g, secs) ==> IsDisplayName(Config.PLATFORM_NAMES, x.platform)
  {
    forall x | x in AllRecords(g, secs)
      ensures IsDisplayName(Config.PLATFORM_NAMES, x.platform)
    {
      AllRecordsFrom(g, secs, x);
      var k :| 0 <= k < |secs| && x in SectionRecords(g, secs[k]);
      assert Usable(g, dual, secs[k]);
      SectionPlatform(g, secs[k]);
    }
  }

  /** Every record a sheet yields names one of the configured platforms by its display name. */
  lemma SheetPlatforms(g: Grid, dual: bool)
    ensures SheetRecords(g, dual).Success? ==>
              forall x :: x in SheetRecords(g, dual).value ==> IsDisplayName(Config.PLATFORM_NAMES, x.platform)
  {
    if Sections(g, dual).Success? {
      SectionsUsable(g, dual);
      SectionsPlatforms(g, dual, Sections(g, dual).value);
    }
  }

  /** Usable sections of a single-language sheet produce records without a language only. */
  lemma SingleLanguageSections(g: Grid, secs: seq<PlatformSection>)
    requires forall k :: 0 <= k < |secs| ==> Usable(g, false, secs[k])
    ensures forall x :: x in AllRecords(g, secs) ==> x.language == None
  {
    forall x | x in AllRecords(g, secs)
      ensures x.language == None
    {
      AllRecordsFrom(g, secs, x);
      var k :| 0 <= k < |secs| && x in SectionRecords(g, secs[k]);
      assert Usable(g, false, secs[k]);
      SectionFrom(g, secs[k], x);
      var r :| secs[k].dataRowStart <= r < |g| && x in RowRecords(secs[k], g[r]);
      RowFields(secs[k], g[r]);
    }
  }

  /** A single-language sheet yields records without a language only. */
  lemma SingleLanguageRecords(g: Grid)
    ensures SheetRecords(g, false).Success? ==> forall x :: x in SheetRecords(g, false).value ==> x.language == None
  {
    if Sections(g, false).Success? {
      SectionsUsable(g, false);
      SingleLanguageSections(g, Sections(g, false).value);
    }
  }

  /** A row whose cell reads "Funnel Stage" once stripped holds a "Funnel Stage" cell. */
  lemma HeaderRowStops(row: Row, j: nat)
    requires j < |row| && HeaderRow(row)[j] == Config.FUNNEL_STAGE_HEADER
    ensures RowHasFunnelHeader(row)
  {
    assert IsFunnelHeaderCell(row[j]);
    HeaderCellFromExists(row, 0);
  }

  /**
   * Blocks do not overlap: a block's records come only from rows above the main header row of
   * a usable block at least four rows further down, which holds a "Funnel Stage" cell and so
   * ends the earlier block.
   */
  lemma BlocksDisjoint(g: Grid, dual: bool, a: PlatformSection, b: PlatformSection)
    requires Usable(g, dual, b) && a.dataRowStart + 4 <= b.dataRowStart
    ensures SectionRecords(g, a) == SectionRecords(g[..b.dataRowStart - 2], a)
  {
    var m := b.dataRowStart - 2;
    HeaderRowStops(g[m], b.funnelCol);
    SectionBefore(g, a, m);
  }
}

=== FILE: validator.dfy ===
/**
 * The reconciliation step of the package (cej_transformer/validator.py): the TOTAL column of
 * every platform block is summed over exactly the rows the expander reads, the sums are
 * compared with how many output records name each platform, and the comparisons are tallied.
 */
module Validator {
  import opened Wrappers
  import opened PyText
  import opened Sheet
  import opened Parser
  import opened Nested
  import opened Transformer
  import Config

  // ---------------------------------------------------------------- dicts in insertion order

  /** A Python dict: its entries in insertion order. */
  type Dict<V> = seq<(string, V)>

  /** Each key occurs once, as in every dict the source builds. */
  predicate DistinctKeys<V>(d: Dict<V>) {
    forall i, j :: 0 <= i < j < |d| ==> d[i].0 != d[j].0
  }

  /** `d.get(k)`: the value of the first entry with key `k`. */
  function Lookup<V>(d: Dict<V>, k: string): Option<V>
    decreases |d|
  {
    if d == [] then None else if d[0].0 == k then Some(d[0].1) else Lookup(d[1..], k)
  }

  /** `d[k] = v`: an existing key keeps its place and takes the new value; a new key goes last. */
  function Put<V>(d: Dict<V>, k: string, v: V): Dict<V>
    decreases |d|
  {
    if d == [] then [(k, v)] else if d[0].0 == k then [(k, v)] + d[1..] else [d[0]] + Put(d[1..], k, v)
  }

  /** A key is absent exactly when no entry carries it. */
  lemma {:induction false} LookupNone<V>(d: Dict<V>, k: string)
    ensures Lookup(d, k).None? <==> forall i :: 0 <= i < |d| ==> d[i].0 != k
    decreases |d|
  {
    if d != [] {
      LookupNone(d[1..], k);
      if d[0].0 != k {
        forall i | 1 <= i < |d|
          ensures d[i].0 == d[1..][i - 1].0
        {
        }
      }
    }
  }

  /** After `d[k] = v`, `k` reads `v` and every other key reads what it read before. */
  lemma {:induction false} PutLookup<V>(d: Dict<V>, k: string, v: V, j: string)
    ensures Lookup(Put(d, k, v), j) == if j == k then Some(v) else Lookup(d, j)
    decreases |d|
  {
    if d != [] && d[0].0 != k {
      PutLookup(d[1..], k, v, j);
      assert ([d[0]] + Put(d[1..], k, v))[1..] == Put(d[1..], k, v);
    } else if d != [] {
      assert ([(k, v)] + d[1..])[1..] == d[1..];
    }
  }

  /**
   * Assigning an existing key rewrites its value where it stands, leaving the key order as it
   * was; assigning a new key appends it.
   */
  lemma {:induction false} PutShape<V>(d: Dict<V>, k: string, v: V)
    ensures Lookup(d, k).Some? ==> |Put(d, k, v)| == |d| && forall i :: 0 <= i < |d| ==> Put(d, k, v)[i].0 == d[i].0
    ensures Lookup(d, k).None? ==> Put(d, k, v) == d + [(k, v)]
    decreases |d|
  {
    if d != [] && d[0].0 != k {
      PutShape(d[1..], k, v);
      var p := Put(d[1..], k, v);
      if Lookup(d, k).Some? {
        forall i | 1 <= i < |d|
          ensures ([d[0]] + p)[i].0 == d[i].0
        {
          assert ([d[0]] + p)[i] == p[i - 1];
        }
      } else {
        assert [d[0]] + (d[1..] + [(k, v)]) == d + [(k, v)];
      }
    }
  }

  /** Assignment keeps every key unique. */
  lemma PutDistinct<V>(d: Dict<V>, k: string, v: V)
    requires DistinctKeys(d)
    ensures DistinctKeys(Put(d, k, v))
  {
    PutShape(d, k, v);
    LookupNone(d, k);
  }

  /** `m.get(k, 0)` on a map of counts. */
  function GetOr(m: map<string, nat>, k: string): nat {
    if k in m then m[k] else 0
  }

  // ---------------------------------------------------------------- one platform block

  /** The coerced TOTAL of a data row. */
  function RowTotal(sec: PlatformSection, row: Row): int {
    SafeToNumeric(Get(row, sec.totalCol))
  }

  /** `RowTotal` as the body of the row loop. */
  function TotalCell(sec: PlatformSection): Row -> seq<int> {
    row => [RowTotal(sec, row)]
  }

  function Sum(xs: seq<int>): int
    decreases |xs|
  {
    if xs == [] then 0 else xs[0] + Sum(xs[1..])
  }

  /**
   * `_sum_totals`: the coerced TOTALs of the block's rows from the first data row up to the
   * first row that ends the block, by the same two stop rules the expander applies, added up.
   * Rows without a positive tick are included.
   */
  function SectionTotal(g: Grid, sec: PlatformSection): int {
    Sum(Until(g, Ender(sec), TotalCell(sec), sec.dataRowStart))
  }

  /** `_sum_totals` as its row loop. */
  method SumTotals(g: Grid, sec: PlatformSection) returns (total: int)
    ensures total == SectionTotal(g, sec)
  {
    total := 0;
    var r := sec.dataRowStart;
    while r < |g|
      invariant total + Sum(Until(g, Ender(sec), TotalCell(sec), r)) == SectionTotal(g, sec)
      decreases |g| - r
    {
      var next := RowStartsNextPlatform(g[r]);
      if next {
        assert Ender(sec)(g[r]);
        break;
      }
      var funnel := CellText(Get(g[r], sec.funnelCol));
      if funnel == "" {
        assert Ender(sec)(g[r]);
        break;
      }
      var rest := Until(g, Ender(sec), TotalCell(sec), r + 1);
      assert ([RowTotal(sec, g[r])] + rest)[1..] == rest;
      total := total + SafeToNumeric(Get(g[r], sec.totalCol));
      r := r + 1;
    }
  }

  /** Row `k` is read by a row loop started at `r`: no row from `r` to `k` ends the block. */
  predicate Reached(g: Grid, sec: PlatformSection, r: nat, k: nat) {
    r <= k < |g| && forall j :: r <= j <= k ==> !EndsSection(sec, g[j])
  }

  /** Every data row of the block states in its TOTAL how many records it emits. */
  predicate TotalsConsistent(g: Grid, sec: PlatformSection) {
    forall k :: sec.dataRowStart <= k < |g| && Reached(g, sec, sec.dataRowStart, k) ==> RowTotal(sec, g[k]) == |RowRecords(sec, g[k])|
  }

  lemma {:induction false} TotalsCountFrom(g: Grid, sec: PlatformSection, r: nat)
    requires forall k :: r <= k < |g| && Reached(g, sec, r, k) ==> RowTotal(sec, g[k]) == |RowRecords(sec, g[k])|
    ensures Sum(Until(g, Ender(sec), TotalCell(sec), r)) == |Until(g, Ender(sec), RowEmitter(sec), r)|
    decreases |g| - r
  {
    if r < |g| && !Ender(sec)(g[r]) {
      assert Reached(g, sec, r, r);
      forall k | r + 1 <= k < |g| && Reached(g, sec, r + 1, k)
        ensures Reached(g, sec, r, k)
      {
      }
      TotalsCountFrom(g, sec, r + 1);
      var rest := Until(g, Ender(sec), TotalCell(sec), r + 1);
      assert ([RowTotal(sec, g[r])] + rest)[1..] == rest;
    }
  }

  /** When every data row's TOTAL is its record count, the block's summed TOTAL is its record count. */
  lemma TotalsCount(g: Grid, sec: PlatformSection)
    requires TotalsConsistent(g, sec)
    ensures SectionTotal(g, sec) == |SectionRecords(g, sec)|
  {
    TotalsCountFrom(g, sec, sec.dataRowStart);
  }

  /**
   * A row whose TOTAL is its tick sum, whose stage is not "ALL" and which selects at most one
   * language emits as many records as its TOTAL says.
   */
  lemma PlainRowAgrees(sec: PlatformSection, row: Row)
    requires RowTotal(sec, row) == TickSum(TickCounts(row, sec.arColumns))
    requires Upper(Strip(FunnelText(sec, row))) != "ALL"
    requires |RowLanguages(sec, row)| <= 1
    ensures RowTotal(sec, row) == |RowRecords(sec, row)|
  {
    var stages := ExpandFunnelStage(FunnelText(sec, row));
    assert |stages| == 1;
    var langs := RowLanguages(sec, row);
    assert (if langs == [] then 1 else |langs|) == 1;
    RowCount(sec, row);
  }

  /**
   * An "ALL" row whose TOTAL is its tick sum and which selects at most one language emits three
   * times its TOTAL: the expander writes one record per stage, the TOTAL counts the row once.
   */
  lemma AllRowTriples(sec: PlatformSection, row: Row)
    requires RowTotal(sec, row) == TickSum(TickCounts(row, sec.arColumns))
    requires Upper(Strip(FunnelText(sec, row))) == "ALL"
    requires |RowLanguages(sec, row)| <= 1
    ensures |RowRecords(sec, row)| == 3 * RowTotal(sec, row)
  {
    var stages := ExpandFunnelStage(FunnelText(sec, row));
    assert |stages| == 3;
    var langs := RowLanguages(sec, row);
    assert (if langs == [] then 1 else |langs|) == 1;
    RowCount(sec, row);
  }

  // ---------------------------------------------------------------- expected totals of a sheet

  /** `SectionTotal` as the total of one block. */
  function BlockTotals(g: Grid): PlatformSection -> int {
    sec => SectionTotal(g, sec)
  }

  /**
   * The totals dict of one sheet: `totals[section.platform_name] = total(section)` for each
   * block in turn (`total` is `BlockTotals(g)`, that is `_sum_totals`).
   */
  function TotalsFold(secs: seq<PlatformSection>, total: PlatformSection -> int): Dict<int>
    decreases |secs|
  {
    if secs == [] then []
    else Put(TotalsFold(secs[..|secs| - 1], total), secs[|secs| - 1].platform, total(secs[|secs| - 1]))
  }

  /** The expected totals of one sheet, or the error the block scan raises. */
  function SheetTotals(g: Grid, dual: bool): Result<Dict<int>, ScanError> {
    match Sections(g, dual)
    case Failure(e) => Failure(e)
    case Success(secs) => Success(TotalsFold(secs, BlockTotals(g)))
  }

  /** The inner loop of `_collect_expected_totals` for one sheet. */
  method CollectSheetTotals(g: Grid, dual: bool) returns (r: Result<Dict<int>, ScanError>)
    ensures r == SheetTotals(g, dual)
  {
    var sections := IterPlatformSections(g, dual);
    if sections.Failure? {
      return Failure(sections.error);
    }
    var secs := sections.value;
    var totals: Dict<int> := [];
    for k := 0 to |secs|
      invariant totals == TotalsFold(secs[..k], BlockTotals(g))
    {
      assert secs[..k + 1][..k] == secs[..k];
      var sum := SumTotals(g, secs[k]);
      totals := Put(totals, secs[k].platform, sum);
    }
    assert secs[..|secs|] == secs;
    r := Success(totals);
  }

  /** Each platform appears once among the expected totals. */
  lemma {:induction false} TotalsDistinct(secs: seq<PlatformSection>, total: PlatformSection -> int)
    ensures DistinctKeys(TotalsFold(secs, total))
    decreases |secs|
  {
    if secs != [] {
      var n := |secs| - 1;
      TotalsDistinct(secs[..n], total);
      PutDistinct(TotalsFold(secs[..n], total), secs[n].platform, total(secs[n]));
    }
  }

  /**
   * Dict overwrite: when a sheet has several blocks for one platform, the platform's expected
   * total is the sum of the last of them alone.
   */
  lemma {:induction false} TotalsLast(secs: seq<PlatformSection>, total: PlatformSection -> int, k: nat)
    requires k < |secs|
    requires forall l :: k < l < |secs| ==> secs[l].platform != secs[k].platform
    ensures Lookup(TotalsFold(secs, total), secs[k].platform) == Some(total(secs[k]))
    decreases |secs|
  {
    var n := |secs| - 1;
    PutLookup(TotalsFold(secs[..n], total), secs[n].platform, total(secs[n]), secs[k].platform);
    if k < n {
      assert secs[..n][k] == secs[k];
      forall l | k < l < n
        ensures secs[..n][l].platform != secs[..n][k].platform
      {
        assert secs[..n][l] == secs[l];
      }
      TotalsLast(secs[..n], total, k);
    }
  }

  /** A platform no block names has no expected total. */
  lemma {:induction false} TotalsAbsent(secs: seq<PlatformSection>, total: PlatformSection -> int, p: string)
    requires forall k :: 0 <= k < |secs| ==> secs[k].platform != p
    ensures Lookup(TotalsFold(secs, total), p) == None
    decreases |secs|
  {
    if secs != [] {
      var n := |secs| - 1;
      PutLookup(TotalsFold(secs[..n], total), secs[n].platform, total(secs[n]), p);
      forall k | 0 <= k < n
        ensures secs[..n][k].platform != p
      {
        assert secs[..n][k] == secs[k];
      }
      TotalsAbsent(secs[..n], total, p);
    }
  }

  /** A platform with an expected total is named by some block. */
  lemma {:induction false} TotalsPresent(secs: seq<PlatformSection>, total: PlatformSection -> int, p: string)
    requires Lookup(TotalsFold(secs, total), p).Some?
    ensures exists k :: 0 <= k < |secs| && secs[k].platform == p
    decreases |secs|
  {
    var n := |secs| - 1;
    PutLookup(TotalsFold(secs[..n], total), secs[n].platform, total(secs[n]), p);
    if secs[n].platform != p {
      TotalsPresent(secs[..n], total, p);
      var k :| 0 <= k < n && secs[..n][k].platform == p;
      assert secs[k] == secs[..n][k];
    }
  }

  // ---------------------------------------------------------------- expected totals of a workbook

  /**
   * `_collect_expected_totals` over the given sheet specifications: a sheet the workbook lacks is
   * skipped, a sheet whose scan raises makes the whole collection raise.
   */
  function ExpectedTotals(workbook: map<string, Grid>, specs: seq<Config.SheetSpec>)
    : Result<map<string, Dict<int>>, ScanError>
    decreases |specs|
  {
    if specs == [] then Success(map[])
    else
      var s := specs[|specs| - 1];
      match ExpectedTotals(workbook, specs[..|specs| - 1])
      case Failure(e) => Failure(e)
      case Success(m) =>
        if s.sheetName !in workbook then Success(m)
        else match SheetTotals(workbook[s.sheetName], s.isDual)
          case Failure(e) => Failure(e)
          case Success(t) => Success(m[s.sheetName := t])
  }

  /** `_collect_expected_totals`: the loop over the configured sheets. */
  method CollectExpectedTotals(workbook: map<string, Grid>) returns (r: Result<map<string, Dict<int>>, ScanError>)
    ensures r == ExpectedTotals(workbook, Config.SHEET_SPECS)
  {
    var specs := Config.SHEET_SPECS;
    var collected: map<string, Dict<int>> := map[];
    for k := 0 to |specs|
      invariant ExpectedTotals(workbook, specs[..k]) == Success(collected)
    {
      assert specs[..k + 1][..k] == specs[..k];
      var spec := specs[k];
      if spec.sheetName !in workbook {
        continue;
      }
      var totals := CollectSheetTotals(workbook[spec.sheetName], spec.isDual);
      if totals.Failure? {
        assert specs[..k + 1] == specs[..k] + [spec];
        return Failure(totals.error);
      }
      collected := collected[spec.sheetName := totals.value];
    }
    assert specs[..|specs|] == specs;
    r := Success(collected);
  }

  predicate DistinctSheetNames(specs: seq<Config.SheetSpec>) {
    forall i, j :: 0 <= i < j < |specs| ==> specs[i].sheetName != specs[j].sheetName
  }

  /** The collection fails exactly when some configured sheet that the workbook has fails its scan. */
  lemma {:induction false} ExpectedFails(workbook: map<string, Grid>, specs: seq<Config.SheetSpec>)
    ensures ExpectedTotals(workbook, specs).Failure? <==>
              exists i :: 0 <= i < |specs| && specs[i].sheetName in workbook
                          && SheetTotals(workbook[specs[i].sheetName], specs[i].isDual).Failure?
    decreases |specs|
  {
    if specs != [] {
      var n := |specs| - 1;
      ExpectedFails(workbook, specs[..n]);
      assert forall i :: 0 <= i < n ==> specs[..n][i] == specs[i];
    }
  }

  /** Only sheets the workbook has get an entry. */
  lemma {:induction false} ExpectedKeys(workbook: map<string, Grid>, specs: seq<Config.SheetSpec>)
    ensures ExpectedTotals(workbook, specs).Success? ==> ExpectedTotals(workbook, specs).value.Keys <= workbook.Keys
    decreases |specs|
  {
    if specs != [] {
      ExpectedKeys(workbook, specs[..|specs| - 1]);
    }
  }

  /**
   * When the collection succeeds, a configured sheet has an entry exactly when the workbook has
   * it, and the entry is that sheet's totals.
   */
  lemma {:induction false} ExpectedEntry(workbook: map<string, Grid>, specs: seq<Config.SheetSpec>, i: nat)
    requires DistinctSheetNames(specs) && i < |specs|
    requires ExpectedTotals(workbook, specs).Success?
    ensures var m := ExpectedTotals(workbook, specs).value;
            var name := specs[i].sheetName;
            (name in m <==> name in workbook)
            && (name in m ==> SheetTotals(workbook[name], specs[i].isDual) == Success(m[name]))
    decreases |specs|
  {
    var n := |specs| - 1;
    var pre := specs[..n];
    ExpectedKeys(workbook, pre);
    if i < n {
      assert DistinctSheetNames(pre);
      assert pre[i] == specs[i];
      ExpectedEntry(workbook, pre, i);
    }
  }

  // ---------------------------------------------------------------- actual counts

  /** How many entries of the column are `p`. */
  function Count(column: seq<string>, p: string): nat
    decreases |column|
  {
    if column == [] then 0
    else Count(column[..|column| - 1], p) + (if column[|column| - 1] == p then 1 else 0)
  }

  /** `df["Platform"].value_counts().to_dict()`: each value of the column with its frequency. */
  function PlatformCounts(column: seq<string>): map<string, nat> {
    map p | p in column :: Count(column, p)
  }

  lemma {:induction false} CountAppend(a: seq<string>, b: seq<string>, p: string)
    ensures Count(a + b, p) == Count(a, p) + Count(b, p)
    decreases |b|
  {
    if b == [] {
      assert a + b == a;
    } else {
      var n := |b| - 1;
      assert (a + b)[..|a + b| - 1] == a + b[..n];
      CountAppend(a, b[..n], p);
    }
  }

  /** A value absent from the column is counted zero times. */
  lemma {:induction false} CountAbsent(column: seq<string>, p: string)
    requires p !in column
    ensures Count(column, p) == 0
    decreases |column|
  {
    if column != [] {
      var n := |column| - 1;
      assert forall x :: x in column[..n] ==> x in column;
      CountAbsent(column[..n], p);
    }
  }

  /** A column holding one value throughout counts that value once per entry and anything else never. */
  lemma {:induction false} CountUniform(column: seq<string>, q: string, p: string)
    requires forall i :: 0 <= i < |column| ==> column[i] == q
    ensures Count(column, p) == if p == q then |column| else 0
    decreases |column|
  {
    if column != [] {
      var n := |column| - 1;
      assert forall i :: 0 <= i < n ==> column[..n][i] == column[i];
      CountUniform(column[..n], q, p);
    }
  }

  /** Reading a count with default 0 gives the frequency, for platforms absent from the output too. */
  lemma CountsLookup(column: seq<string>, p: string)
    ensures GetOr(PlatformCounts(column), p) == Count(column, p)
  {
    if p !in column {
      CountAbsent(column, p);
    }
  }

  /** The "Platform" column of the output records. */
  function PlatformColumn(records: seq<Record>): (c: seq<string>)
    ensures |c| == |records|
  {
    seq(|records|, i requires 0 <= i < |records| => records[i].platform)
  }

  lemma PlatformColumnAppend(a: seq<Record>, b: seq<Record>)
    ensures PlatformColumn(a + b) == PlatformColumn(a) + PlatformColumn(b)
  {
    assert forall i :: 0 <= i < |a| + |b| ==> PlatformColumn(a + b)[i] == (PlatformColumn(a) + PlatformColumn(b))[i];
  }

  /** One sheet of the output workbook as read back: its "Platform" column, if it has one. */
  datatype OutputSheet = OutputSheet(platformColumn: Option<seq<string>>)

  /** The counts of one output sheet: empty when it has no "Platform" column. */
  function SheetCounts(s: OutputSheet): map<string, nat> {
    match s.platformColumn
    case None => map[]
    case Some(column) => PlatformCounts(column)
  }

  /**
   * `_collect_actual_counts`: the counts of every sheet of the output workbook; an unreadable
   * workbook (`None`) gives no counts at all.
   */
  function ActualCounts(output: Option<map<string, OutputSheet>>): (m: map<string, map<string, nat>>)
    ensures output.None? ==> m == map[]
    ensures output.Some? ==> m.Keys == output.value.Keys
    ensures forall name :: name in m ==> m[name] == SheetCounts(output.value[name])
  {
    match output
    case None => map[]
    case Some(sheets) => map name | name in sheets :: SheetCounts(sheets[name])
  }

  // ---------------------------------------------------------------- comparisons

  datatype Status = PASS | FAIL

  /** `PlatformComparison`: one platform's expected and actual counts. */
  datatype Comparison = Comparison(expected: int, actual: int) {
    function Status(): Status {
      if expected == actual then PASS else FAIL
    }

    function Difference(): int {
      actual - expected
    }
  }

  /** A comparison passes exactly when there is no difference. */
  lemma StatusDifference(c: Comparison)
    ensures c.Status() == PASS <==> c.Difference() == 0
    ensures c.Status() == FAIL <==> c.actual != c.expected
  {
  }

  /**
   * The comparisons of one sheet: one per expected platform in the expected order, against the
   * output count or 0 when the output lacks the platform.
   */
  function CompareSheet(expected: Dict<int>, actual: map<string, nat>): Dict<Comparison>
    decreases |expected|
  {
    if expected == [] then []
    else
      var n := |expected| - 1;
      CompareSheet(expected[..n], actual) + [(expected[n].0, Comparison(expected[n].1, GetOr(actual, expected[n].0)))]
  }

  function PassCount(cs: Dict<Comparison>): nat
    decreases |cs|
  {
    if cs == [] then 0 else PassCount(cs[..|cs| - 1]) + (if cs[|cs| - 1].1.Status() == PASS then 1 else 0)
  }

  function FailCount(cs: Dict<Comparison>): nat
    decreases |cs|
  {
    if cs == [] then 0 else FailCount(cs[..|cs| - 1]) + (if cs[|cs| - 1].1.Status() == FAIL then 1 else 0)
  }

  /** Every comparison either passes or fails. */
  lemma {:induction false} PassFail(cs: Dict<Comparison>)
    ensures PassCount(cs) + FailCount(cs) == |cs|
    decreases |cs|
  {
    if cs != [] {
      PassFail(cs[..|cs| - 1]);
    }
  }

  /**
   * Exactly the expected platforms are compared, in the expected order, each once: a platform
   * only the output has is never checked, and an expected platform the output lacks is compared
   * with 0.
   */
  lemma {:induction false} CompareSheetEntries(expected: Dict<int>, actual: map<string, nat>)
    ensures |CompareSheet(expected, actual)| == |expected|
    ensures forall i :: 0 <= i < |expected| ==>
              CompareSheet(expected, actual)[i]
              == (expected[i].0, Comparison(expected[i].1, if expected[i].0 in actual then actual[expected[i].0] else 0))
    decreases |expected|
  {
    if expected != [] {
      var n := |expected| - 1;
      CompareSheetEntries(expected[..n], actual);
      assert forall i :: 0 <= i < n ==> expected[..n][i] == expected[i];
    }
  }

  /**
   * On a sheet whose expected platforms are distinct, as the collected totals are
   * (`TotalsDistinct`), appending each comparison is the dict assignment `results[platform] = ...`:
   * the platform is a new key every time.
   */
  lemma CompareSheetAssigns(expected: Dict<int>, actual: map<string, nat>)
    requires DistinctKeys(expected) && expected != []
    ensures var n := |expected| - 1;
            CompareSheet(expected, actual)
            == Put(CompareSheet(expected[..n], actual), expected[n].0, Comparison(expected[n].1, GetOr(actual, expected[n].0)))
  {
    var n := |expected| - 1;
    var prefix := CompareSheet(expected[..n], actual);
    CompareSheetEntries(expected[..n], actual);
    assert forall i :: 0 <= i < |prefix| ==> prefix[i].0 == expected[i].0;
    LookupNone(prefix, expected[n].0);
    PutShape(prefix, expected[n].0, Comparison(expected[n].1, GetOr(actual, expected[n].0)));
  }

  /** With no failing comparison, every expected platform's count agrees with the output. */
  lemma {:induction false} NoFailures(cs: Dict<Comparison>)
    ensures FailCount(cs) == 0 <==> forall i :: 0 <= i < |cs| ==> cs[i].1.expected == cs[i].1.actual
    decreases |cs|
  {
    if cs != [] {
      var n := |cs| - 1;
      NoFailures(cs[..n]);
      assert forall i :: 0 <= i < n ==> cs[..n][i] == cs[i];
    }
  }

  // ---------------------------------------------------------------- the summary

  /** The `summary` dict; `overall` is the `overall_status` set after the loop. */
  datatype Summary = Summary(checked: nat, passed: nat, failed: nat, overall: Status)

  /** The report of `validate_output` without its timestamp and file names, and its summary. */
  datatype Validation = Validation(results: map<string, Dict<Comparison>>, summary: Summary)

  /** `expected.get(spec.sheet_name, {})` */
  function ExpectedOf(expected: map<string, Dict<int>>, name: string): Dict<int> {
    if name in expected then expected[name] else []
  }

  /** `actual.get(spec.output_sheet_name, {})` */
  function ActualOf(actual: map<string, map<string, nat>>, name: string): map<string, nat> {
    if name in actual then actual[name] else map[]
  }

  /** The comparisons of one configured sheet. */
  function SpecComparisons(expected: map<string, Dict<int>>, actual: map<string, map<string, nat>>, s: Config.SheetSpec)
    : Dict<Comparison>
  {
    CompareSheet(ExpectedOf(expected, s.sheetName), ActualOf(actual, s.outputSheetName))
  }

  /** The `comparison` dict after the loop over the given sheet specifications. */
  function Results(expected: map<string, Dict<int>>, actual: map<string, map<string, nat>>, specs: seq<Config.SheetSpec>)
    : map<string, Dict<Comparison>>
    decreases |specs|
  {
    if specs == [] then map[]
    else
      var s := specs[|specs| - 1];
      Results(expected, actual, specs[..|specs| - 1])[s.sheetName := SpecComparisons(expected, actual, s)]
  }

  /** `total_platforms_checked`: one per expected platform of every configured sheet. */
  function Checked(expected: map<string, Dict<int>>, specs: seq<Config.SheetSpec>): nat
    decreases |specs|
  {
    if specs == [] then 0 else Checked(expected, specs[..|specs| - 1]) + |ExpectedOf(expected, specs[|specs| - 1].sheetName)|
  }

  /** `platforms_passed` */
  function Passed(expected: map<string, Dict<int>>, actual: map<string, map<string, nat>>, specs: seq<Config.SheetSpec>): nat
    decreases |specs|
  {
    if specs == [] then 0
    else Passed(expected, actual, specs[..|specs| - 1]) + PassCount(SpecComparisons(expected, actual, specs[|specs| - 1]))
  }

  /** `platforms_failed` */
  function Failed(expected: map<string, Dict<int>>, actual: map<string, map<string, nat>>, specs: seq<Config.SheetSpec>): nat
    decreases |specs|
  {
    if specs == [] then 0
    else Failed(expected, actual, specs[..|specs| - 1]) + FailCount(SpecComparisons(expected, actual, specs[|specs| - 1]))
  }

  /** Each expected platform is counted once, as passed or as failed. */
  lemma {:induction false} TallyAddsUp(expected: map<string, Dict<int>>, actual: map<string, map<string, nat>>,
                                       specs: seq<Config.SheetSpec>)
    ensures Passed(expected, actual, specs) + Failed(expected, actual, specs) == Checked(expected, specs)
    decreases |specs|
  {
    if specs != [] {
      var s := specs[|specs| - 1];
      TallyAddsUp(expected, actual, specs[..|specs| - 1]);
      PassFail(SpecComparisons(expected, actual, s));
      CompareSheetEntries(ExpectedOf(expected, s.sheetName), ActualOf(actual, s.outputSheetName));
    }
  }

  /** The tallies after one more sheet. */
  lemma TallyStep(expected: map<string, Dict<int>>, actual: map<string, map<string, nat>>,
                  specs: seq<Config.SheetSpec>, k: nat)
    requires k < |specs|
    ensures var s := specs[k];
            var cs := SpecComparisons(expected, actual, s);
            Results(expected, actual, specs[..k + 1]) == Results(expected, actual, specs[..k])[s.sheetName := cs]
            && Checked(expected, specs[..k + 1]) == Checked(expected, specs[..k]) + |ExpectedOf(expected, s.sheetName)|
            && Passed(expected, actual, specs[..k + 1]) == Passed(expected, actual, specs[..k]) + PassCount(cs)
            && Failed(expected, actual, specs[..k + 1]) == Failed(expected, actual, specs[..k]) + FailCount(cs)
  {
    assert specs[..k + 1][..k] == specs[..k];
  }

  /**
   * The inner loop of `validate_output` for one sheet: a comparison per expected platform, each
   * counted as checked and as passed or failed on top of the counts so far.
   */
  method CompareSheetCounts(expected: Dict<int>, actual: map<string, nat>, checked0: nat, passed0: nat, failed0: nat)
    returns (results: Dict<Comparison>, checked: nat, passed: nat, failed: nat)
    ensures results == CompareSheet(expected, actual)
    ensures checked == checked0 + |expected|
    ensures passed == passed0 + PassCount(results)
    ensures failed == failed0 + FailCount(results)
  {
    results := [];
    checked, passed, failed := checked0, passed0, failed0;
    for i := 0 to |expected|
      invariant results == CompareSheet(expected[..i], actual)
      invariant checked == checked0 + i
      invariant passed == passed0 + PassCount(results)
      invariant failed == failed0 + FailCount(results)
    {
      assert expected[..i + 1][..i] == expected[..i];
      var (platform, expectedCount) := expected[i];
      var actualCount := if platform in actual then actual[platform] else 0;
      var entry := Comparison(expectedCount, actualCount);
      // `results[platform] = ...`: a new key on distinct platforms (`CompareSheetAssigns`).
      results := results + [(platform, entry)];
      checked := checked + 1;
      if entry.Status() == PASS {
        passed := passed + 1;
      } else {
        failed := failed + 1;
      }
    }
    assert expected[..|expected|] == expected;
  }

  /**
   * The comparison and summary loop of `validate_output` over the sheet specifications `specs`
   * (the configured ones, `Config.SHEET_SPECS`, when called from `ValidateOutput`).
   */
  method CompareCounts(expected: map<string, Dict<int>>, actual: map<string, map<string, nat>>,
                       specs: seq<Config.SheetSpec>) returns (v: Validation)
    ensures v.results == Results(expected, actual, specs)
    ensures v.summary.checked == Checked(expected, specs)
    ensures v.summary.passed == Passed(expected, actual, specs)
    ensures v.summary.failed == Failed(expected, actual, specs)
    ensures v.summary.passed + v.summary.failed == v.summary.checked
    ensures v.summary.overall == PASS <==> v.summary.failed == 0
    ensures v.summary.checked == 0 ==> v.summary.overall == PASS
  {
    var comparison: map<string, Dict<Comparison>> := map[];
    var checked, passed, failed := 0, 0, 0;
    for k := 0 to |specs|
      invariant comparison == Results(expected, actual, specs[..k])
      invariant checked == Checked(expected, specs[..k])
      invariant passed == Passed(expected, actual, specs[..k])
      invariant failed == Failed(expected, actual, specs[..k])
    {
      TallyStep(expected, actual, specs, k);
      var spec := specs[k];
      var specExpected := ExpectedOf(expected, spec.sheetName);
      var specActual := ActualOf(actual, spec.outputSheetName);
      var sheetResults;
      sheetResults, checked, passed, failed := CompareSheetCounts(specExpected, specActual, checked, passed, failed);
      comparison := comparison[spec.sheetName := sheetResults];
    }
    assert specs[..|specs|] == specs;
    TallyAddsUp(expected, actual, specs);
    v := Validation(comparison, Summary(checked, passed, failed, if failed == 0 then PASS else FAIL));
  }

  /**
   * `validate_output` on a loaded input workbook and the output workbook as read back: the error
   * the block scan raises, or the comparisons and their summary.
   */
  method ValidateOutput(workbook: map<string, Grid>, output: Option<map<string, OutputSheet>>)
    returns (r: Result<Validation, ScanError>)
    ensures r.Failure? <==> ExpectedTotals(workbook, Config.SHEET_SPECS).Failure?
    ensures r.Success? ==>
              var expected := ExpectedTotals(workbook, Config.SHEET_SPECS).value;
              var actual := ActualCounts(output);
              r.value.results == Results(expected, actual, Config.SHEET_SPECS)
              && r.value.summary.checked == Checked(expected, Config.SHEET_SPECS)
              && r.value.summary.passed == Passed(expected, actual, Config.SHEET_SPECS)
              && r.value.summary.failed == Failed(expected, actual, Config.SHEET_SPECS)
              && (r.value.summary.overall == PASS <==> r.value.summary.failed == 0)
  {
    var expected := CollectExpectedTotals(workbook);
    if expected.Failure? {
      return Failure(expected.error);
    }
    var actual := ActualCounts(output);
    var v := CompareCounts(expected.value, actual, Config.SHEET_SPECS);
    r := Success(v);
  }

  // ---------------------------------------------------------------- input against output

  /** Every record of the list names platform `p`. */
  predicate AllNamed(records: seq<Record>, p: string) {
    forall x :: x in records ==> x.platform == p
  }

  /** Records that all name one platform count for that platform only. */
  lemma CountNamed(records: seq<Record>, q: string, p: string)
    requires AllNamed(records, q)
    ensures Count(PlatformColumn(records), p) == if p == q then |records| else 0
  {
    forall i | 0 <= i < |records|
      ensures PlatformColumn(records)[i] == q
    {
      assert records[i] in records;
    }
    CountUniform(PlatformColumn(records), q, p);
  }

  /** The records of the blocks in turn, each block's records given by `records`. */
  function Flat(secs: seq<PlatformSection>, records: PlatformSection -> seq<Record>): seq<Record>
    decreases |secs|
  {
    if secs == [] then [] else Flat(secs[..|secs| - 1], records) + records(secs[|secs| - 1])
  }

  /** `SectionRecords` as the records of one block. */
  function Blocks(g: Grid): PlatformSection -> seq<Record> {
    sec => SectionRecords(g, sec)
  }

  lemma {:induction false} AllRecordsFlat(g: Grid, secs: seq<PlatformSection>)
    ensures AllRecords(g, secs) == Flat(secs, Blocks(g))
    decreases |secs|
  {
    if secs != [] {
      AllRecordsFlat(g, secs[..|secs| - 1]);
    }
  }

  /** The platform column of the blocks' records counts block by block. */
  lemma CountStep(secs: seq<PlatformSection>, records: PlatformSection -> seq<Record>, p: string)
    requires secs != []
    ensures Count(PlatformColumn(Flat(secs, records)), p)
            == Count(PlatformColumn(Flat(secs[..|secs| - 1], records)), p) + Count(PlatformColumn(records(secs[|secs| - 1])), p)
  {
    var pre := Flat(secs[..|secs| - 1], records);
    var last := records(secs[|secs| - 1]);
    PlatformColumnAppend(pre, last);
    CountAppend(PlatformColumn(pre), PlatformColumn(last), p);
  }

  /** A platform no block names does not occur among the blocks' records. */
  lemma {:induction false} CountNoBlock(secs: seq<PlatformSection>, records: PlatformSection -> seq<Record>, p: string)
    requires forall k :: 0 <= k < |secs| ==> AllNamed(records(secs[k]), secs[k].platform)
    requires forall k :: 0 <= k < |secs| ==> secs[k].platform != p
    ensures Count(PlatformColumn(Flat(secs, records)), p) == 0
    decreases |secs|
  {
    if secs != [] {
      var n := |secs| - 1;
      assert forall k :: 0 <= k < n ==> secs[..n][k] == secs[k];
      CountNoBlock(secs[..n], records, p);
      CountStep(secs, records, p);
      CountNamed(records(secs[n]), secs[n].platform, p);
    }
  }

  /**
   * When no two blocks share a platform, a block's platform occurs among the records exactly as
   * often as the block emits records.
   */
  lemma {:induction false} CountBlock(secs: seq<PlatformSection>, records: PlatformSection -> seq<Record>, k: nat)
    requires k < |secs|
    requires forall i :: 0 <= i < |secs| ==> AllNamed(records(secs[i]), secs[i].platform)
    requires forall i, j :: 0 <= i < j < |secs| ==> secs[i].platform != secs[j].platform
    ensures Count(PlatformColumn(Flat(secs, records)), secs[k].platform) == |records(secs[k])|
    decreases |secs|
  {
    var n := |secs| - 1;
    var pre := secs[..n];
    var p := secs[k].platform;
    assert forall i :: 0 <= i < n ==> pre[i] == secs[i];
    CountStep(secs, records, p);
    CountNamed(records(secs[n]), secs[n].platform, p);
    if k == n {
      CountNoBlock(pre, records, p);
    } else {
      CountBlock(pre, records, k);
    }
  }

  /**
   * Input against output: when no two blocks of a sheet share a platform and every data row's
   * TOTAL is its record count, every platform's expected total equals the number of records
   * naming it, so every comparison of the sheet passes.
   */
  lemma SheetAgrees(g: Grid, secs: seq<PlatformSection>)
    requires forall i, j :: 0 <= i < j < |secs| ==> secs[i].platform != secs[j].platform
    requires forall k :: 0 <= k < |secs| ==> TotalsConsistent(g, secs[k])
    ensures FailCount(CompareSheet(TotalsFold(secs, BlockTotals(g)), PlatformCounts(PlatformColumn(AllRecords(g, secs))))) == 0
  {
    var expected := TotalsFold(secs, BlockTotals(g));
    var column := PlatformColumn(AllRecords(g, secs));
    AllRecordsFlat(g, secs);
    forall i | 0 <= i < |secs|
      ensures AllNamed(Blocks(g)(secs[i]), secs[i].platform)
    {
      SectionPlatform(g, secs[i]);
    }
    var cs := CompareSheet(expected, PlatformCounts(column));
    CompareSheetEntries(expected, PlatformCounts(column));
    forall i | 0 <= i < |cs|
      ensures cs[i].1.expected == cs[i].1.actual
    {
      var p := expected[i].0;
      TotalsDistinct(secs, BlockTotals(g));
      LookupAt(expected, i);
      TotalsPresent(secs, BlockTotals(g), p);
      var k :| 0 <= k < |secs| && secs[k].platform == p;
      TotalsLast(secs, BlockTotals(g), k);
      TotalsCount(g, secs[k]);
      CountBlock(secs, Blocks(g), k);
      CountsLookup(column, p);
    }
    NoFailures(cs);
  }

  /** In a dict with unique keys, looking up the key of an entry gives that entry's value. */
  lemma {:induction false} LookupAt<V>(d: Dict<V>, i: nat)
    requires DistinctKeys(d) && i < |d|
    ensures Lookup(d, d[i].0) == Some(d[i].1)
    decreases |d|
  {
    if i > 0 {
      assert d[1..][i - 1] == d[i];
      assert DistinctKeys(d[1..]);
      LookupAt(d[1..], i - 1);
    }
  }

  /**
   * A sheet whose blocks name distinct platforms and whose data rows each state their record
   * count in TOTAL passes validation against the expander's output for it: no comparison fails.
   */
  lemma SheetValidates(g: Grid, dual: bool)
    requires Sections(g, dual).Success?
    requires var secs := Sections(g, dual).value;
             forall i, j :: 0 <= i < j < |secs| ==> secs[i].platform != secs[j].platform
    requires forall k :: 0 <= k < |Sections(g, dual).value| ==> TotalsConsistent(g, Sections(g, dual).value[k])
    ensures SheetTotals(g, dual).Success? && SheetRecords(g, dual).Success?
    ensures FailCount(CompareSheet(SheetTotals(g, dual).value,
                                   PlatformCounts(PlatformColumn(SheetRecords(g, dual).value)))) == 0
  {
    SheetAgrees(g, Sections(g, dual).value);
  }
}

=== FILE: wrappers.dfy ===
/** Failure-compatible wrappers used for the source's `None` results and raised errors. */
module Wrappers {

  datatype Option<+T> = None | Some(value: T)

  datatype Result<+R, +E> = Success(value: R) | Failure(error: E)

  /** Items produced before a computation that may fail: kept on success, lost with the failure. */
  function Prepend<T, E>(xs: seq<T>, r: Result<seq<T>, E>): (p: Result<seq<T>, E>)
    ensures p.Success? <==> r.Success?
    ensures p.Success? ==> p.value == xs + r.value
    ensures p.Failure? ==> p.error == r.error
  {
    match r
    case Success(ys) => Success(xs + ys)
    case Failure(e) => Failure(e)
  }

  lemma PrependNothing<T, E>(r: Result<seq<T>, E>)
    ensures Prepend([], r) == r
  {
    if r.Success? {
      assert [] + r.value == r.value;
    }
  }

  lemma PrependAssoc<T, E>(xs: seq<T>, ys: seq<T>, r: Result<seq<T>, E>)
    ensures Prepend(xs + ys, r) == Prepend(xs, Prepend(ys, r))
  {
    if r.Success? {
      assert xs + ys + r.value == xs + (ys + r.value);
    }
  }
}
